=== FILE: README.md ===
# HyprWire protocol descriptors in Dafny

HyprWire describes a wire protocol in an XML descriptor document. The document holds a
`protocol` element with a name, a version, an optional copyright and an optional description.
Its body is an ordered list of `enum`s and versioned `object`s. Each object has `c2s` requests
and `s2c` events, each with `arg`s and an optional `returns`.

This project models the three parts of the editor that read, write and check such documents:

- **Text utilities** (`src/lib/xml-utils.js`): entity escaping and unescaping, normalisation
  of a multi-line text block, and the renderer that indents a block inside its tag.
- **Validators** (`src/lib/validators.js`): the checks for names, versions, duplicate enum
  indices and method directions. They collect an ordered list of error messages.
- **Codec** (`src/lib/parser.js`): `parse` maps an element tree to the protocol model, and
  `serialize` writes the model back as text. The two lookups `getMethodsByDirection` and
  `findMethod` are modelled as well.

## Modules

| file | module | models |
|---|---|---|
| `wrappers.dfy` | `Wrappers` | `Option` and `Result` |
| `seqs.dfy` | `Seqs` | concatenation of pieces (`Flatten`), counting, `Map` |
| `numbers.dfy` | `Numbers` | numbers as written in attributes; `None` is `NaN` |
| `text.dfy` | `Text` | whitespace, `trim`, `split('\n')`/`join('\n')` |
| `xml_escape.dfy` | `XmlEscape` | `escapeXml`, `unescapeXml` |
| `xml_blocks.dfy` | `XmlBlocks` | text-block normalisation and `serializeMultilineElement` |
| `dom.dfy` | `Dom` | the element tree a DOM parser hands over, `getAttribute`, `querySelector` |
| `protocol.dfy` | `Protocol` | the protocol model |
| `validators.dfy` | `Validators` | `validateEnum`, `validateObject`, `validateProtocol` |
| `parser.dfy` | `Parser` | `parse`, `_parseElements`, `_parseSingleEnum`, `_parseSingleObject`, `_parseMethod`, `_parseDescription`, `getDirectTextContent` |
| `serializer.dfy` | `Serializer` | `serialize`, `_serializeEnum`, `_serializeObject`, `_serializeMethod`, `_serializeDescription` |
| `queries.dfy` | `Queries` | `getMethodsByDirection`, `findMethod` |
| `roundtrip.dfy` | `RoundTrip` | reading back what `serialize` writes |

The validators and the codec's loops are imperative in the source: they push to arrays and
append to strings inside loops. Each such loop is a `method` with a `while` loop. Its
`ensures` ties the result to a declarative function: one piece or one error group per item,
concatenated in order. The properties are then lemmas about those functions.

The text utilities, `_parseDescription`'s clean-up and the two lookups are pure in the
source. They are modelled as functions.

`parse` starts from an abstract element tree. Each element has a tag, an attribute map,
its element children in document order, and its `textContent`. For the round trip,
`serialize`'s text is related to the element tree that text denotes. That tree is the one
an XML reader would produce, with every attribute value and text decoded by `unescapeXml`.
The reader's other rewrites are not modelled: attribute-value normalisation turns tab, line
feed and carriage return into spaces, and end-of-line handling turns a carriage return in
text into a line feed (sections 3.3.3 and 2.11 of the XML 1.0 specification). A reader also
rejects characters XML 1.0 does not allow and `]]>` in text. The round-trip lemmas therefore
require written attribute values and texts to be free of all of these (`RoundTrip.AttrSafe`,
`RoundTrip.AttrPlain`, `RoundTrip.TextPlain`). On such values the program does not read back
what it wrote, and the model does not claim that it does.

## Model

| member | source | states |
|---|---|---|
| Numbers.ParsePrinted | src/lib/parser.js:147 | reading back a number as `serialize` prints it (`${version}`, `${idx}`) gives the same number, negatives and `NaN` included |
| Numbers.NumTextInjective | src/lib/parser.js:165 | two different numbers never print the same |
| Numbers.ParseDigits | src/lib/parser.js:129 | a digit string yields a number exactly when it is non-empty and all digits, and that number is never negative |
| Text.TrimEnd | src/lib/parser.js:182 | `trimEnd` keeps a prefix of its input, removes only whitespace, and leaves no whitespace at the end |
| Text.TrimStart | src/lib/xml-utils.js:65 | `trim`'s left half keeps a suffix, removes only whitespace, and leaves no whitespace at the start |
| Text.TrimProperties | src/lib/xml-utils.js:65 | `trim` leaves no whitespace at either end, and is empty exactly when its input is blank |
| Text.TrimTrimmed | src/lib/xml-utils.js:65 | `trim` leaves a string without boundary whitespace unchanged |
| Text.LeadingSpaces | src/lib/xml-utils.js:55-56 | the length of `/^(\s*)/`'s match: a whitespace prefix followed by a non-whitespace character or the end |
| Text.JoinSplit | src/lib/xml-utils.js:48 | `split('\n')` then `join('\n')` returns the original text |
| Text.SplitJoin | src/lib/xml-utils.js:65 | splitting lines joined by `\n` gives the same lines back when none holds a newline |
| XmlEscape.EscapeIsEncode | src/lib/xml-utils.js:12-16 | the chain of four replace-alls equals encoding each character on its own: `&`, `<`, `>`, `"` become their entities, every other character stays |
| XmlEscape.UnescapeEscape | src/lib/xml-utils.js:24-30 | `unescapeXml(escapeXml(s)) == s` for every string |
| XmlEscape.EscapeIsEscaped | src/lib/xml-utils.js:10-17 | escaped text has no raw `<`, `>` or `"`, and each `&` starts `&amp;`, `&lt;`, `&gt;` or `&quot;` |
| XmlEscape.EscapeEmpty | src/lib/xml-utils.js:11 | escaping gives the empty string exactly for the empty input |
| XmlBlocks.MinIndent | src/lib/xml-utils.js:53-58 | the common indentation is at most every line's indentation and equals one line's |
| XmlBlocks.NormalizeAbsent | src/lib/xml-utils.js:43-51 | a block normalises to absent exactly when it is blank after dropping one leading and one trailing newline |
| XmlBlocks.NormalizeIsCanonical | src/lib/xml-utils.js:60-65 | a normalised block is non-empty and trimmed, and each of its lines is empty or not blank |
| XmlBlocks.NormalizeIdempotent | src/lib/xml-utils.js:43-65 | normalising a normalised block returns it unchanged |
| XmlBlocks.NormalizeIndent | src/lib/xml-utils.js:53-63 | adding the same whitespace before every non-blank line does not change the normalised block |
| XmlBlocks.NormalizeBlankLinesEmpty | src/lib/xml-utils.js:60-61 | whitespace-only lines come out of normalisation as empty lines |
| XmlBlocks.RenderBlank | src/lib/xml-utils.js:78-80 | absent or blank content renders exactly as `spaces<tag>\nspaces</tag>\n` |
| XmlBlocks.BodyLines | src/lib/xml-utils.js:82-88 | for trimmed content with trimmed lines, the text between the tags is a newline, each content line with `indent+2` spaces before it (a blank line stays empty), then a newline and the closing indentation |
| XmlBlocks.RenderSeesTrimmedLines | src/lib/xml-utils.js:82-86 | rendering depends only on the trimmed lines of the content |
| XmlBlocks.FormattedPresent | src/lib/xml-utils.js:82-86 | non-blank content gives formatted text that is non-empty and starts with a non-whitespace character |
| XmlBlocks.RenderAbsent | src/lib/xml-utils.js:75-89 | what is rendered between the tags normalises to absent exactly when the content is absent or blank |
| XmlBlocks.RenderPresent | src/lib/xml-utils.js:82-88 | non-blank content renders to a body whose normalisation is present |
| XmlBlocks.RenderRoundTrip | src/lib/xml-utils.js:82-88 | when the content is trimmed, each of its lines is trimmed, and it is not blank, normalising the rendered body gives back the content itself |
| Dom.GetAttribute | src/lib/parser.js:86 | `getAttribute` is present exactly when the attribute is, with its value |
| Dom.AttrOr | src/lib/parser.js:146 | reading an attribute with a default gives the default exactly when the attribute is missing, empty or equal to it, and otherwise the attribute value |
| Dom.ChildrenTagged | src/lib/parser.js:127 | a `:scope > tag` selection holds only children with the selected tags |
| Dom.ChildrenTaggedMember | src/lib/parser.js:152 | a child is selected exactly when it is a direct child with one of the tags |
| Dom.ChildrenTaggedAppend | src/lib/parser.js:152 | the selection keeps document order: selecting from two runs of children concatenates the selections |
| Dom.FirstTagged | src/lib/parser.js:80 | the first element with the tag is one of them, and there is none exactly when no element carries the tag |
| Dom.QuerySelectorIsFirstInOrder | src/lib/parser.js:80 | `querySelector('protocol')` answers the first `protocol` element in document (pre-)order |
| Dom.QuerySelectorNone | src/lib/parser.js:80-81 | `querySelector` answers nothing exactly when no element of the tree has the tag |
| Dom.FirstChildTaggedNone | src/lib/parser.js:191-192 | `querySelector(':scope > tag')` answers nothing exactly when no direct child has the tag, and otherwise a direct child with it |
| Validators.ValidateEnum | src/lib/validators.js:12-32 | the loop with its set of seen indices returns exactly the enum's specified errors: the missing name, then per value in order its duplicate index and its missing name |
| Validators.DuplicateCount | src/lib/validators.js:19-24 | the duplicate-index errors number the values minus the distinct indices, so `k` equal indices give `k-1` errors |
| Validators.MissingNameCount | src/lib/validators.js:26-28 | there is one missing-name error per unnamed value |
| Validators.EnumErrorCount | src/lib/validators.js:15-29 | the error count is the enum's missing name plus the duplicate-index errors plus the unnamed values |
| Validators.EnumValid | src/lib/validators.js:12-32 | an enum has no errors exactly when it is named, every value is named and no two values share an index |
| Validators.SharedIndexExample | src/lib/validators.js:19-24 | two named values with index 0 give exactly one duplicate error and nothing else |
| Validators.ValidateObject | src/lib/validators.js:40-62 | the loop returns exactly the object's specified errors: the missing name, the invalid version, then per method in order its missing name and its invalid direction |
| Validators.VersionErrorIff | src/lib/validators.js:47-49 | the invalid-version error is reported exactly when the version is missing, `NaN` or below 1 |
| Validators.MethodErrorCounts | src/lib/validators.js:51-59 | there is one direction error per method whose direction is not `c2s` or `s2c`, one missing-name error per unnamed method, and no other method errors |
| Validators.BadDirectionExample | src/lib/validators.js:56-58 | a method with direction `x2y` gives exactly one error |
| Validators.ObjectValid | src/lib/validators.js:40-62 | an object has no errors exactly when it is named, its version is at least 1 and every method is named with a valid direction |
| Validators.ValidateElements | src/lib/validators.js:80-86 | the loop over elements appends each element's errors in element order |
| Validators.ElementsErrorsInOrder | src/lib/validators.js:80-86 | the element errors are the concatenation of every element's own errors in element order |
| Validators.ValidateProtocol | src/lib/validators.js:69-92 | the messages are the protocol-level errors followed by the element errors, and `valid` holds exactly when there are none |
| Validators.ProtocolValid | src/lib/validators.js:69-92 | a protocol is valid exactly when it is named, its version is at least 1 and no element has an error |
| Parser.ToLower | src/lib/parser.js:153 | lower-casing keeps the length, leaves no upper-case ASCII letter, and changes no other character |
| Parser.Parse | src/lib/parser.js:76-95 | `parse` fails, with the source's message, exactly when no element is a `protocol`, and otherwise builds the model from the first `protocol` element in document order |
| Parser.ParseElements | src/lib/parser.js:98-116 | the loop over children returns one entry per direct `enum` or `object` child, in order |
| Parser.ParseSingleEnum | src/lib/parser.js:124-135 | the loop returns the enum's name and one value per direct `value` child, in order |
| Parser.ParseSingleObject | src/lib/parser.js:143-156 | the loop returns the object with one method per direct `c2s` or `s2c` child, in order, its direction the lower-cased tag |
| Parser.ParseMethod | src/lib/parser.js:312-348 | the loop returns the method with one argument per direct `arg` child, in order |
| Parser.ElementsFromChildren | src/lib/parser.js:98-116 | the elements correspond one to one, in order, to the direct `enum` and `object` children, tagged with the child's kind, and every such child is parsed |
| Parser.ElementsOfAppend | src/lib/parser.js:102-114 | parsing keeps document order: two runs of children give the two runs of elements |
| Parser.OtherChildIgnored | src/lib/parser.js:103-113 | a child that is neither `enum` nor `object` contributes nothing |
| Parser.ParsedElementsKnown | src/lib/parser.js:104-112 | every parsed entry is an enum or an object |
| Parser.EnumValuesFromChildren | src/lib/parser.js:127-133 | value k is the parse of the k-th direct `value` child, so the values are exactly those children, each parsed, in document order |
| Parser.ArgsFromChildren | src/lib/parser.js:322-338 | argument k is the parse of the k-th direct `arg` child, so there is one argument per such child, in document order |
| Parser.MethodsFromChildren | src/lib/parser.js:152-154 | the methods correspond one to one, in order, to the direct `c2s`/`s2c` children, and every direction is valid |
| Parser.DestructorFlag | src/lib/parser.js:318 | `destructor` holds exactly when the attribute is literally `"true"` |
| Parser.ReturnsFlag | src/lib/parser.js:341-345 | `returns` is present exactly when a direct `returns` child exists, and is `''` exactly when its `iface` is missing or empty |
| Parser.InterfaceFlag | src/lib/parser.js:331-334 | `interface` is set exactly when the attribute is present, even if empty |
| Parser.NameDefault | src/lib/parser.js:86 | a missing or empty `name` becomes `''` on every entity, and a present one is kept |
| Parser.NumberDefaults | src/lib/parser.js:147 | a missing or empty `version` becomes 1 on the protocol and on objects, and a missing `idx` becomes 0 |
| Parser.PrintedNumbersReadBack | src/lib/parser.js:129 | a `version` or `idx` attribute holding a printed number parses to that number |
| Parser.DirectTextContent | src/lib/xml-utils.js:39-66 | `getDirectTextContent` is absent exactly when there is no such direct child or its text is blank after the boundary newlines, and otherwise canonical |
| Parser.DescriptionTextIsNormalize | src/lib/parser.js:195-227 | `_parseDescription`'s inline clean-up agrees with `getDirectTextContent`'s normalisation on every text |
| Parser.ParseDescriptionAbsent | src/lib/parser.js:229-242 | `_parseDescription` is absent exactly when there is no such child, or it has no truthy `summary` and its text normalises to nothing |
| Parser.ParseDescriptionFields | src/lib/parser.js:229-242 | otherwise it keeps the truthy `summary` and the normalised text, each only when present |
| Serializer.SerializeValue | src/lib/parser.js:360-364 | one `value` line, with an escaped `description` only when it is truthy |
| Serializer.SerializeEnum | src/lib/parser.js:354-369 | the `+=` loop returns the `enum` line, one value line per value in order, and the closing lines |
| Serializer.SerializeArg | src/lib/parser.js:428-431 | one `arg` line with `interface` and the escaped `summary` only when truthy |
| Serializer.SerializeArgs | src/lib/parser.js:427-432 | the loop appends one `arg` line per argument, in order |
| Serializer.SerializeMethod | src/lib/parser.js:417-440 | the method's opening tag, description, argument lines, `returns` line and closing tag, in that order |
| Serializer.SerializeMethods | src/lib/parser.js:382 | the loop appends each method's text, in order |
| Serializer.SerializeObject | src/lib/parser.js:375-387 | the object's opening tag, description, the methods' text with trailing whitespace cut to one newline, and the closing lines |
| Serializer.SerializeElement | src/lib/parser.js:178-179 | an entry is written by its type, and an entry of another type writes nothing |
| Serializer.SerializeElements | src/lib/parser.js:177-180 | the loop appends each entry's text, in order |
| Serializer.Serialize | src/lib/parser.js:163-183 | `serialize` returns the prolog, the header, the truthy text blocks and the elements, trimmed at the end, then `\n</protocol>` |
| Serializer.SerializeFrame | src/lib/parser.js:163-183 | every document starts with the XML prolog and the `<protocol name=… version=…>` tag and ends with `\n</protocol>` |
| Serializer.EmptyProtocolXml | src/lib/parser.js:164-182 | a protocol with no text blocks and no elements is exactly the prolog, the opening tag and the closing tag |
| Serializer.ElementsInOrder | src/lib/parser.js:177-180 | the elements' text is their texts concatenated in their original order |
| Serializer.OtherElementSkipped | src/lib/parser.js:177-180 | an entry of an unknown type leaves the document unchanged |
| Serializer.ValueDescriptionShown | src/lib/parser.js:361-363 | a value's `description` changes its line exactly when it is truthy |
| Serializer.DestructorShown | src/lib/parser.js:419 | `destructor="true"` changes the method's text exactly when the method is a destructor |
| Serializer.ReturnsShown | src/lib/parser.js:434-436 | `returns` changes the method's text exactly when it is truthy |
| Serializer.InterfaceShown | src/lib/parser.js:429 | an argument's `interface` changes its line exactly when it is truthy |
| Serializer.ArgSummaryShown | src/lib/parser.js:430 | an argument's `summary` changes its line exactly when it is truthy |
| Serializer.CopyrightShown | src/lib/parser.js:167-170 | the copyright changes the document body exactly when it is truthy |
| Serializer.DescriptionTextReadBack | src/lib/parser.js:394-411 | a description's blank text reads back as absent, and a trimmed text with trimmed lines reads back unchanged |
| Queries.MethodsByDirection | src/lib/parser.js:592 | the filter keeps at most the input's methods, all with the asked direction |
| Queries.GetMethodsByDirection | src/lib/parser.js:591-593 | the result holds exactly the object's methods with that direction |
| Queries.MethodsByDirectionAppend | src/lib/parser.js:592 | filtering keeps the original order: filtering two runs concatenates the results |
| Queries.MethodsByDirectionIdempotent | src/lib/parser.js:592 | filtering again by the same direction changes nothing |
| Queries.DirectionsPartition | src/lib/parser.js:591-593 | when every method is `c2s` or `s2c`, the two selections together count every method |
| Queries.FindMethod | src/lib/parser.js:582 | a found method is one of the methods and has the name |
| Queries.FindMethodIn | src/lib/parser.js:581-583 | `findMethod` is absent exactly when no method has the name |
| Queries.FindMethodFirst | src/lib/parser.js:582 | a found method is the first method with the name |
| RoundTrip.ValueRoundTrip | src/lib/parser.js:128-131 | parsing a written enum value gives it back |
| RoundTrip.LineFeedNotWritable | src/lib/parser.js:361-363 | a value whose description holds a line feed, which a reader would turn into a space, is outside the round trip |
| RoundTrip.EnumRoundTrip | src/lib/parser.js:354-369 | parsing a written enum gives it back |
| RoundTrip.TextRoundTrip | src/lib/xml-utils.js:43-88 | a rendered, decoded text block normalises back to the text |
| RoundTrip.DescriptionsRoundTrip | src/lib/parser.js:394-411 | parsing a written description that has a summary or a text gives it back, and an absent one stays absent |
| RoundTrip.ArgRoundTrip | src/lib/parser.js:324-338 | parsing a written argument gives it back |
| RoundTrip.MethodRoundTrip | src/lib/parser.js:417-440 | parsing a written method whose direction is `c2s` or `s2c` gives it back, direction included |
| RoundTrip.ObjectRoundTrip | src/lib/parser.js:375-387 | parsing a written object gives it back, when its methods' directions are `c2s` or `s2c` and its descriptions are non-empty |
| RoundTrip.ElementsRoundTrip | src/lib/parser.js:98-116 | parsing the written elements gives back every enum and object in order, and drops entries of other types |
| RoundTrip.TextBlockRoundTrip | src/lib/parser.js:167-175 | the written copyright and description read back unchanged |
| RoundTrip.ProtocolRoundTrip | src/lib/parser.js:85-91 | parsing the written protocol element gives the protocol back, without entries of unknown types |
| RoundTrip.ParseWritten | src/lib/parser.js:76-95 | `parse` succeeds on the written document and returns the protocol |

## Left out

- **XML tokenisation.** `DOMParser` (src/lib/parser.js:77-78) is a browser API. `parse` starts from the element tree it would produce. Malformed XML and parse errors are not modelled.
- **Reading back serialised text.** Going from `serialize`'s text to a tree is done by the reader model described above, not by a tokenizer. Text between container tags is not represented, since `parse` never reads it.
- **Integer parsing.** The program calls `parseInt` without a radix (src/lib/parser.js:87, 129, 147). `parseInt` then accepts leading blanks, reads a digit prefix and ignores the rest, and reads a `0x` or `0X` prefix as base 16, so `idx="0x10"` is 16 in the program. `Numbers.ParseDecimal` accepts only a whole decimal string with an optional `-` or `+`, and anything else, `0x10` included, is `NaN` (`None`).
- **Number width.** `Num` is an unbounded integer or `NaN`. JavaScript numbers are doubles: above 2^53 `parseInt` rounds, so two different index strings can parse to the same number, and from 10^21 up `${n}` prints an exponent form (`1e+21`) that `parseInt` reads as 1. The model matches the program only for integers with absolute value below 2^53.
- Numbers.ParsePrinted: holds for every integer in the model, but in the program only for integers with absolute value below 2^53, for the reason above.
- Parser.PrintedNumbersReadBack: as for `Numbers.ParsePrinted`, matches the program only for absolute values below 2^53; the round-trip lemmas inherit the same bound for `idx` and `version`.
- **Unicode whitespace.** `trim` and `\s` are modelled with the ASCII whitespace set (space, tab, line feed, vertical tab, form feed, carriage return). `toLowerCase` is modelled on ASCII letters only.
- **Message formatting.** The validators build structured errors. `Validators.Message` renders each error with the source's wording. JavaScript's formatting of `NaN` and `undefined` inside messages is not modelled.
- **Never modifies, never throws.** The validators take values and are total methods without `modifies`, so both hold by construction; there is no separate lemma.
- **Element entries.** An element of another type is `OtherElement(kind)`. `Parser.ElementOf` is total and treats every kept non-`enum` child as an `object`; it is only applied to children already selected as `enum` or `object`.
- **Absent inputs.** `escapeXml` of `undefined` or `null` (src/lib/xml-utils.js:11) is not modelled, because strings are never absent in Dafny. The empty input is modelled.
- RoundTrip.ProtocolRoundTrip: assumes that names, types, interfaces, `returns` and text blocks contain no `&`, `<` or `"`, because they are written unescaped (src/lib/parser.js:165, 356, 360, 377, 420, 428-429, 435). It also assumes that optional strings are absent rather than empty, because falsy values are not written. Every attribute value, escaped ones included, must hold no tab, line feed or carriage return, and every text block no carriage return and no `]]>`. The program does not read such values back unchanged, because an XML reader normalises them; the reader model leaves that normalisation out and the preconditions exclude those values instead. It also assumes that every method's direction is `c2s` or `s2c`, because a method is written under its direction as tag (src/lib/parser.js:421) and only those two tags are read back as methods (src/lib/parser.js:152). It also assumes that every present description has a summary or a text, because an empty description is written as an empty element (src/lib/parser.js:399-401) and reads back as absent (src/lib/parser.js:242). The same preconditions apply to the other `RoundTrip` lemmas and to `RoundTrip.ParseWritten`.
- RoundTrip.TextRoundTrip: holds only for text that is trimmed and whose lines are trimmed. Relative indentation inside a block is lost when it is rendered (src/lib/xml-utils.js:84).
- **JSON conversion.** `toJSON`/`fromJSON` (src/lib/parser.js:447-458) are wrappers over the JSON built-ins.
- **Functions over fields `parse` never sets.** `toMarkdown`, `_methodToMarkdown`, `findEnum`, `findObject`, `validate` and `compare` (src/lib/parser.js:465-682) read `protocol.enums`/`protocol.objects`.
- **Dead code.** `_parseEnums`/`_parseObjects` (src/lib/parser.js:249-306) are never called.
- **Other files.** src/lib/form-helpers.js (UI event handlers), stores, component exports and build configuration are not part of this model.

=== FILE: dom.dfy ===
/**
 * The element tree the browser's XML parser hands to the protocol parser, and the few DOM
 * queries the parser makes on it: attribute lookup, direct children with a given tag
 * (`:scope > t`) and the document-wide first match (`querySelector('protocol')`).
 */
module Dom {
  import opened Wrappers

  /**
   * An element: its tag, its attributes, its child elements in document order, and its
   * `textContent` (the concatenated text of all descendants).
   */
  datatype Element = Element(tag: string, attrs: map<string, string>, children: seq<Element>, text: string)

  /** `el.getAttribute(name)`: `null` (`None`) when absent. */
  function GetAttribute(e: Element, name: string): (r: Option<string>)
    ensures r.Some? <==> name in e.attrs
    ensures r.Some? ==> r.value == e.attrs[name]
  {
    if name in e.attrs then Some(e.attrs[name]) else None
  }

  /** A JavaScript string is truthy when it is present and not empty. */
  predicate Truthy(s: Option<string>) {
    s.Some? && s.value != []
  }

  /** `el.getAttribute(name) || d`: the attribute, unless it is absent or empty. */
  function AttrOr(e: Element, name: string, d: string): (r: string)
    ensures r == d <==> !Truthy(GetAttribute(e, name)) || e.attrs[name] == d
    ensures r != d ==> GetAttribute(e, name) == Some(r)
  {
    match GetAttribute(e, name)
    case Some(v) => if v != [] then v else d
    case None => d
  }

  /** `querySelectorAll(':scope > t1, :scope > t2, ...')`: the direct children with one of the tags, in order. */
  function ChildrenTagged(cs: seq<Element>, tags: set<string>): (r: seq<Element>)
    ensures |r| <= |cs|
    ensures forall x :: x in r ==> x.tag in tags
    decreases |cs|
  {
    if cs == [] then []
    else (if cs[0].tag in tags then [cs[0]] else []) + ChildrenTagged(cs[1..], tags)
  }

  /** `querySelector(':scope > t')`: the first direct child with the tag. */
  function FirstChildTagged(e: Element, tag: string): Option<Element> {
    var r := ChildrenTagged(e.children, {tag});
    if r == [] then None else Some(r[0])
  }

  /** The tree in document (pre-)order: the element, then each child's subtree in turn. */
  function Preorder(e: Element): (r: seq<Element>)
    ensures |r| >= 1 && r[0] == e
    decreases e, 1
  {
    [e] + PreorderAll(e.children)
  }

  function PreorderAll(cs: seq<Element>): seq<Element>
    decreases cs, 0
  {
    if cs == [] then [] else Preorder(cs[0]) + PreorderAll(cs[1..])
  }

  /** The first element of a sequence with the tag. */
  function FirstTagged(xs: seq<Element>, tag: string): (r: Option<Element>)
    ensures r.Some? ==> r.value in xs && r.value.tag == tag
    ensures r.None? <==> forall i :: 0 <= i < |xs| ==> xs[i].tag != tag
    decreases |xs|
  {
    if xs == [] then None
    else if xs[0].tag == tag then Some(xs[0])
    else FirstTagged(xs[1..], tag)
  }

  /** `doc.querySelector(tag)`: a depth-first search that stops at the first match, the element itself included. */
  function QuerySelector(e: Element, tag: string): Option<Element>
    decreases e, 1
  {
    if e.tag == tag then Some(e) else QuerySelectorAll(e.children, tag)
  }

  function QuerySelectorAll(cs: seq<Element>, tag: string): Option<Element>
    decreases cs, 0
  {
    if cs == [] then None
    else
      match QuerySelector(cs[0], tag)
      case Some(x) => Some(x)
      case None => QuerySelectorAll(cs[1..], tag)
  }

  // ---------------------------------------------------------------- lemmas

  lemma {:induction false} FirstTaggedAppend(a: seq<Element>, b: seq<Element>, tag: string)
    ensures FirstTagged(a + b, tag) == if FirstTagged(a, tag).Some? then FirstTagged(a, tag) else FirstTagged(b, tag)
    decreases |a|
  {
    if a == [] {
      assert a + b == b;
    } else {
      assert (a + b)[0] == a[0] && (a + b)[1..] == a[1..] + b;
      FirstTaggedAppend(a[1..], b, tag);
    }
  }

  /**
   * The search finds exactly the first element in document order with the tag, and nothing
   * when no element of the tree has it.
   */
  lemma {:induction false} QuerySelectorIsFirstInOrder(e: Element, tag: string)
    ensures QuerySelector(e, tag) == FirstTagged(Preorder(e), tag)
    decreases e, 1
  {
    var p := Preorder(e);
    if e.tag != tag {
      assert p[1..] == PreorderAll(e.children);
      QuerySelectorAllIsFirstInOrder(e.children, tag);
    }
  }

  lemma {:induction false} QuerySelectorAllIsFirstInOrder(cs: seq<Element>, tag: string)
    ensures QuerySelectorAll(cs, tag) == FirstTagged(PreorderAll(cs), tag)
    decreases cs, 0
  {
    if cs != [] {
      QuerySelectorIsFirstInOrder(cs[0], tag);
      QuerySelectorAllIsFirstInOrder(cs[1..], tag);
      FirstTaggedAppend(Preorder(cs[0]), PreorderAll(cs[1..]), tag);
    }
  }

  /** The search fails exactly when no element of the tree has the tag. */
  lemma QuerySelectorNone(e: Element, tag: string)
    ensures QuerySelector(e, tag).None? <==> forall x :: x in Preorder(e) ==> x.tag != tag
    ensures QuerySelector(e, tag).Some? ==> QuerySelector(e, tag).value.tag == tag
  {
    QuerySelectorIsFirstInOrder(e, tag);
    var p := Preorder(e);
    assert (forall x :: x in p ==> x.tag != tag) <==> (forall i :: 0 <= i < |p| ==> p[i].tag != tag);
  }

  /** The direct-children selector keeps exactly the children with one of the tags. */
  lemma {:induction false} ChildrenTaggedMember(cs: seq<Element>, tags: set<string>, x: Element)
    ensures x in ChildrenTagged(cs, tags) <==> x in cs && x.tag in tags
    decreases |cs|
  {
    if cs != [] {
      ChildrenTaggedMember(cs[1..], tags, x);
      assert x in cs <==> x == cs[0] || x in cs[1..];
    }
  }

  /** Selecting from consecutive runs of children selects from each run in turn: document order is kept. */
  lemma {:induction false} ChildrenTaggedAppend(a: seq<Element>, b: seq<Element>, tags: set<string>)
    ensures ChildrenTagged(a + b, tags) == ChildrenTagged(a, tags) + ChildrenTagged(b, tags)
    decreases |a|
  {
    if a == [] {
      assert a + b == b;
    } else {
      assert (a + b)[0] == a[0] && (a + b)[1..] == a[1..] + b;
      ChildrenTaggedAppend(a[1..], b, tags);
    }
  }

  /** The first-child query is the head of the direct-children selector, and is absent exactly when no child has the tag. */
  lemma FirstChildTaggedNone(e: Element, tag: string)
    ensures FirstChildTagged(e, tag).None? <==> forall i :: 0 <= i < |e.children| ==> e.children[i].tag != tag
    ensures FirstChildTagged(e, tag).Some? ==>
              FirstChildTagged(e, tag).value in e.children && FirstChildTagged(e, tag).value.tag == tag
  {
    var r := ChildrenTagged(e.children, {tag});
    if r != [] {
      ChildrenTaggedMember(e.children, {tag}, r[0]);
    } else {
      forall i | 0 <= i < |e.children| ensures e.children[i].tag != tag {
        ChildrenTaggedMember(e.children, {tag}, e.children[i]);
      }
    }
  }
}

=== FILE: numbers.dfy ===
/**
 * The numbers of the protocol model. The source keeps indices and versions as JavaScript
 * numbers produced by `parseInt`; a failed parse gives `NaN`, written here as `None`.
 */
module Numbers {
  import opened Wrappers

  /** An integer-valued JavaScript number, or `NaN` (`None`). */
  type Num = Option<int>

  predicate IsDigit(c: char) {
    '0' <= c <= '9'
  }

  function DigitChar(d: nat): (c: char)
    requires d < 10
    ensures IsDigit(c) && c as int - '0' as int == d
  {
    ('0' as int + d) as char
  }

  function DigitValue(c: char): (d: nat)
    requires IsDigit(c)
    ensures d < 10
  {
    c as int - '0' as int
  }

  predicate AllDigits(s: string) {
    forall i :: 0 <= i < |s| ==> IsDigit(s[i])
  }

  /** Decimal digits of a natural number, most significant first, with no leading zero. */
  function NatToString(n: nat): (s: string)
    ensures |s| >= 1 && AllDigits(s)
    ensures s[0] == '0' ==> n == 0
    decreases n
  {
    if n < 10 then [DigitChar(n)] else NatToString(n / 10) + [DigitChar(n % 10)]
  }

  /** `String(n)` for an integer: an optional minus sign and the digits. */
  function IntToString(i: int): string {
    if i < 0 then "-" + NatToString(-i) else NatToString(i)
  }

  /** How a number prints inside a template literal: `NaN` for a failed parse. */
  function NumText(n: Num): (s: string)
    ensures s != []
  {
    match n
    case None => "NaN"
    case Some(i) => IntToString(i)
  }

  /** The value of a run of decimal digits. */
  function DigitsValue(s: string): nat
    requires AllDigits(s)
    decreases |s|
  {
    if s == [] then 0 else DigitsValue(s[..|s| - 1]) * 10 + DigitValue(s[|s| - 1])
  }

  /** An unsigned decimal numeral: one or more digits, nothing else. */
  function ParseDigits(s: string): (r: Num)
    ensures r.Some? <==> s != [] && AllDigits(s)
    ensures r.Some? ==> r.value >= 0
  {
    if s != [] && AllDigits(s) then Some(DigitsValue(s)) else None
  }

  /**
   * The lenient integer parse of an attribute value: an optional sign and a decimal numeral;
   * anything else is `NaN`.
   */
  function ParseDecimal(s: string): Num {
    if |s| > 0 && s[0] == '-' then
      match ParseDigits(s[1..])
      case None => None
      case Some(v) => Some(-v)
    else if |s| > 0 && s[0] == '+' then ParseDigits(s[1..])
    else ParseDigits(s)
  }

  lemma {:induction false} NatToStringValue(n: nat)
    ensures DigitsValue(NatToString(n)) == n
    decreases n
  {
    var s := NatToString(n);
    if n >= 10 {
      NatToStringValue(n / 10);
      assert s[..|s| - 1] == NatToString(n / 10);
    }
  }

  lemma ParseNegative(n: int)
    requires n > 0
    ensures ParseDecimal(IntToString(-n)) == Some(-n)
  {
    var s := IntToString(-n);
    assert s[1..] == NatToString(n);
    NatToStringValue(n);
  }

  /** Printing a number and parsing the text gives the number back, `NaN` included. */
  lemma ParsePrinted(n: Num)
    ensures ParseDecimal(NumText(n)) == n
  {
    match n
    case None =>
      assert !IsDigit("NaN"[0]);
    case Some(i) =>
      if i < 0 {
        ParseNegative(-i);
      } else {
        NatToStringValue(i);
      }
  }

  /** Different numbers print differently. */
  lemma NumTextInjective(a: Num, b: Num)
    requires NumText(a) == NumText(b)
    ensures a == b
  {
    ParsePrinted(a);
    ParsePrinted(b);
  }
}

=== FILE: parser.dfy ===
/**
 * The reading half of the codec in src/lib/parser.js: `parse` and the `_parse*` helpers map the
 * element tree of a descriptor document to the protocol model. Only direct children are
 * visited, document order is kept, and every attribute has a lenient default.
 *
 * The loops of the source (`forEach` pushing into `elements`, `values`, `methods`, `args`) are
 * methods; each is proved equal to a declarative function that selects the relevant direct
 * children and maps them, and the lemmas below state what those functions promise.
 */
module Parser {
  import opened Wrappers
  import opened Numbers
  import opened Seqs
  import opened Text
  import opened XmlBlocks
  import opened Dom
  import opened Protocol
  import Validators

  /** The message of the one error `parse` throws. */
  const MissingProtocol: string := "Invalid protocol: missing <protocol> element"

  /** The tags `_parseElements` keeps. */
  const ElementTags: set<string> := {"enum", "object"}

  /** The tags of the methods of an object. */
  const MethodTags: set<string> := {"c2s", "s2c"}

  /** `parseInt(el.getAttribute(name) || d)`. */
  function NumAttr(e: Element, name: string, d: string): Num {
    ParseDecimal(AttrOr(e, name, d))
  }

  /** ASCII `toLowerCase` of one character. */
  function LowerChar(c: char): char {
    if 'A' <= c <= 'Z' then (c as int - 'A' as int + 'a' as int) as char else c
  }

  /** `String.prototype.toLowerCase` on ASCII text. */
  function ToLower(s: string): (r: string)
    ensures |r| == |s|
    ensures forall i :: 0 <= i < |r| ==> !('A' <= r[i] <= 'Z')
    ensures forall i :: 0 <= i < |s| && !('A' <= s[i] <= 'Z') ==> r[i] == s[i]
  {
    seq(|s|, i requires 0 <= i < |s| => LowerChar(s[i]))
  }

  // ---------------------------------------------------------------- text blocks

  /**
   * `getDirectTextContent(parent, tagName)`: the normalised text of the first direct child with
   * the tag, absent when there is no such child or its text is blank.
   */
  function GetDirectTextContent(parent: Element, tag: string): Option<string> {
    match FirstChildTagged(parent, tag)
    case None => None
    case Some(el) => NormalizeBlock(el.text)
  }

  /**
   * The text clean-up of `_parseDescription`, written as the method writes it: an empty
   * `textContent` stays falsy, a blank one becomes `undefined`, any other is normalised.
   */
  function DescriptionText(raw: string): Option<string> {
    if raw == [] then None
    else
      var t := StripBoundaryNewlines(raw);
      if Blank(t) then None
      else
        var lines := Split(t);
        var nonEmpty := NonBlankLines(lines);
        if |nonEmpty| > 0 then Some(Trim(Join(Dedent(lines, MinIndent(nonEmpty)))))
        else Some(t)
  }

  /** `_parseDescription(parent, tagName)`: whichever of `summary` and `text` are truthy, or nothing. */
  function ParseDescription(parent: Element, tag: string): Option<Description> {
    match FirstChildTagged(parent, tag)
    case None => None
    case Some(el) =>
      var summary := GetAttribute(el, "summary");
      var text := DescriptionText(el.text);
      if Truthy(summary) && Truthy(text) then Some(Description(summary, text))
      else if Truthy(summary) then Some(Description(summary, None))
      else if Truthy(text) then Some(Description(None, text))
      else None
  }

  // ---------------------------------------------------------------- the model of each element

  /** One `value` child of an enum. */
  function EnumValueOf(v: Element): EnumValue {
    EnumValue(NumAttr(v, "idx", "0"), AttrOr(v, "name", ""), GetAttribute(v, "description"))
  }

  /** What `_parseSingleEnum` returns: the name and one value per direct `value` child. */
  function EnumOf(e: Element): Enum {
    var vs := ChildrenTagged(e.children, {"value"});
    Enum(AttrOr(e, "name", ""), seq(|vs|, k requires 0 <= k < |vs| => EnumValueOf(vs[k])))
  }

  /** One `arg` child of a method; `interface` is set only when the attribute is present. */
  function ArgOf(a: Element): Arg {
    Arg(
      AttrOr(a, "name", ""),
      AttrOr(a, "type", ""),
      if "interface" in a.attrs then Some(a.attrs["interface"]) else None,
      GetAttribute(a, "summary"))
  }

  /** The `returns` property: the `iface` of the first direct `returns` child, or absent. */
  function ReturnsOf(m: Element): Option<string> {
    match FirstChildTagged(m, "returns")
    case None => None
    case Some(r) => Some(AttrOr(r, "iface", ""))
  }

  /** What `_parseMethod(methodEl, direction)` returns. */
  function MethodOf(m: Element, direction: string): Method {
    var argEls := ChildrenTagged(m.children, {"arg"});
    Method(
      AttrOr(m, "name", ""),
      direction,
      ParseDescription(m, "description"),
      seq(|argEls|, k requires 0 <= k < |argEls| => ArgOf(argEls[k])),
      ReturnsOf(m),
      GetAttribute(m, "destructor") == Some("true"))
  }

  /** One method per element, its direction the lower-cased tag. */
  function MethodsOf(ms: seq<Element>): (r: seq<Method>)
    ensures |r| == |ms|
  {
    seq(|ms|, k requires 0 <= k < |ms| => MethodOf(ms[k], ToLower(ms[k].tag)))
  }

  /** What `_parseSingleObject` returns: one method per direct `c2s` or `s2c` child, in order. */
  function ObjectOf(o: Element): Object {
    Object(
      AttrOr(o, "name", ""),
      NumAttr(o, "version", "1"),
      ParseDescription(o, "description"),
      MethodsOf(ChildrenTagged(o.children, MethodTags)))
  }

  /** One kept child of the protocol element, tagged with its `type`: an `enum`, otherwise an `object`. */
  function ElementOf(c: Element): ProtocolElement {
    if c.tag == "enum" then EnumElement(EnumOf(c)) else ObjectElement(ObjectOf(c))
  }

  /** What `_parseElements` returns: one entry per direct `enum` or `object` child, in order. */
  function ElementsOf(cs: seq<Element>): seq<ProtocolElement> {
    Map(ChildrenTagged(cs, ElementTags), ElementOf)
  }

  /** The model `parse` builds from the protocol element. */
  function ProtocolOf(root: Element): ProtocolModel {
    ProtocolModel(
      AttrOr(root, "name", ""),
      NumAttr(root, "version", "1"),
      GetDirectTextContent(root, "copyright"),
      GetDirectTextContent(root, "description"),
      ElementsOf(root.children))
  }

  // ---------------------------------------------------------------- the parsing loops

  /** `_parseSingleEnum(enumEl)`. */
  method ParseSingleEnum(e: Element) returns (r: Enum)
    ensures r == EnumOf(e)
  {
    var vs := ChildrenTagged(e.children, {"value"});
    var values: seq<EnumValue> := [];
    var i := 0;
    while i < |vs|
      invariant 0 <= i <= |vs|
      invariant |values| == i
      invariant forall k :: 0 <= k < i ==> values[k] == EnumValueOf(vs[k])
    {
      values := values + [EnumValueOf(vs[i])];
      i := i + 1;
    }
    r := Enum(AttrOr(e, "name", ""), values);
  }

  /** `_parseMethod(methodEl, direction)`. */
  method ParseMethod(m: Element, direction: string) returns (r: Method)
    ensures r == MethodOf(m, direction)
  {
    var argEls := ChildrenTagged(m.children, {"arg"});
    var args: seq<Arg> := [];
    var i := 0;
    while i < |argEls|
      invariant 0 <= i <= |argEls|
      invariant |args| == i
      invariant forall k :: 0 <= k < i ==> args[k] == ArgOf(argEls[k])
    {
      var argEl := argEls[i];
      var iface: Option<string> := None;
      if "interface" in argEl.attrs {
        iface := Some(argEl.attrs["interface"]);
      }
      args := args + [Arg(AttrOr(argEl, "name", ""), AttrOr(argEl, "type", ""), iface, GetAttribute(argEl, "summary"))];
      i := i + 1;
    }
    var returnIface: Option<string> := None;
    var returnsEl := FirstChildTagged(m, "returns");
    if returnsEl.Some? {
      returnIface := Some(AttrOr(returnsEl.value, "iface", ""));
    }
    r := Method(
      AttrOr(m, "name", ""), direction, ParseDescription(m, "description"), args, returnIface,
      GetAttribute(m, "destructor") == Some("true"));
  }

  /** `_parseSingleObject(objEl)`. */
  method ParseSingleObject(o: Element) returns (r: Object)
    ensures r == ObjectOf(o)
  {
    var mEls := ChildrenTagged(o.children, MethodTags);
    ghost var spec := MethodsOf(mEls);
    var methods: seq<Method> := [];
    var i := 0;
    while i < |mEls|
      invariant 0 <= i <= |mEls|
      invariant methods == spec[..i]
    {
      var m := ParseMethod(mEls[i], ToLower(mEls[i].tag));
      PrefixSnoc(spec, i);
      methods := methods + [m];
      i := i + 1;
    }
    assert spec[..i] == spec;
    r := Object(AttrOr(o, "name", ""), NumAttr(o, "version", "1"), ParseDescription(o, "description"), methods);
  }

  /** Taking one more child extends the kept elements by that child when it is an `enum` or an `object`. */
  lemma ElementsOfNext(cs: seq<Element>, i: nat)
    requires i < |cs|
    ensures ElementsOf(cs[..i + 1])
      == ElementsOf(cs[..i]) + (if cs[i].tag in ElementTags then [ElementOf(cs[i])] else [])
  {
    PrefixSnoc(cs, i);
    ChildrenTaggedAppend(cs[..i], [cs[i]], ElementTags);
    assert [cs[i]][1..] == [];
  }

  /** `_parseElements(protocolEl)`: the loop over all children with its two tag tests. */
  method ParseElements(root: Element) returns (elements: seq<ProtocolElement>)
    ensures elements == ElementsOf(root.children)
  {
    var children := root.children;
    elements := [];
    var i := 0;
    while i < |children|
      invariant 0 <= i <= |children|
      invariant elements == ElementsOf(children[..i])
    {
      var child := children[i];
      ElementsOfNext(children, i);
      if child.tag == "enum" {
        var en := ParseSingleEnum(child);
        elements := elements + [EnumElement(en)];
      } else if child.tag == "object" {
        var obj := ParseSingleObject(child);
        elements := elements + [ObjectElement(obj)];
      }
      i := i + 1;
    }
    assert children[..i] == children;
  }

  /**
   * `parse(xmlString)` from the element tree on: it fails with the source's message exactly
   * when no element of the document is a `protocol` element, and otherwise reads the first one
   * in document order.
   */
  method Parse(doc: Element) returns (r: Result<ProtocolModel, string>)
    ensures r.Failure? <==> forall x :: x in Preorder(doc) ==> x.tag != "protocol"
    ensures r.Failure? ==> r.error == MissingProtocol
    ensures r.Success? ==>
      FirstTagged(Preorder(doc), "protocol").Some? && r.value == ProtocolOf(FirstTagged(Preorder(doc), "protocol").value)
  {
    var protocolEl := QuerySelector(doc, "protocol");
    QuerySelectorNone(doc, "protocol");
    QuerySelectorIsFirstInOrder(doc, "protocol");
    if protocolEl.None? {
      return Failure(MissingProtocol);
    }
    var root := protocolEl.value;
    var elements := ParseElements(root);
    r := Success(ProtocolModel(
      AttrOr(root, "name", ""),
      NumAttr(root, "version", "1"),
      GetDirectTextContent(root, "copyright"),
      GetDirectTextContent(root, "description"),
      elements));
  }

  // ---------------------------------------------------------------- lemmas: text blocks

  /** The copy of the normalisation inside `_parseDescription` agrees with `getDirectTextContent`'s. */
  lemma DescriptionTextIsNormalize(raw: string)
    ensures DescriptionText(raw) == NormalizeBlock(raw)
  {
    var t := StripBoundaryNewlines(raw);
    NormalizeViaLines(raw);
    NormalizeAbsent(raw);
    if raw == [] {
      assert t == [];
    }
  }

  /** A normalised block, when present, is truthy and canonical. */
  lemma NormalizedTruthy(raw: string)
    ensures NormalizeBlock(raw).Some? ==> Truthy(NormalizeBlock(raw)) && Canonical(NormalizeBlock(raw).value)
  {
    if NormalizeBlock(raw).Some? {
      NormalizeIsCanonical(raw);
    }
  }

  /**
   * `getDirectTextContent` is absent exactly when there is no such child or its text is blank
   * once one boundary newline is dropped at each end; otherwise it is canonical text.
   */
  lemma DirectTextContent(parent: Element, tag: string)
    ensures GetDirectTextContent(parent, tag).None? <==>
      FirstChildTagged(parent, tag).None? || Blank(StripBoundaryNewlines(FirstChildTagged(parent, tag).value.text))
    ensures GetDirectTextContent(parent, tag).Some? ==> Canonical(GetDirectTextContent(parent, tag).value)
  {
    match FirstChildTagged(parent, tag)
    case None =>
    case Some(el) =>
      NormalizeAbsent(el.text);
      NormalizedTruthy(el.text);
  }

  /**
   * `_parseDescription` is absent exactly when there is no such child, or the child has no
   * truthy `summary` and its text normalises to nothing.
   */
  lemma ParseDescriptionAbsent(parent: Element, tag: string)
    ensures ParseDescription(parent, tag).None? <==>
      FirstChildTagged(parent, tag).None? ||
      (!Truthy(GetAttribute(FirstChildTagged(parent, tag).value, "summary"))
       && NormalizeBlock(FirstChildTagged(parent, tag).value.text).None?)
  {
    match FirstChildTagged(parent, tag)
    case None =>
    case Some(el) =>
      DescriptionTextIsNormalize(el.text);
      NormalizedTruthy(el.text);
  }

  /** A present description keeps the truthy `summary` and the normalised text, and nothing else. */
  lemma ParseDescriptionFields(parent: Element, tag: string)
    requires ParseDescription(parent, tag).Some?
    ensures FirstChildTagged(parent, tag).Some?
    ensures var el := FirstChildTagged(parent, tag).value;
      var d := ParseDescription(parent, tag).value;
      && (d.summary == if Truthy(GetAttribute(el, "summary")) then GetAttribute(el, "summary") else None)
      && d.text == NormalizeBlock(el.text)
      && (d.text.Some? ==> Canonical(d.text.value))
  {
    var el := FirstChildTagged(parent, tag).value;
    DescriptionTextIsNormalize(el.text);
    NormalizedTruthy(el.text);
  }

  // ---------------------------------------------------------------- lemmas: structure

  /** The selected children, mapped in order: entry `k` is read from the `k`-th selected child. */
  lemma ElementsFromChildren(cs: seq<Element>)
    ensures |ElementsOf(cs)| == |ChildrenTagged(cs, ElementTags)|
    ensures forall k :: 0 <= k < |ElementsOf(cs)| ==>
      var c := ChildrenTagged(cs, ElementTags)[k];
      && (ElementsOf(cs)[k].EnumElement? <==> c.tag == "enum")
      && (ElementsOf(cs)[k].ObjectElement? <==> c.tag == "object")
      && ElementsOf(cs)[k] == ElementOf(c)
    ensures forall c :: c in cs && c.tag in ElementTags ==> ElementOf(c) in ElementsOf(cs)
  {
    var kept := ChildrenTagged(cs, ElementTags);
    forall c | c in cs && c.tag in ElementTags ensures ElementOf(c) in ElementsOf(cs) {
      ChildrenTaggedMember(cs, ElementTags, c);
      var k :| 0 <= k < |kept| && kept[k] == c;
      assert ElementsOf(cs)[k] == ElementOf(c);
    }
  }

  /** Reading consecutive runs of children reads each run in turn: document order is kept. */
  lemma ElementsOfAppend(a: seq<Element>, b: seq<Element>)
    ensures ElementsOf(a + b) == ElementsOf(a) + ElementsOf(b)
  {
    ChildrenTaggedAppend(a, b, ElementTags);
    MapAppend(ChildrenTagged(a, ElementTags), ChildrenTagged(b, ElementTags), ElementOf);
  }

  /** A child that is neither an `enum` nor an `object` contributes nothing. */
  lemma OtherChildIgnored(a: seq<Element>, c: Element, b: seq<Element>)
    requires c.tag !in ElementTags
    ensures ElementsOf(a + [c] + b) == ElementsOf(a + b)
  {
    ElementsOfAppend(a + [c], b);
    ElementsOfAppend(a, [c]);
    ElementsOfAppend(a, b);
    OtherChildNothing(c);
  }

  lemma OtherChildNothing(c: Element)
    requires c.tag !in ElementTags
    ensures ElementsOf([c]) == []
  {
    assert [c][1..] == [];
    assert ChildrenTagged([c], ElementTags) == [];
  }

  /** `parse` never produces an entry of another type. */
  lemma ParsedElementsKnown(root: Element)
    ensures forall el :: el in ProtocolOf(root).elements ==> !el.OtherElement?
  {
    ElementsFromChildren(root.children);
  }

  /** The enum values are read from exactly the direct `value` children, one each, in order. */
  lemma EnumValuesFromChildren(e: Element)
    ensures |EnumOf(e).values| == |ChildrenTagged(e.children, {"value"})|
    ensures forall k :: 0 <= k < |EnumOf(e).values| ==> EnumOf(e).values[k] == EnumValueOf(ChildrenTagged(e.children, {"value"})[k])
    ensures forall c :: c in e.children && c.tag == "value" ==> EnumValueOf(c) in EnumOf(e).values
    ensures forall v :: v in EnumOf(e).values ==> exists c :: c in e.children && c.tag == "value" && v == EnumValueOf(c)
  {
    var vs := ChildrenTagged(e.children, {"value"});
    forall c | c in e.children && c.tag == "value" ensures EnumValueOf(c) in EnumOf(e).values {
      ChildrenTaggedMember(e.children, {"value"}, c);
      var k :| 0 <= k < |vs| && vs[k] == c;
      assert EnumOf(e).values[k] == EnumValueOf(c);
    }
    forall v | v in EnumOf(e).values
      ensures exists c :: c in e.children && c.tag == "value" && v == EnumValueOf(c)
    {
      var k :| 0 <= k < |vs| && EnumOf(e).values[k] == v;
      ChildrenTaggedMember(e.children, {"value"}, vs[k]);
    }
  }

  /** The arguments are read from exactly the direct `arg` children, one each, in order. */
  lemma ArgsFromChildren(m: Element, direction: string)
    ensures |MethodOf(m, direction).args| == |ChildrenTagged(m.children, {"arg"})|
    ensures forall k :: 0 <= k < |MethodOf(m, direction).args| ==>
      MethodOf(m, direction).args[k] == ArgOf(ChildrenTagged(m.children, {"arg"})[k])
    ensures forall c :: c in m.children && c.tag == "arg" ==> ArgOf(c) in MethodOf(m, direction).args
  {
    var argEls := ChildrenTagged(m.children, {"arg"});
    forall c | c in m.children && c.tag == "arg" ensures ArgOf(c) in MethodOf(m, direction).args {
      ChildrenTaggedMember(m.children, {"arg"}, c);
      var k :| 0 <= k < |argEls| && argEls[k] == c;
      assert MethodOf(m, direction).args[k] == ArgOf(c);
    }
  }

  lemma LowerDirections()
    ensures ToLower("c2s") == "c2s" && ToLower("s2c") == "s2c"
  {
    assert "c2s"[1..] == "2s" && "2s"[1..] == "s" && "s"[1..] == "";
    assert "s2c"[1..] == "2c" && "2c"[1..] == "c" && "c"[1..] == "";
  }

  /**
   * The methods are read from exactly the direct `c2s` and `s2c` children, in order, each with
   * its tag as direction; so every parsed method has a direction the validator accepts.
   */
  lemma MethodsFromChildren(o: Element)
    ensures |ObjectOf(o).methods| == |ChildrenTagged(o.children, MethodTags)|
    ensures forall k :: 0 <= k < |ObjectOf(o).methods| ==>
      var c := ChildrenTagged(o.children, MethodTags)[k];
      ObjectOf(o).methods[k] == MethodOf(c, c.tag)
    ensures forall m :: m in ObjectOf(o).methods ==> Validators.DirectionValid(m.direction)
  {
    LowerDirections();
    var ms := ChildrenTagged(o.children, MethodTags);
    forall k | 0 <= k < |ms| ensures ToLower(ms[k].tag) == ms[k].tag {
      assert ms[k] in ms;
    }
  }

  /** `destructor` is set exactly when the attribute is literally `"true"`. */
  lemma DestructorFlag(m: Element, direction: string)
    ensures MethodOf(m, direction).destructor <==> "destructor" in m.attrs && m.attrs["destructor"] == "true"
  {
  }

  /**
   * `returns` is present exactly when a direct `returns` child exists; it is then that child's
   * `iface`, empty when the attribute is missing or empty.
   */
  lemma ReturnsFlag(m: Element, direction: string)
    ensures MethodOf(m, direction).returnIface.Some? <==> exists i :: 0 <= i < |m.children| && m.children[i].tag == "returns"
    ensures MethodOf(m, direction).returnIface.Some? ==>
      var r := FirstChildTagged(m, "returns").value;
      r in m.children && r.tag == "returns" &&
      (MethodOf(m, direction).returnIface.value == "" <==> !Truthy(GetAttribute(r, "iface")))
  {
    FirstChildTaggedNone(m, "returns");
  }

  /** `interface` is present exactly when the attribute is, even when it is empty. */
  lemma InterfaceFlag(a: Element)
    ensures ArgOf(a).interfaceName.Some? <==> "interface" in a.attrs
    ensures ArgOf(a).interfaceName.Some? ==> ArgOf(a).interfaceName == GetAttribute(a, "interface")
  {
  }

  // ---------------------------------------------------------------- lemmas: lenient defaults

  /** A missing or empty name reads as the empty string; any other name is kept as written. */
  lemma NameDefault(e: Element)
    ensures !Truthy(GetAttribute(e, "name")) ==>
      EnumOf(e).name == "" && ObjectOf(e).name == "" && ProtocolOf(e).name == ""
      && EnumValueOf(e).name == "" && ArgOf(e).name == "" && MethodOf(e, "c2s").name == ""
    ensures Truthy(GetAttribute(e, "name")) ==>
      EnumOf(e).name == e.attrs["name"] && ObjectOf(e).name == e.attrs["name"] && ProtocolOf(e).name == e.attrs["name"]
      && EnumValueOf(e).name == e.attrs["name"] && ArgOf(e).name == e.attrs["name"] && MethodOf(e, "c2s").name == e.attrs["name"]
  {
  }

  /** A missing or empty `version` reads as 1 on the protocol and on an object, a missing `idx` as 0. */
  lemma NumberDefaults(e: Element)
    ensures !Truthy(GetAttribute(e, "version")) ==> ObjectOf(e).version == Some(1) && ProtocolOf(e).version == Some(1)
    ensures !Truthy(GetAttribute(e, "idx")) ==> EnumValueOf(e).idx == Some(0)
  {
    ParsePrinted(Some(1));
    ParsePrinted(Some(0));
  }

  /** A number printed the way `serialize` prints it reads back as the same number, `NaN` included. */
  lemma PrintedNumbersReadBack(e: Element, n: Num)
    ensures GetAttribute(e, "version") == Some(NumText(n)) ==> ObjectOf(e).version == n && ProtocolOf(e).version == n
    ensures GetAttribute(e, "idx") == Some(NumText(n)) ==> EnumValueOf(e).idx == n
  {
    ParsePrinted(n);
  }
}

=== FILE: protocol.dfy ===
/**
 * The in-memory protocol model that `parse` produces, `serialize` consumes and the validators
 * check (the typedefs at the top of src/lib/parser.js). Optional JavaScript properties are
 * `Option`s; a string property the code always sets is a plain `string`.
 */
module Protocol {
  import opened Wrappers
  import opened Numbers

  /** One enumerator: `idx`, `name` and an optional `description`. */
  datatype EnumValue = EnumValue(idx: Num, name: string, description: Option<string>)

  datatype Enum = Enum(name: string, values: seq<EnumValue>)

  /** A description element: an optional `summary` attribute and optional normalised text. */
  datatype Description = Description(summary: Option<string>, text: Option<string>)

  /** A method argument; `interfaceName` is the `interface` property, absent unless the attribute was present. */
  datatype Arg = Arg(name: string, argType: string, interfaceName: Option<string>, summary: Option<string>)

  /** A `c2s` request or `s2c` event; `returnIface` is the `returns` property, the interface a request creates. */
  datatype Method = Method(
    name: string,
    direction: string,
    description: Option<Description>,
    args: seq<Arg>,
    returnIface: Option<string>,
    destructor: bool)

  datatype Object = Object(name: string, version: Num, description: Option<Description>, methods: seq<Method>)

  /**
   * An entry of `elements`, tagged by its `type`. Entries whose `type` is neither `enum` nor
   * `object` cannot come out of `parse`, but the model an editor holds may contain them.
   */
  datatype ProtocolElement =
    | EnumElement(enumDef: Enum)
    | ObjectElement(obj: Object)
    | OtherElement(kind: string)

  datatype ProtocolModel = ProtocolModel(
    name: string,
    version: Num,
    copyright: Option<string>,
    description: Option<string>,
    elements: seq<ProtocolElement>)
}

=== FILE: queries.dfy ===
/**
 * The two lookups over an object's methods that src/lib/parser.js offers beside the codec:
 * `getMethodsByDirection` (a `filter`) and `findMethod` (a `find`).
 */
module Queries {
  import opened Wrappers
  import opened Protocol

  /** `methods.filter(m => m.direction === direction)`. */
  function MethodsByDirection(ms: seq<Method>, direction: string): (r: seq<Method>)
    ensures |r| <= |ms|
    ensures forall k :: 0 <= k < |r| ==> r[k].direction == direction
    decreases |ms|
  {
    if ms == [] then []
    else
      MethodsByDirection(ms[..|ms| - 1], direction)
      + (if ms[|ms| - 1].direction == direction then [ms[|ms| - 1]] else [])
  }

  /** `getMethodsByDirection(object, direction)`. */
  function GetMethodsByDirection(o: Object, direction: string): (r: seq<Method>)
    ensures forall m :: m in r <==> m in o.methods && m.direction == direction
  {
    MethodsByDirectionMember(o.methods, direction);
    MethodsByDirection(o.methods, direction)
  }

  /** The selection holds exactly the methods with that direction. */
  lemma {:induction false} MethodsByDirectionMember(ms: seq<Method>, direction: string)
    ensures forall m :: m in MethodsByDirection(ms, direction) <==> m in ms && m.direction == direction
    decreases |ms|
  {
    if ms != [] {
      var init := ms[..|ms| - 1];
      MethodsByDirectionMember(init, direction);
      assert ms == init + [ms[|ms| - 1]];
    }
  }

  /** The selection keeps the original order: selecting from a concatenation concatenates the selections. */
  lemma {:induction false} MethodsByDirectionAppend(a: seq<Method>, b: seq<Method>, direction: string)
    ensures MethodsByDirection(a + b, direction) == MethodsByDirection(a, direction) + MethodsByDirection(b, direction)
    decreases |b|
  {
    if b == [] {
      assert a + b == a;
    } else {
      var init := b[..|b| - 1];
      assert (a + b)[..|a + b| - 1] == a + init;
      MethodsByDirectionAppend(a, init, direction);
    }
  }

  /** Selecting again by the same direction changes nothing. */
  lemma {:induction false} MethodsByDirectionIdempotent(ms: seq<Method>, direction: string)
    ensures MethodsByDirection(MethodsByDirection(ms, direction), direction) == MethodsByDirection(ms, direction)
    decreases |ms|
  {
    if ms != [] {
      var init := ms[..|ms| - 1];
      var last := ms[|ms| - 1];
      MethodsByDirectionIdempotent(init, direction);
      var tail := if last.direction == direction then [last] else [];
      MethodsByDirectionAppend(MethodsByDirection(init, direction), tail, direction);
      if last.direction == direction {
        assert [last][..0] == [];
      }
    }
  }

  /**
   * When every method is a request or an event, as `parse` guarantees, the requests and the
   * events together account for every method.
   */
  lemma {:induction false} DirectionsPartition(ms: seq<Method>)
    requires forall k :: 0 <= k < |ms| ==> ms[k].direction == "c2s" || ms[k].direction == "s2c"
    ensures |MethodsByDirection(ms, "c2s")| + |MethodsByDirection(ms, "s2c")| == |ms|
    decreases |ms|
  {
    if ms != [] {
      DirectionsPartition(ms[..|ms| - 1]);
    }
  }

  /** `methods.find(m => m.name === methodName)`: the first method with that name, if any. */
  function FindMethod(ms: seq<Method>, name: string): (r: Option<Method>)
    ensures r.Some? ==> r.value in ms && r.value.name == name
    decreases |ms|
  {
    if ms == [] then None
    else if ms[0].name == name then Some(ms[0])
    else FindMethod(ms[1..], name)
  }

  /** `findMethod(object, methodName)`. */
  function FindMethodIn(o: Object, name: string): (r: Option<Method>)
    ensures r.None? <==> forall k :: 0 <= k < |o.methods| ==> o.methods[k].name != name
  {
    FindMethodFirst(o.methods, name);
    FindMethod(o.methods, name)
  }

  /**
   * `find` answers nothing exactly when no method has the name, and otherwise the method at
   * the first position holding that name.
   */
  lemma {:induction false} FindMethodFirst(ms: seq<Method>, name: string)
    ensures FindMethod(ms, name).None? <==> forall k :: 0 <= k < |ms| ==> ms[k].name != name
    ensures FindMethod(ms, name).Some? ==>
      exists i :: 0 <= i < |ms| && ms[i] == FindMethod(ms, name).value
        && forall k :: 0 <= k < i ==> ms[k].name != name
    decreases |ms|
  {
    if ms != [] && ms[0].name != name {
      var rest := ms[1..];
      FindMethodFirst(rest, name);
      forall k | 0 < k < |ms|
        ensures ms[k] == rest[k - 1]
      {
      }
      if FindMethod(rest, name).Some? {
        var i :| 0 <= i < |rest| && rest[i] == FindMethod(rest, name).value
          && forall k :: 0 <= k < i ==> rest[k].name != name;
        assert ms[i + 1] == rest[i];
        assert forall k :: 0 <= k < i + 1 ==> ms[k].name != name by {
          forall k | 0 <= k < i + 1
            ensures ms[k].name != name
          {
            if k > 0 {
              assert ms[k] == rest[k - 1];
            }
          }
        }
      }
    } else if ms != [] {
      assert ms[0] == FindMethod(ms, name).value;
    }
  }
}

=== FILE: roundtrip.dfy ===
/**
 * Reading back what `serialize` writes, on the element tree.
 *
 * Each entity's text (see the Serializer module) denotes an element tree: the tags it opens,
 * the attributes it writes and, for the text blocks, the text between the tags. An XML reader
 * hands the parser that tree with the predefined entity references decoded, which is modelled
 * by applying `unescapeXml` to every written attribute value and text. The `...Node` functions
 * below build that tree; the lemmas show that the parser's reading of it gives the entity back.
 * Whitespace-only text between container tags is not represented (no part of `parse` reads it).
 *
 * Names, types, interfaces and text blocks are written unescaped, so the round trip needs them
 * free of markup characters; falsy optional fields are not written at all, so they must be
 * absent rather than empty.
 */
module RoundTrip {
  import opened Wrappers
  import opened Numbers
  import opened Text
  import opened Seqs
  import opened XmlEscape
  import opened XmlBlocks
  import opened Dom
  import opened Protocol
  import opened Parser
  import Serializer

  // ---------------------------------------------------------------- characters

  /**
   * A character XML 1.0 allows in a document (section 2.2 of the XML 1.0 specification): tab,
   * line feed, carriage return, and every other character from the space up, except U+FFFE
   * and U+FFFF. A reader rejects a document holding any other character.
   */
  predicate XmlChar(c: char) {
    c == '\t' || c == '\n' || c == '\r' || (0x20 <= c as int && c as int != 0xFFFE && c as int != 0xFFFF)
  }

  /**
   * A value a reader hands back as written once it sits inside quotes: only characters XML
   * allows, and no tab, line feed or carriage return, which attribute-value normalisation
   * (section 3.3.3 of the XML 1.0 specification) turns into spaces.
   */
  predicate AttrSafe(s: string) {
    forall i :: 0 <= i < |s| ==> XmlChar(s[i]) && s[i] != '\t' && s[i] != '\n' && s[i] != '\r'
  }

  /** A value written unescaped inside quotes: read back as written, no reference, no tag, no closing quote. */
  predicate AttrPlain(s: string) {
    AttrSafe(s) && '&' !in s && '<' !in s && '"' !in s
  }

  /**
   * Text written unescaped between tags: no reference, no tag, no `]]>` (which character data
   * may not hold), only characters XML allows, and no carriage return, which end-of-line
   * handling (section 2.11 of the XML 1.0 specification) turns into a line feed.
   */
  predicate TextPlain(s: string) {
    && '&' !in s && '<' !in s && '\r' !in s
    && (forall i :: 0 <= i < |s| ==> XmlChar(s[i]))
    && (forall i :: 0 <= i < |s| - 2 ==> !(s[i] == ']' && s[i + 1] == ']' && s[i + 2] == '>'))
  }

  lemma ReplaceAbsent(s: string, pat: string, rep: string)
    requires pat != [] && pat[0] !in s
    ensures ReplaceAll(s, pat, rep) == s
  {
    ReplaceSkip(s, [], pat, rep);
    assert s + [] == s;
  }

  /** Text without `&` holds no entity reference, so decoding leaves it alone. */
  lemma UnescapePlain(s: string)
    requires '&' !in s
    ensures UnescapeXml(s) == s
  {
    ReplaceAbsent(s, "&apos;", "'");
    ReplaceAbsent(s, "&quot;", "\"");
    ReplaceAbsent(s, "&gt;", ">");
    ReplaceAbsent(s, "&lt;", "<");
    ReplaceAbsent(s, "&amp;", "&");
  }

  lemma NumTextPlain(n: Num)
    ensures '&' !in NumText(n)
  {
    var s := NumText(n);
    match n
    case None =>
    case Some(i) =>
      var d := if i < 0 then NatToString(-i) else NatToString(i);
      assert s == (if i < 0 then "-" else "") + d;
      forall k | 0 <= k < |s| ensures s[k] != '&' {
        if i < 0 && k > 0 {
          assert s[k] == d[k - 1];
        }
      }
  }

  lemma {:induction false} SplitAvoids(s: string, ch: char)
    requires ch !in s
    ensures forall i :: 0 <= i < |Split(s)| ==> ch !in Split(s)[i]
    decreases |s|
  {
    if s != [] {
      SplitAvoids(s[1..], ch);
      assert s[0] != ch;
    }
  }

  lemma {:induction false} JoinAvoids(lines: seq<string>, ch: char)
    requires ch != '\n' && forall i :: 0 <= i < |lines| ==> ch !in lines[i]
    ensures ch !in Join(lines)
    decreases |lines|
  {
    if |lines| >= 2 {
      JoinAvoids(lines[1..], ch);
      assert ch !in lines[0];
    }
  }

  lemma SliceAvoids(s: string, i: nat, j: nat, ch: char)
    requires i <= j <= |s| && ch !in s
    ensures ch !in s[i..j]
  {
    forall k | 0 <= k < j - i ensures s[i..j][k] != ch {
      assert s[i..j][k] == s[i + k];
    }
  }

  lemma TrimAvoids(s: string, ch: char)
    requires ch !in s
    ensures ch !in Trim(s)
  {
    var e := TrimEnd(s);
    SliceAvoids(s, 0, |e|, ch);
    var t := TrimStart(e);
    SliceAvoids(e, |e| - |t|, |e|, ch);
  }

  /** A character that is not whitespace appears in a rendered block only if it appears in the content. */
  lemma BodyAvoids(content: Option<string>, indent: nat, ch: char)
    requires !IsSpace(ch)
    requires content.Some? ==> ch !in content.value
    ensures ch !in BlockBody(content, indent)
  {
    var spaces := Spaces(indent);
    assert ch !in spaces;
    if content.Some? && !Blank(content.value) {
      var c := content.value;
      var pad := spaces + "  ";
      var lines := Split(c);
      SplitAvoids(c, ch);
      var f := FormatLines(lines, pad);
      forall i | 0 <= i < |f| ensures ch !in f[i] {
        if !Blank(lines[i]) {
          TrimAvoids(lines[i], ch);
          assert f[i] == pad + Trim(lines[i]);
        }
      }
      JoinAvoids(f, ch);
      TrimAvoids(Join(f), ch);
    }
  }

  // ---------------------------------------------------------------- child selection

  lemma {:induction false} AllTagged(cs: seq<Element>, tags: set<string>)
    requires forall k :: 0 <= k < |cs| ==> cs[k].tag in tags
    ensures ChildrenTagged(cs, tags) == cs
    decreases |cs|
  {
    if cs != [] {
      AllTagged(cs[1..], tags);
      assert [cs[0]] + cs[1..] == cs;
    }
  }

  lemma {:induction false} NoneTagged(cs: seq<Element>, tags: set<string>)
    requires forall k :: 0 <= k < |cs| ==> cs[k].tag !in tags
    ensures ChildrenTagged(cs, tags) == []
    decreases |cs|
  {
    if cs != [] {
      NoneTagged(cs[1..], tags);
    }
  }

  /** Selecting from three runs of children, of which only the chosen one carries the tags. */
  lemma PickMiddle(a: seq<Element>, b: seq<Element>, c: seq<Element>, tags: set<string>, keep: nat)
    requires keep < 3
    requires forall k :: 0 <= k < |a| ==> (a[k].tag in tags <==> keep == 0)
    requires forall k :: 0 <= k < |b| ==> (b[k].tag in tags <==> keep == 1)
    requires forall k :: 0 <= k < |c| ==> (c[k].tag in tags <==> keep == 2)
    ensures ChildrenTagged(a + b + c, tags) == if keep == 0 then a else if keep == 1 then b else c
  {
    ChildrenTaggedAppend(a + b, c, tags);
    ChildrenTaggedAppend(a, b, tags);
    if keep == 0 { AllTagged(a, tags); } else { NoneTagged(a, tags); }
    if keep == 1 { AllTagged(b, tags); } else { NoneTagged(b, tags); }
    if keep == 2 { AllTagged(c, tags); } else { NoneTagged(c, tags); }
  }

  // ---------------------------------------------------------------- enums

  /** The `value` element one line of `_serializeEnum` denotes. */
  function ValueNode(v: EnumValue): Element {
    var attrs := map["idx" := UnescapeXml(NumText(v.idx)), "name" := UnescapeXml(v.name)];
    Element(
      "value",
      if Truthy(v.description) then attrs["description" := UnescapeXml(EscapeXml(v.description.value))] else attrs,
      [], "")
  }

  /** The `enum` element `_serializeEnum` denotes. */
  function EnumNode(e: Enum): Element {
    Element("enum", map["name" := UnescapeXml(e.name)], Map(e.values, ValueNode), "")
  }

  predicate ValueWritable(v: EnumValue) {
    AttrPlain(v.name) && v.description != Some("") && (v.description.Some? ==> AttrSafe(v.description.value))
  }

  /** A description holding a line feed is excluded: a reader would hand it back with a space there. */
  lemma LineFeedNotWritable()
    ensures !ValueWritable(EnumValue(Some(0), "a", Some("x\ny")))
  {
    assert "x\ny"[1] == '\n';
  }

  predicate EnumWritable(e: Enum) {
    AttrPlain(e.name) && forall k :: 0 <= k < |e.values| ==> ValueWritable(e.values[k])
  }

  /** A value line reads back as the value: the index through its decimal text, the description through escaping. */
  lemma ValueRoundTrip(v: EnumValue)
    requires ValueWritable(v)
    ensures EnumValueOf(ValueNode(v)) == v
  {
    NumTextPlain(v.idx);
    UnescapePlain(NumText(v.idx));
    UnescapePlain(v.name);
    ParsePrinted(v.idx);
    if Truthy(v.description) {
      UnescapeEscape(v.description.value);
    }
  }

  /** An enum reads back as itself, its values in order. */
  lemma EnumRoundTrip(e: Enum)
    requires EnumWritable(e)
    ensures EnumOf(EnumNode(e)) == e
  {
    var n := EnumNode(e);
    AllTagged(n.children, {"value"});
    UnescapePlain(e.name);
    var r := EnumOf(n);
    assert |r.values| == |e.values|;
    forall k | 0 <= k < |e.values| ensures r.values[k] == e.values[k] {
      ValueRoundTrip(e.values[k]);
    }
  }

  // ---------------------------------------------------------------- descriptions

  /** A text block that reads back as itself: absent, or trimmed line by line, not blank and plain. */
  predicate TextWritable(t: Option<string>) {
    t.None? || (!Blank(t.value) && Trimmed(t.value) && LinesTrimmed(Split(t.value)) && TextPlain(t.value))
  }

  /** The decoded text between the tags of a rendered block normalises back to the content. */
  lemma TextRoundTrip(t: Option<string>, indent: nat)
    requires TextWritable(t)
    ensures NormalizeBlock(UnescapeXml(BlockBody(t, indent))) == t
  {
    BodyAvoids(t, indent, '&');
    UnescapePlain(BlockBody(t, indent));
    Serializer.DescriptionTextReadBack(Description(None, t), indent);
  }

  /** The `description` element `_serializeDescription(desc, indent)` denotes. */
  function DescriptionNode(d: Description, indent: nat): Element {
    Element(
      "description",
      if Truthy(d.summary) then map["summary" := UnescapeXml(EscapeXml(d.summary.value))] else map[],
      [], UnescapeXml(BlockBody(d.text, indent)))
  }

  /** `[DescriptionNode]` for a present description, nothing otherwise. */
  function DescriptionNodes(d: Option<Description>, indent: nat): (r: seq<Element>)
    ensures forall k :: 0 <= k < |r| ==> r[k].tag == "description"
  {
    if d.Some? then [DescriptionNode(d.value, indent)] else []
  }

  /** A description that reads back: not both parts absent, no empty summary, a writable text. */
  predicate DescriptionWritable(d: Description) {
    && d.summary != Some("") && (d.summary.Some? ==> AttrSafe(d.summary.value))
    && TextWritable(d.text) && (d.summary.Some? || d.text.Some?)
  }

  /** A description element placed first among its parent's `description` children reads back as the description. */
  lemma DescriptionRoundTrip(parent: Element, d: Description, indent: nat)
    requires DescriptionWritable(d)
    requires FirstChildTagged(parent, "description") == Some(DescriptionNode(d, indent))
    ensures ParseDescription(parent, "description") == Some(d)
  {
    var n := DescriptionNode(d, indent);
    TextRoundTrip(d.text, indent);
    DescriptionTextIsNormalize(n.text);
    if Truthy(d.summary) {
      UnescapeEscape(d.summary.value);
    }
  }

  /** A parent whose `description` children are those a present or absent description writes reads it back. */
  lemma DescriptionsRoundTrip(parent: Element, d: Option<Description>, indent: nat)
    requires d.Some? ==> DescriptionWritable(d.value)
    requires ChildrenTagged(parent.children, {"description"}) == DescriptionNodes(d, indent)
    ensures ParseDescription(parent, "description") == d
  {
    if d.Some? {
      DescriptionRoundTrip(parent, d.value, indent);
    }
  }

  // ---------------------------------------------------------------- methods

  function ArgNode(a: Arg): Element {
    var attrs := map["name" := UnescapeXml(a.name), "type" := UnescapeXml(a.argType)];
    var withInterface :=
      if Truthy(a.interfaceName) then attrs["interface" := UnescapeXml(a.interfaceName.value)] else attrs;
    Element(
      "arg",
      if Truthy(a.summary) then withInterface["summary" := UnescapeXml(EscapeXml(a.summary.value))] else withInterface,
      [], "")
  }

  predicate ArgWritable(a: Arg) {
    && AttrPlain(a.name) && AttrPlain(a.argType)
    && a.interfaceName != Some("") && (a.interfaceName.Some? ==> AttrPlain(a.interfaceName.value))
    && a.summary != Some("") && (a.summary.Some? ==> AttrSafe(a.summary.value))
  }

  /** An `arg` line reads back as the argument. */
  lemma ArgRoundTrip(a: Arg)
    requires ArgWritable(a)
    ensures ArgOf(ArgNode(a)) == a
  {
    UnescapePlain(a.name);
    UnescapePlain(a.argType);
    if Truthy(a.interfaceName) {
      UnescapePlain(a.interfaceName.value);
    }
    if Truthy(a.summary) {
      UnescapeEscape(a.summary.value);
    }
  }

  /** `[returns]` for a truthy `returns`, nothing otherwise. */
  function ReturnsNodes(r: Option<string>): (s: seq<Element>)
    ensures forall k :: 0 <= k < |s| ==> s[k].tag == "returns"
  {
    if Truthy(r) then [Element("returns", map["iface" := UnescapeXml(r.value)], [], "")] else []
  }

  /** The element `_serializeMethod(method, indent)` denotes. */
  function MethodNode(m: Method, indent: nat): Element {
    var name := map["name" := UnescapeXml(m.name)];
    Element(
      m.direction,
      if m.destructor then name["destructor" := "true"] else name,
      DescriptionNodes(m.description, indent + 2) + Map(m.args, ArgNode) + ReturnsNodes(m.returnIface),
      "")
  }

  predicate MethodWritable(m: Method) {
    && m.direction in MethodTags
    && AttrPlain(m.name)
    && (m.description.Some? ==> DescriptionWritable(m.description.value))
    && (forall k :: 0 <= k < |m.args| ==> ArgWritable(m.args[k]))
    && m.returnIface != Some("") && (m.returnIface.Some? ==> AttrPlain(m.returnIface.value))
  }

  lemma MethodDescriptionRoundTrip(m: Method, indent: nat)
    requires MethodWritable(m)
    ensures ParseDescription(MethodNode(m, indent), "description") == m.description
  {
    MethodDescriptionChildren(m, indent);
    DescriptionsRoundTrip(MethodNode(m, indent), m.description, indent + 2);
  }

  lemma MethodDescriptionChildren(m: Method, indent: nat)
    ensures ChildrenTagged(MethodNode(m, indent).children, {"description"}) == DescriptionNodes(m.description, indent + 2)
  {
    PickMiddle(DescriptionNodes(m.description, indent + 2), Map(m.args, ArgNode), ReturnsNodes(m.returnIface), {"description"}, 0);
  }

  lemma MethodArgsRoundTrip(m: Method, indent: nat)
    requires forall k :: 0 <= k < |m.args| ==> ArgWritable(m.args[k])
    ensures MethodOf(MethodNode(m, indent), m.direction).args == m.args
  {
    var n := MethodNode(m, indent);
    var args := Map(m.args, ArgNode);
    PickMiddle(DescriptionNodes(m.description, indent + 2), args, ReturnsNodes(m.returnIface), {"arg"}, 1);
    var r := MethodOf(n, m.direction).args;
    assert |r| == |m.args|;
    forall k | 0 <= k < |m.args| ensures r[k] == m.args[k] {
      ArgRoundTrip(m.args[k]);
    }
  }

  lemma MethodReturnsRoundTrip(m: Method, indent: nat)
    requires m.returnIface != Some("") && (m.returnIface.Some? ==> AttrPlain(m.returnIface.value))
    ensures ReturnsOf(MethodNode(m, indent)) == m.returnIface
  {
    var rs := ReturnsNodes(m.returnIface);
    PickMiddle(DescriptionNodes(m.description, indent + 2), Map(m.args, ArgNode), rs, {"returns"}, 2);
    if Truthy(m.returnIface) {
      UnescapePlain(m.returnIface.value);
    }
  }

  /** A method reads back as itself, its direction the lower-cased tag. */
  lemma MethodRoundTrip(m: Method, indent: nat)
    requires MethodWritable(m)
    ensures ToLower(MethodNode(m, indent).tag) == m.direction
    ensures MethodOf(MethodNode(m, indent), m.direction) == m
  {
    LowerDirections();
    UnescapePlain(m.name);
    MethodDescriptionRoundTrip(m, indent);
    MethodArgsRoundTrip(m, indent);
    MethodReturnsRoundTrip(m, indent);
  }

  // ---------------------------------------------------------------- objects

  function MethodNodes(ms: seq<Method>, indent: nat): (r: seq<Element>)
    ensures |r| == |ms|
  {
    seq(|ms|, k requires 0 <= k < |ms| => MethodNode(ms[k], indent))
  }

  /** The `object` element `_serializeObject(obj, indent)` denotes. */
  function ObjectNode(o: Object, indent: nat): Element {
    Element(
      "object",
      map["name" := UnescapeXml(o.name), "version" := UnescapeXml(NumText(o.version))],
      DescriptionNodes(o.description, indent + 2) + MethodNodes(o.methods, indent + 2),
      "")
  }

  predicate ObjectWritable(o: Object) {
    && AttrPlain(o.name)
    && (o.description.Some? ==> DescriptionWritable(o.description.value))
    && forall k :: 0 <= k < |o.methods| ==> MethodWritable(o.methods[k])
  }

  lemma ObjectMethodsRoundTrip(o: Object, indent: nat)
    requires ObjectWritable(o)
    ensures ObjectOf(ObjectNode(o, indent)).methods == o.methods
  {
    var n := ObjectNode(o, indent);
    var ms := MethodNodes(o.methods, indent + 2);
    PickMiddle(DescriptionNodes(o.description, indent + 2), ms, [], MethodTags, 1);
    assert n.children == DescriptionNodes(o.description, indent + 2) + ms + [];
    var r := MethodsOf(ms);
    forall k | 0 <= k < |o.methods| ensures r[k] == o.methods[k] {
      MethodRoundTrip(o.methods[k], indent + 2);
    }
  }

  /** An object reads back as itself: name, version, description and methods in order. */
  lemma ObjectRoundTrip(o: Object, indent: nat)
    requires ObjectWritable(o)
    ensures ObjectOf(ObjectNode(o, indent)) == o
  {
    ObjectAttrsRoundTrip(o, indent);
    ObjectDescriptionRoundTrip(o, indent);
    ObjectMethodsRoundTrip(o, indent);
  }

  lemma ObjectAttrsRoundTrip(o: Object, indent: nat)
    requires AttrPlain(o.name)
    ensures AttrOr(ObjectNode(o, indent), "name", "") == o.name
    ensures NumAttr(ObjectNode(o, indent), "version", "1") == o.version
  {
    UnescapePlain(o.name);
    NumTextPlain(o.version);
    UnescapePlain(NumText(o.version));
    ParsePrinted(o.version);
  }

  lemma ObjectDescriptionRoundTrip(o: Object, indent: nat)
    requires o.description.Some? ==> DescriptionWritable(o.description.value)
    requires forall k :: 0 <= k < |o.methods| ==> o.methods[k].direction in MethodTags
    ensures ParseDescription(ObjectNode(o, indent), "description") == o.description
  {
    var n := ObjectNode(o, indent);
    var ms := MethodNodes(o.methods, indent + 2);
    PickMiddle(DescriptionNodes(o.description, indent + 2), ms, [], {"description"}, 0);
    assert n.children == DescriptionNodes(o.description, indent + 2) + ms + [];
    DescriptionsRoundTrip(n, o.description, indent + 2);
  }

  // ---------------------------------------------------------------- the document

  /** The entries `serialize` writes, in order: only enums and objects. */
  function KnownElements(els: seq<ProtocolElement>): (r: seq<ProtocolElement>)
    ensures forall k :: 0 <= k < |r| ==> !r[k].OtherElement?
    decreases |els|
  {
    if els == [] then []
    else KnownElements(els[..|els| - 1]) + (if els[|els| - 1].OtherElement? then [] else [els[|els| - 1]])
  }

  /** The elements the `forEach` loop of `serialize` denotes: one per enum or object, nothing for other entries. */
  function ElementNodes(els: seq<ProtocolElement>): (r: seq<Element>)
    ensures forall k :: 0 <= k < |r| ==> r[k].tag in ElementTags
    decreases |els|
  {
    if els == [] then [] else ElementNodes(els[..|els| - 1]) + EntryNodes(els[|els| - 1])
  }

  /** What one entry of `elements` is written as. */
  function EntryNodes(el: ProtocolElement): (r: seq<Element>)
    ensures forall k :: 0 <= k < |r| ==> r[k].tag in ElementTags
  {
    match el
    case EnumElement(e) => [EnumNode(e)]
    case ObjectElement(o) => [ObjectNode(o, 2)]
    case OtherElement(_) => []
  }

  predicate ElementWritable(el: ProtocolElement) {
    match el
    case EnumElement(e) => EnumWritable(e)
    case ObjectElement(o) => ObjectWritable(o)
    case OtherElement(_) => true
  }

  /** The entries read back in order, except those of another type, which were never written. */
  lemma {:induction false} ElementsRoundTrip(els: seq<ProtocolElement>)
    requires forall k :: 0 <= k < |els| ==> ElementWritable(els[k])
    ensures ElementsOf(ElementNodes(els)) == KnownElements(els)
    decreases |els|
  {
    if els != [] {
      var init := els[..|els| - 1];
      var last := els[|els| - 1];
      ElementsRoundTrip(init);
      ElementsOfAppend(ElementNodes(init), EntryNodes(last));
      EntryRoundTrip(last);
    }
  }

  /** One entry reads back as itself, or as nothing when it is of another type. */
  lemma EntryRoundTrip(el: ProtocolElement)
    requires ElementWritable(el)
    ensures ElementsOf(EntryNodes(el)) == if el.OtherElement? then [] else [el]
  {
    AllTagged(EntryNodes(el), ElementTags);
    match el
    case EnumElement(e) =>
      EnumRoundTrip(e);
    case ObjectElement(o) =>
      ObjectRoundTrip(o, 2);
    case OtherElement(_) =>
  }

  /** A top-level text block `serialize` writes for a truthy text. */
  function TextNodes(tag: string, t: Option<string>): (r: seq<Element>)
    ensures forall k :: 0 <= k < |r| ==> r[k].tag == tag
  {
    if Truthy(t) then [Element(tag, map[], [], UnescapeXml(BlockBody(t, 2)))] else []
  }

  /** The `protocol` element `serialize(protocol)` denotes. */
  function ProtocolNode(p: ProtocolModel): Element {
    Element(
      "protocol",
      map["name" := UnescapeXml(p.name), "version" := UnescapeXml(NumText(p.version))],
      TextNodes("copyright", p.copyright) + TextNodes("description", p.description) + ElementNodes(p.elements),
      "")
  }

  predicate ProtocolWritable(p: ProtocolModel) {
    && AttrPlain(p.name)
    && TextWritable(p.copyright) && TextWritable(p.description)
    && forall k :: 0 <= k < |p.elements| ==> ElementWritable(p.elements[k])
  }

  lemma TextBlockRoundTrip(p: ProtocolModel, tag: string)
    requires ProtocolWritable(p)
    requires tag == "copyright" || tag == "description"
    ensures GetDirectTextContent(ProtocolNode(p), tag) == if tag == "copyright" then p.copyright else p.description
  {
    var t := if tag == "copyright" then p.copyright else p.description;
    var a := TextNodes("copyright", p.copyright);
    var b := TextNodes("description", p.description);
    PickMiddle(a, b, ElementNodes(p.elements), {tag}, if tag == "copyright" then 0 else 1);
    if Truthy(t) {
      TextRoundTrip(t, 2);
    }
  }

  /**
   * A document reads back as the protocol it was written from, less the entries of another
   * type, which are not written.
   */
  lemma ProtocolRoundTrip(p: ProtocolModel)
    requires ProtocolWritable(p)
    ensures ProtocolOf(ProtocolNode(p)) == p.(elements := KnownElements(p.elements))
  {
    ProtocolAttrsRoundTrip(p);
    TextBlockRoundTrip(p, "copyright");
    TextBlockRoundTrip(p, "description");
    ProtocolElementsRoundTrip(p);
  }

  lemma ProtocolAttrsRoundTrip(p: ProtocolModel)
    requires AttrPlain(p.name)
    ensures AttrOr(ProtocolNode(p), "name", "") == p.name
    ensures NumAttr(ProtocolNode(p), "version", "1") == p.version
  {
    UnescapePlain(p.name);
    NumTextPlain(p.version);
    UnescapePlain(NumText(p.version));
    ParsePrinted(p.version);
  }

  lemma ProtocolElementsRoundTrip(p: ProtocolModel)
    requires forall k :: 0 <= k < |p.elements| ==> ElementWritable(p.elements[k])
    ensures ElementsOf(ProtocolNode(p).children) == KnownElements(p.elements)
  {
    var a := TextNodes("copyright", p.copyright);
    var b := TextNodes("description", p.description);
    ElementsSkipped(a, b + ElementNodes(p.elements));
    ElementsSkipped(b, ElementNodes(p.elements));
    AppendAssoc(a, b, ElementNodes(p.elements));
    ElementsRoundTrip(p.elements);
  }

  /** Children that are not entries in front of others are skipped. */
  lemma ElementsSkipped(front: seq<Element>, rest: seq<Element>)
    requires forall k :: 0 <= k < |front| ==> front[k].tag !in ElementTags
    ensures ElementsOf(front + rest) == ElementsOf(rest)
  {
    ElementsOfAppend(front, rest);
    NoneTagged(front, ElementTags);
  }

  /** `parse` of the written document succeeds and gives the protocol back, less the entries of another type. */
  method ParseWritten(p: ProtocolModel) returns (r: Result<ProtocolModel, string>)
    requires ProtocolWritable(p)
    ensures r == Success(p.(elements := KnownElements(p.elements)))
  {
    r := Parse(ProtocolNode(p));
    ProtocolRoundTrip(p);
  }
}

=== FILE: seqs.dfy ===
/** Sequence helpers shared by the validators and the serializer. */
module Seqs {

  /** Concatenation of a sequence of sequences, in order (`Array.prototype.flat`, string `+=` in a loop). */
  function Flatten<T>(ss: seq<seq<T>>): seq<T>
    decreases |ss|
  {
    if |ss| == 0 then [] else Flatten(ss[..|ss| - 1]) + ss[|ss| - 1]
  }

  /** Flattening distributes over concatenation: the pieces keep their order. */
  lemma {:induction false} FlattenAppend<T>(a: seq<seq<T>>, b: seq<seq<T>>)
    ensures Flatten(a + b) == Flatten(a) + Flatten(b)
    decreases |b|
  {
    if |b| == 0 {
      assert a + b == a;
    } else {
      InitAppend(a, b);
      FlattenAppend(a, b[..|b| - 1]);
    }
  }

  /** Dropping the last element of a concatenation drops it from the second part. */
  lemma InitAppend<T>(a: seq<T>, b: seq<T>)
    requires b != []
    ensures (a + b)[..|a + b| - 1] == a + b[..|b| - 1]
    ensures (a + b)[|a + b| - 1] == b[|b| - 1]
  {
  }

  /** Dropping the first element of a concatenation drops it from the first part. */
  lemma TailAppend<T>(a: seq<T>, b: seq<T>)
    requires a != []
    ensures (a + b)[0] == a[0] && (a + b)[1..] == a[1..] + b
  {
  }

  /** A non-empty sequence is its head followed by its tail. */
  lemma HeadTail<T>(a: seq<T>)
    requires a != []
    ensures [a[0]] + a[1..] == a
  {
  }

  /** The flattening is empty exactly when every piece is. */
  lemma {:induction false} FlattenEmpty<T>(ss: seq<seq<T>>)
    ensures Flatten(ss) == [] <==> forall i :: 0 <= i < |ss| ==> ss[i] == []
    decreases |ss|
  {
    if |ss| > 0 {
      FlattenEmpty(ss[..|ss| - 1]);
    }
  }

  /** Number of elements of `s` that satisfy `p`. */
  function Count<T>(s: seq<T>, p: T -> bool): nat
    decreases |s|
  {
    if |s| == 0 then 0 else Count(s[..|s| - 1], p) + (if p(s[|s| - 1]) then 1 else 0)
  }

  /** Counting distributes over concatenation. */
  lemma {:induction false} CountAppend<T>(a: seq<T>, b: seq<T>, p: T -> bool)
    ensures Count(a + b, p) == Count(a, p) + Count(b, p)
    decreases |b|
  {
    if |b| == 0 {
      assert a + b == a;
    } else {
      InitAppend(a, b);
      CountAppend(a, b[..|b| - 1], p);
    }
  }

  /** Counting over one more element of a prefix. */
  lemma CountPrefix<T>(s: seq<T>, n: nat, p: T -> bool)
    requires 0 < n <= |s|
    ensures Count(s[..n], p) == Count(s[..n - 1], p) + (if p(s[n - 1]) then 1 else 0)
  {
    PrefixInit(s, n);
  }

  /** A prefix one element longer. */
  lemma PrefixSnoc<T>(s: seq<T>, i: nat)
    requires i < |s|
    ensures s[..i + 1] == s[..i] + [s[i]]
  {
  }

  /** The prefix of length `n - 1` of a prefix of length `n`. */
  lemma PrefixInit<T>(s: seq<T>, n: nat)
    requires 0 < n <= |s|
    ensures s[..n][..n - 1] == s[..n - 1] && s[..n][n - 1] == s[n - 1]
  {
  }

  lemma CountOne<T>(x: T, p: T -> bool)
    ensures Count([x], p) == if p(x) then 1 else 0
  {
    assert [x][..0] == [];
  }

  lemma AppendAssoc<T>(a: seq<T>, b: seq<T>, c: seq<T>)
    ensures (a + b) + c == a + (b + c)
  {
  }

  /** `xs.map(f)`. */
  function Map<A, B>(xs: seq<A>, f: A -> B): (r: seq<B>)
    ensures |r| == |xs|
    ensures forall k :: 0 <= k < |xs| ==> r[k] == f(xs[k])
  {
    seq(|xs|, k requires 0 <= k < |xs| => f(xs[k]))
  }

  /** Mapping distributes over concatenation. */
  lemma MapAppend<A, B>(a: seq<A>, b: seq<A>, f: A -> B)
    ensures Map(a + b, f) == Map(a, f) + Map(b, f)
  {
  }
}

=== FILE: serializer.dfy ===
/**
 * The writing half of the codec in src/lib/parser.js: `serialize` and the `_serialize*` helpers
 * build the descriptor text from the protocol model by appending to a string in loops.
 *
 * Each loop is a method proved equal to a function that concatenates one piece per item
 * (`Flatten` of the pieces, in order); the lemmas state what the text promises: its frame,
 * element order, skipped unknown entries, and which optional attributes appear.
 */
module Serializer {
  import opened Wrappers
  import opened Numbers
  import opened Text
  import opened Seqs
  import opened XmlEscape
  import opened XmlBlocks
  import opened Dom
  import opened Protocol

  /** The XML declaration every document starts with. */
  const Prolog: string := "<?xml version=\"1.0\" encoding=\"UTF-8\"?>\n"

  /** The last line of every document, after its newline. */
  const Closing: string := "\n</protocol>"

  // ---------------------------------------------------------------- the text of each entity

  /** ` name="value"`: one attribute as the templates write it, the value inserted as given. */
  function AttrText(name: string, value: string): string {
    " " + name + "=\"" + value + "\""
  }

  /** The start of a `value` line, up to its optional `description`; `spaces` is the enum's indentation. */
  function ValueStem(v: EnumValue, spaces: string): string {
    spaces + "  <value" + AttrText("idx", NumText(v.idx)) + AttrText("name", v.name)
  }

  /** One `value` line of an enum. */
  function ValueXml(v: EnumValue, spaces: string): string {
    ValueStem(v, spaces)
    + (if Truthy(v.description) then AttrText("description", EscapeXml(v.description.value)) else "")
    + "/>\n"
  }

  function ValuePieces(vs: seq<EnumValue>, spaces: string): (r: seq<string>)
    ensures |r| == |vs|
  {
    seq(|vs|, k requires 0 <= k < |vs| => ValueXml(vs[k], spaces))
  }

  function EnumOpen(e: Enum, spaces: string): string {
    spaces + "<enum" + AttrText("name", e.name) + ">\n"
  }

  function EnumClose(spaces: string): string {
    spaces + "</enum>\n\n"
  }

  /** What `_serializeEnum(enumDef, indent)` returns. */
  function EnumXml(e: Enum, indent: nat): string {
    var spaces := Spaces(indent);
    EnumOpen(e, spaces) + Flatten(ValuePieces(e.values, spaces)) + EnumClose(spaces)
  }

  /** What `_serializeDescription(desc, indent)` returns; the text block is rendered as `serializeMultilineElement` renders one. */
  function DescriptionXml(desc: Option<Description>, indent: nat): string {
    match desc
    case None => ""
    case Some(d) =>
      var spaces := Spaces(indent);
      var summaryAttr := if Truthy(d.summary) then AttrText("summary", EscapeXml(d.summary.value)) else "";
      spaces + "<description" + summaryAttr + ">" + BlockBody(d.text, indent) + "</description>\n"
  }

  /** The start of an `arg` line, up to its optional attributes; `spaces` is the method's indentation. */
  function ArgStem(a: Arg, spaces: string): string {
    spaces + "  <arg" + AttrText("name", a.name) + AttrText("type", a.argType)
  }

  /** One `arg` line of a method. */
  function ArgXml(a: Arg, spaces: string): string {
    ArgStem(a, spaces)
    + (if Truthy(a.interfaceName) then AttrText("interface", a.interfaceName.value) else "")
    + (if Truthy(a.summary) then AttrText("summary", EscapeXml(a.summary.value)) else "")
    + "/>\n"
  }

  function ArgPieces(args: seq<Arg>, spaces: string): (r: seq<string>)
    ensures |r| == |args|
  {
    seq(|args|, k requires 0 <= k < |args| => ArgXml(args[k], spaces))
  }

  /** The opening tag of a method, with `destructor="true"` for a destructor. */
  function MethodOpen(m: Method, spaces: string): string {
    spaces + "<" + m.direction + AttrText("name", m.name) + (if m.destructor then AttrText("destructor", "true") else "") + ">\n"
  }

  function ReturnsLine(iface: string, spaces: string): string {
    spaces + "  <returns" + AttrText("iface", iface) + "/>\n"
  }

  /** The `returns` line, present only for a truthy `returns`. */
  function ReturnsXml(m: Method, spaces: string): string {
    if Truthy(m.returnIface) then ReturnsLine(m.returnIface.value, spaces) else ""
  }

  function MethodClose(m: Method, spaces: string): string {
    spaces + "</" + m.direction + ">\n\n"
  }

  /** What `_serializeMethod(method, indent)` returns. */
  function MethodXml(m: Method, indent: nat): string {
    var spaces := Spaces(indent);
    MethodOpen(m, spaces) + DescriptionXml(m.description, indent + 2) + Flatten(ArgPieces(m.args, spaces))
    + ReturnsXml(m, spaces) + MethodClose(m, spaces)
  }

  function MethodPieces(ms: seq<Method>, indent: nat): (r: seq<string>)
    ensures |r| == |ms|
  {
    seq(|ms|, k requires 0 <= k < |ms| => MethodXml(ms[k], indent))
  }

  function ObjectOpen(o: Object, spaces: string): string {
    spaces + "<object" + AttrText("name", o.name) + AttrText("version", NumText(o.version)) + ">\n"
  }

  function ObjectClose(spaces: string): string {
    spaces + "</object>\n\n"
  }

  /** What `_serializeObject(obj, indent)` returns: the methods' text loses its trailing blank lines but one newline. */
  function ObjectXml(o: Object, indent: nat): string {
    var spaces := Spaces(indent);
    ObjectOpen(o, spaces) + DescriptionXml(o.description, indent + 2)
    + TrimEnd(Flatten(MethodPieces(o.methods, indent + 2))) + "\n" + ObjectClose(spaces)
  }

  /** One entry of `elements`, dispatched on its type at indentation 2; an entry of another type gives nothing. */
  function ElementXml(el: ProtocolElement): string {
    match el
    case EnumElement(e) => EnumXml(e, 2)
    case ObjectElement(o) => ObjectXml(o, 2)
    case OtherElement(_) => ""
  }

  /** The opening `protocol` tag, without its newline. */
  function ProtocolOpen(name: string, version: Num): string {
    "<protocol" + AttrText("name", name) + AttrText("version", NumText(version)) + ">"
  }

  /** What `serialize` has appended before the elements: the header and the truthy text blocks. */
  function ProtocolHead(name: string, version: Num, copyright: Option<string>, description: Option<string>): string {
    var head := Prolog + ProtocolOpen(name, version) + "\n";
    var withCopyright :=
      if Truthy(copyright) then head + SerializeMultilineElement("copyright", copyright, 2) + "\n" else head;
    if Truthy(description) then withCopyright + SerializeMultilineElement("description", description, 2) + "\n"
    else withCopyright
  }

  /** Everything `serialize` appends before the final `trimEnd`. */
  function ProtocolBody(p: ProtocolModel): string {
    ProtocolHead(p.name, p.version, p.copyright, p.description) + Flatten(Map(p.elements, ElementXml))
  }

  /** What `serialize(protocol)` returns. */
  function ProtocolXml(p: ProtocolModel): string {
    TrimEnd(ProtocolBody(p)) + Closing
  }

  // ---------------------------------------------------------------- the serialising loops

  /** Appending the next piece extends the flattening of a prefix by one. */
  lemma FlattenNext(pieces: seq<string>, i: nat)
    requires i < |pieces|
    ensures Flatten(pieces[..i]) + pieces[i] == Flatten(pieces[..i + 1])
  {
    assert pieces[..i + 1][..i] == pieces[..i];
  }

  /** The `forEach` callback of `_serializeEnum`: one `value` line. */
  method SerializeValue(value: EnumValue, spaces: string) returns (line: string)
    ensures line == ValueXml(value, spaces)
  {
    line := ValueStem(value, spaces);
    if Truthy(value.description) {
      line := line + AttrText("description", EscapeXml(value.description.value));
    }
    line := line + "/>\n";
  }

  /** `_serializeEnum(enumDef, indent)`. */
  method SerializeEnum(e: Enum, indent: nat) returns (xml: string)
    ensures xml == EnumXml(e, indent)
  {
    var spaces := Spaces(indent);
    xml := EnumOpen(e, spaces);
    ghost var head := xml;
    ghost var pieces := ValuePieces(e.values, spaces);
    var i := 0;
    while i < |e.values|
      invariant 0 <= i <= |e.values|
      invariant xml == head + Flatten(pieces[..i])
    {
      var line := SerializeValue(e.values[i], spaces);
      FlattenNext(pieces, i);
      AppendAssoc(head, Flatten(pieces[..i]), line);
      xml := xml + line;
      i := i + 1;
    }
    assert pieces[..i] == pieces;
    xml := xml + EnumClose(spaces);
  }

  /** The `forEach` callback of `_serializeMethod`: one `arg` line. */
  method SerializeArg(arg: Arg, spaces: string) returns (line: string)
    ensures line == ArgXml(arg, spaces)
  {
    line := ArgStem(arg, spaces);
    if Truthy(arg.interfaceName) {
      line := line + AttrText("interface", arg.interfaceName.value);
    }
    if Truthy(arg.summary) {
      line := line + AttrText("summary", EscapeXml(arg.summary.value));
    }
    line := line + "/>\n";
  }

  /** The `forEach` loop of `_serializeMethod` over the arguments. */
  method SerializeArgs(args: seq<Arg>, spaces: string) returns (xml: string)
    ensures xml == Flatten(ArgPieces(args, spaces))
  {
    ghost var pieces := ArgPieces(args, spaces);
    xml := "";
    var i := 0;
    while i < |args|
      invariant 0 <= i <= |args|
      invariant xml == Flatten(pieces[..i])
    {
      var line := SerializeArg(args[i], spaces);
      FlattenNext(pieces, i);
      xml := xml + line;
      i := i + 1;
    }
    assert pieces[..i] == pieces;
  }

  /** `_serializeMethod(method, indent)`. */
  method SerializeMethod(m: Method, indent: nat) returns (xml: string)
    ensures xml == MethodXml(m, indent)
  {
    var spaces := Spaces(indent);
    xml := MethodOpen(m, spaces);
    if m.description.Some? {
      xml := xml + DescriptionXml(m.description, indent + 2);
    }
    ghost var described := MethodOpen(m, spaces) + DescriptionXml(m.description, indent + 2);
    assert xml == described;
    var argsXml := SerializeArgs(m.args, spaces);
    xml := xml + argsXml;
    if Truthy(m.returnIface) {
      xml := xml + ReturnsLine(m.returnIface.value, spaces);
    }
    assert xml == described + Flatten(ArgPieces(m.args, spaces)) + ReturnsXml(m, spaces);
    xml := xml + MethodClose(m, spaces);
  }

  /** The `forEach` loop of `_serializeObject` over the methods. */
  method SerializeMethods(ms: seq<Method>, indent: nat) returns (xml: string)
    ensures xml == Flatten(MethodPieces(ms, indent))
  {
    ghost var pieces := MethodPieces(ms, indent);
    xml := "";
    var i := 0;
    while i < |ms|
      invariant 0 <= i <= |ms|
      invariant xml == Flatten(pieces[..i])
    {
      var s := SerializeMethod(ms[i], indent);
      FlattenNext(pieces, i);
      xml := xml + s;
      i := i + 1;
    }
    assert pieces[..i] == pieces;
  }

  /** `_serializeObject(obj, indent)`. */
  method SerializeObject(o: Object, indent: nat) returns (xml: string)
    ensures xml == ObjectXml(o, indent)
  {
    var spaces := Spaces(indent);
    xml := ObjectOpen(o, spaces);
    if o.description.Some? {
      xml := xml + DescriptionXml(o.description, indent + 2);
    }
    var methodsXml := SerializeMethods(o.methods, indent + 2);
    xml := xml + TrimEnd(methodsXml) + "\n";
    xml := xml + ObjectClose(spaces);
  }

  /** The body of the `forEach` loop of `serialize`: one entry, dispatched on its type. */
  method SerializeElement(el: ProtocolElement) returns (xml: string)
    ensures xml == ElementXml(el)
  {
    xml := "";
    if el.EnumElement? {
      xml := SerializeEnum(el.enumDef, 2);
    } else if el.ObjectElement? {
      xml := SerializeObject(el.obj, 2);
    }
  }

  /** The `forEach` loop of `serialize` over the entries. */
  method SerializeElements(els: seq<ProtocolElement>) returns (xml: string)
    ensures xml == Flatten(Map(els, ElementXml))
  {
    ghost var pieces := Map(els, ElementXml);
    xml := "";
    var i := 0;
    while i < |els|
      invariant 0 <= i <= |els|
      invariant xml == Flatten(pieces[..i])
    {
      var s := SerializeElement(els[i]);
      FlattenNext(pieces, i);
      xml := xml + s;
      i := i + 1;
    }
    assert pieces[..i] == pieces;
  }

  /** `serialize(protocol)`. */
  method Serialize(p: ProtocolModel) returns (xml: string)
    ensures xml == ProtocolXml(p)
  {
    xml := Prolog;
    xml := xml + ProtocolOpen(p.name, p.version) + "\n";
    if Truthy(p.copyright) {
      xml := xml + SerializeMultilineElement("copyright", p.copyright, 2);
      xml := xml + "\n";
    }
    if Truthy(p.description) {
      xml := xml + SerializeMultilineElement("description", p.description, 2);
      xml := xml + "\n";
    }
    var elementsXml := SerializeElements(p.elements);
    xml := xml + elementsXml;
    xml := TrimEnd(xml) + Closing;
  }

  // ---------------------------------------------------------------- lemmas: the document frame

  /** `trimEnd` stops at the last non-space character: a prefix ending in one survives it. */
  lemma {:induction false} TrimEndKeeps(a: string, b: string)
    requires a != [] && !IsSpace(a[|a| - 1])
    ensures a <= TrimEnd(a + b)
    decreases |b|
  {
    if b == [] {
      assert a + b == a;
    } else if IsSpace(b[|b| - 1]) {
      assert (a + b)[..|a + b| - 1] == a + b[..|b| - 1];
      TrimEndKeeps(a, b[..|b| - 1]);
    }
  }

  lemma PrefixAppend(a: string, b: string, c: string)
    requires a <= b
    ensures a <= b + c
  {
    assert (b + c)[..|b|] == b;
  }

  /** The header is the declaration and the opening tag, then a newline, then whatever follows. */
  lemma HeadStarts(name: string, version: Num, copyright: Option<string>, description: Option<string>)
    ensures Prolog + ProtocolOpen(name, version) + "\n" <= ProtocolHead(name, version, copyright, description)
  {
    var head := Prolog + ProtocolOpen(name, version) + "\n";
    var withCopyright :=
      if Truthy(copyright) then head + SerializeMultilineElement("copyright", copyright, 2) + "\n" else head;
    if Truthy(copyright) {
      PrefixAppend(head, head, SerializeMultilineElement("copyright", copyright, 2));
      PrefixAppend(head, head + SerializeMultilineElement("copyright", copyright, 2), "\n");
    }
    if Truthy(description) {
      PrefixAppend(head, withCopyright, SerializeMultilineElement("description", description, 2));
      PrefixAppend(head, withCopyright + SerializeMultilineElement("description", description, 2), "\n");
    }
  }

  /**
   * Every document starts with the XML declaration and the opening `protocol` tag carrying the
   * name and the printed version, and ends with a newline and the closing tag.
   */
  lemma SerializeFrame(p: ProtocolModel)
    ensures Prolog + ProtocolOpen(p.name, p.version) <= ProtocolXml(p)
    ensures |ProtocolXml(p)| >= |Prolog + ProtocolOpen(p.name, p.version)| + |Closing|
    ensures ProtocolXml(p)[|ProtocolXml(p)| - |Closing|..] == Closing
  {
    var a := Prolog + ProtocolOpen(p.name, p.version);
    var body := ProtocolBody(p);
    HeadStarts(p.name, p.version, p.copyright, p.description);
    PrefixAppend(a + "\n", ProtocolHead(p.name, p.version, p.copyright, p.description), Flatten(Map(p.elements, ElementXml)));
    assert a <= body by {
      assert (a + "\n")[..|a|] == a;
    }
    assert a[|a| - 1] == '>';
    TrimEndKeeps(a, body[|a|..]);
    assert a + body[|a|..] == body;
  }

  /** A protocol with nothing inside prints as the declaration, the opening tag and the closing tag. */
  lemma EmptyProtocolXml(p: ProtocolModel)
    requires !Truthy(p.copyright) && !Truthy(p.description) && p.elements == []
    ensures ProtocolXml(p) == Prolog + ProtocolOpen(p.name, p.version) + Closing
  {
    var a := Prolog + ProtocolOpen(p.name, p.version);
    assert ProtocolBody(p) == a + "\n" by {
      assert Flatten(Map(p.elements, ElementXml)) == [];
    }
    assert (a + "\n")[..|a + "\n"| - 1] == a;
    assert a[|a| - 1] == '>';
  }

  // ---------------------------------------------------------------- lemmas: element order

  /** The entries are written in their order: the text of a concatenation is the concatenation of the texts. */
  lemma ElementsInOrder(a: seq<ProtocolElement>, b: seq<ProtocolElement>)
    ensures Flatten(Map(a + b, ElementXml)) == Flatten(Map(a, ElementXml)) + Flatten(Map(b, ElementXml))
  {
    MapAppend(a, b, ElementXml);
    FlattenAppend(Map(a, ElementXml), Map(b, ElementXml));
  }

  lemma OtherElementEmpty(kind: string)
    ensures Flatten(Map([OtherElement(kind)], ElementXml)) == ""
  {
    assert Map([OtherElement(kind)], ElementXml) == [""];
    assert [""][..0] == [];
  }

  /** An entry whose type is neither `enum` nor `object` leaves the document unchanged. */
  lemma OtherElementSkipped(p: ProtocolModel, a: seq<ProtocolElement>, kind: string, b: seq<ProtocolElement>)
    requires p.elements == a + [OtherElement(kind)] + b
    ensures ProtocolXml(p) == ProtocolXml(p.(elements := a + b))
  {
    var q := p.(elements := a + b);
    assert Flatten(Map(p.elements, ElementXml)) == Flatten(Map(q.elements, ElementXml)) by {
      ElementsInOrder(a + [OtherElement(kind)], b);
      ElementsInOrder(a, [OtherElement(kind)]);
      ElementsInOrder(a, b);
      OtherElementEmpty(kind);
    }
    assert ProtocolBody(p) == ProtocolBody(q);
  }

  // ---------------------------------------------------------------- lemmas: optional attributes

  /** An enum value's `description` is written exactly when it is truthy. */
  lemma ValueDescriptionShown(v: EnumValue, spaces: string)
    ensures ValueXml(v, spaces) != ValueXml(v.(description := None), spaces) <==> Truthy(v.description)
  {
    if Truthy(v.description) {
      assert |ValueXml(v, spaces)| > |ValueXml(v.(description := None), spaces)|;
    }
  }

  /** `destructor="true"` is written exactly for a destructor. */
  lemma DestructorShown(m: Method, indent: nat)
    ensures MethodXml(m, indent) != MethodXml(m.(destructor := false), indent) <==> m.destructor
  {
    if m.destructor {
      assert |MethodXml(m, indent)| == |MethodXml(m.(destructor := false), indent)| + 18;
    }
  }

  /** The `returns` line is written exactly when `returns` is truthy. */
  lemma ReturnsShown(m: Method, indent: nat)
    ensures MethodXml(m, indent) != MethodXml(m.(returnIface := None), indent) <==> Truthy(m.returnIface)
  {
    if Truthy(m.returnIface) {
      assert |MethodXml(m, indent)| > |MethodXml(m.(returnIface := None), indent)|;
    }
  }

  /** An argument's `interface` is written exactly when it is truthy, unescaped. */
  lemma InterfaceShown(a: Arg, spaces: string)
    ensures ArgXml(a, spaces) != ArgXml(a.(interfaceName := None), spaces) <==> Truthy(a.interfaceName)
  {
    if Truthy(a.interfaceName) {
      assert |ArgXml(a, spaces)| > |ArgXml(a.(interfaceName := None), spaces)|;
    }
  }

  /** An argument's `summary` is written exactly when it is truthy. */
  lemma ArgSummaryShown(a: Arg, spaces: string)
    ensures ArgXml(a, spaces) != ArgXml(a.(summary := None), spaces) <==> Truthy(a.summary)
  {
    if Truthy(a.summary) {
      EscapeEmpty(a.summary.value);
      assert |ArgXml(a, spaces)| > |ArgXml(a.(summary := None), spaces)|;
    }
  }

  /** The copyright block is written exactly when the copyright is truthy. */
  lemma CopyrightShown(p: ProtocolModel)
    ensures ProtocolBody(p) != ProtocolBody(p.(copyright := None)) <==> Truthy(p.copyright)
  {
    if Truthy(p.copyright) {
      assert |ProtocolHead(p.name, p.version, p.copyright, p.description)|
        > |ProtocolHead(p.name, p.version, None, p.description)|;
    }
  }

  /**
   * A description's text block reads back, under the normalisation the parser applies, as the
   * text itself when the text is trimmed line by line, and as nothing when it is absent or blank.
   */
  lemma DescriptionTextReadBack(d: Description, indent: nat)
    ensures d.text.None? || Blank(d.text.value) ==> NormalizeBlock(BlockBody(d.text, indent)) == None
    ensures d.text.Some? && !Blank(d.text.value) && Trimmed(d.text.value) && LinesTrimmed(Split(d.text.value)) ==>
      NormalizeBlock(BlockBody(d.text, indent)) == d.text
  {
    RenderAbsent(d.text, indent);
    if d.text.Some? && !Blank(d.text.value) && Trimmed(d.text.value) && LinesTrimmed(Split(d.text.value)) {
      RenderRoundTrip(d.text.value, indent);
    }
  }
}

=== FILE: text.dfy ===
/**
 * The JavaScript string primitives the descriptor code relies on: whitespace (`\s`), `trim`,
 * `trimEnd`, `split('\n')`, `join('\n')` and `' '.repeat(n)`, with the facts about them that the
 * normalisation and rendering proofs need.
 */
module Text {

  /** Whitespace as `\s` and `String.prototype.trim` see it (ASCII part). */
  predicate IsSpace(c: char) {
    c == ' ' || c == '\t' || c == '\n' || c == '\r' || c as int == 0x0B || c as int == 0x0C
  }

  /** `!s.trim()`: the string holds whitespace only. */
  predicate Blank(s: string) {
    forall i :: 0 <= i < |s| ==> IsSpace(s[i])
  }

  /** No leading and no trailing whitespace. */
  predicate Trimmed(s: string) {
    s == [] || (!IsSpace(s[0]) && !IsSpace(s[|s| - 1]))
  }

  /** `' '.repeat(n)`. */
  function Spaces(n: nat): (r: string)
    ensures |r| == n && Blank(r) && '\n' !in r
  {
    seq(n, _ => ' ')
  }

  lemma BlankAppend(a: string, b: string)
    ensures Blank(a + b) <==> Blank(a) && Blank(b)
  {
    if Blank(a) && Blank(b) {
      forall i | 0 <= i < |a + b| ensures IsSpace((a + b)[i]) {
        if i >= |a| { assert (a + b)[i] == b[i - |a|]; }
      }
    }
    if Blank(a + b) {
      forall i | 0 <= i < |a| ensures IsSpace(a[i]) { assert a[i] == (a + b)[i]; }
      forall i | 0 <= i < |b| ensures IsSpace(b[i]) { assert b[i] == (a + b)[|a| + i]; }
    }
  }

  /** `s.trimStart()`: the dropped prefix is blank and what is left does not start with whitespace. */
  function TrimStart(s: string): (r: string)
    ensures |r| <= |s| && r == s[|s| - |r|..]
    ensures Blank(s[..|s| - |r|])
    ensures r == [] || !IsSpace(r[0])
    decreases |s|
  {
    if s != [] && IsSpace(s[0]) then TrimStart(s[1..]) else s
  }

  /** `s.trimEnd()`: the dropped suffix is blank and what is left does not end with whitespace. */
  function TrimEnd(s: string): (r: string)
    ensures |r| <= |s| && r == s[..|r|]
    ensures Blank(s[|r|..])
    ensures r == [] || !IsSpace(r[|r| - 1])
    decreases |s|
  {
    if s != [] && IsSpace(s[|s| - 1]) then TrimEnd(s[..|s| - 1]) else s
  }

  /** `s.trim()`. */
  function Trim(s: string): string {
    TrimStart(TrimEnd(s))
  }

  /** What `trim` leaves is trimmed, and it is empty exactly when the input was blank. */
  lemma TrimEndEmpty(s: string)
    ensures TrimEnd(s) == [] <==> Blank(s)
  {
    var e := TrimEnd(s);
    if e == [] {
      assert s[|e|..] == s;
    } else {
      assert s[|e| - 1] == e[|e| - 1];
    }
  }

  lemma TrimStartEmpty(s: string)
    ensures TrimStart(s) == [] <==> Blank(s)
  {
    var r := TrimStart(s);
    assert s == s[..|s| - |r|] + r;
    BlankAppend(s[..|s| - |r|], r);
  }

  lemma SuffixLast(e: string, r: string)
    requires r != [] && |r| <= |e| && r == e[|e| - |r|..]
    ensures r[|r| - 1] == e[|e| - 1]
  {
  }

  lemma TrimProperties(s: string)
    ensures Trimmed(Trim(s))
    ensures Trim(s) == [] <==> Blank(s)
  {
    var e := TrimEnd(s);
    var r := TrimStart(e);
    TrimEndEmpty(s);
    TrimStartEmpty(e);
    if r != [] {
      SuffixLast(e, r);
    }
  }

  /** Trimming a trimmed string changes nothing. */
  lemma TrimTrimmed(s: string)
    requires Trimmed(s)
    ensures Trim(s) == s
  {
  }

  /** A trailing whitespace character is invisible to `trim`. */
  lemma TrimDropLastSpace(s: string, c: char)
    requires IsSpace(c)
    ensures Trim(s + [c]) == Trim(s)
  {
    assert (s + [c])[..|s + [c]| - 1] == s;
  }

  /** A blank prefix is invisible to `trimStart`. */
  lemma {:induction false} TrimStartBlankPrefix(w: string, u: string)
    requires Blank(w)
    ensures TrimStart(w + u) == TrimStart(u)
    decreases |w|
  {
    if w != [] {
      assert (w + u)[0] == w[0] && IsSpace(w[0]);
      assert (w + u)[1..] == w[1..] + u;
      TrimStartBlankPrefix(w[1..], u);
    } else {
      assert w + u == u;
    }
  }

  /** The length of the leading-whitespace run (`s.match(/^(\s*)/)[1].length`). */
  function LeadingSpaces(s: string): (n: nat)
    ensures n <= |s| && Blank(s[..n])
    ensures n < |s| ==> !IsSpace(s[n])
    decreases |s|
  {
    if s != [] && IsSpace(s[0]) then 1 + LeadingSpaces(s[1..]) else 0
  }

  /** A line that is not blank has a non-space character right after its indentation. */
  lemma LeadingSpacesNonBlank(s: string)
    requires !Blank(s)
    ensures LeadingSpaces(s) < |s|
  {
    assert s[..|s|] == s;
  }

  /** Prefixing whitespace adds exactly its length to the indentation. */
  lemma {:induction false} LeadingSpacesPrefix(w: string, s: string)
    requires Blank(w)
    ensures LeadingSpaces(w + s) == |w| + LeadingSpaces(s)
    decreases |w|
  {
    if w != [] {
      assert (w + s)[0] == w[0] && IsSpace(w[0]);
      assert (w + s)[1..] == w[1..] + s;
      LeadingSpacesPrefix(w[1..], s);
    } else {
      assert w + s == s;
    }
  }

  /** Every line is free of the separator. */
  predicate NoNewlines(lines: seq<string>) {
    forall i :: 0 <= i < |lines| ==> '\n' !in lines[i]
  }

  /** `s.split('\n')`: always at least one line, none containing the separator. */
  function Split(s: string): (lines: seq<string>)
    ensures |lines| >= 1 && NoNewlines(lines)
    decreases |s|
  {
    if s == [] then [[]]
    else if s[0] == '\n' then [[]] + Split(s[1..])
    else
      var rest := Split(s[1..]);
      [[s[0]] + rest[0]] + rest[1..]
  }

  /** `lines.join('\n')`. */
  function Join(lines: seq<string>): string
    decreases |lines|
  {
    if |lines| == 0 then []
    else if |lines| == 1 then lines[0]
    else lines[0] + "\n" + Join(lines[1..])
  }

  /** Joining the pieces of a split gives the string back. */
  lemma {:induction false} JoinSplit(s: string)
    ensures Join(Split(s)) == s
    decreases |s|
  {
    if s != [] {
      JoinSplit(s[1..]);
      var rest := Split(s[1..]);
      if s[0] != '\n' {
        if |rest| == 1 {
        } else {
          assert ([[s[0]] + rest[0]] + rest[1..])[1..] == rest[1..];
          assert Join(rest) == rest[0] + "\n" + Join(rest[1..]);
        }
      }
    }
  }

  /** A line followed by the separator splits off as the first line. */
  lemma {:induction false} SplitLine(l: string, t: string)
    requires '\n' !in l
    ensures Split(l + "\n" + t) == [l] + Split(t)
    decreases |l|
  {
    if l == [] {
      assert l + "\n" + t == ['\n'] + t;
      assert (['\n'] + t)[1..] == t;
    } else {
      assert (l + "\n" + t)[1..] == l[1..] + "\n" + t;
      SplitLine(l[1..], t);
      assert [l[0]] + l[1..] == l;
    }
  }

  /** A string without the separator is a single line. */
  lemma {:induction false} SplitSingle(l: string)
    requires '\n' !in l
    ensures Split(l) == [l]
    decreases |l|
  {
    if l != [] {
      SplitSingle(l[1..]);
      assert [l[0]] + l[1..] == l;
    }
  }

  /** Splitting a join gives the lines back. */
  lemma {:induction false} SplitJoin(lines: seq<string>)
    requires |lines| >= 1 && NoNewlines(lines)
    ensures Split(Join(lines)) == lines
    decreases |lines|
  {
    if |lines| == 1 {
      SplitSingle(lines[0]);
    } else {
      SplitLine(lines[0], Join(lines[1..]));
      SplitJoin(lines[1..]);
    }
  }

  /** Joining peels off the last line as well as the first. */
  lemma {:induction false} JoinSnoc(lines: seq<string>)
    requires |lines| >= 2
    ensures Join(lines) == Join(lines[..|lines| - 1]) + "\n" + lines[|lines| - 1]
    decreases |lines|
  {
    if |lines| > 2 {
      JoinSnoc(lines[1..]);
      assert lines[1..][..|lines| - 2] == lines[..|lines| - 1][1..];
    }
  }

  /** Joining a sequence with one more line. */
  lemma JoinAppendLine(lines: seq<string>, l: string)
    requires |lines| >= 1
    ensures Join(lines + [l]) == Join(lines) + "\n" + l
  {
    JoinSnoc(lines + [l]);
    assert (lines + [l])[..|lines|] == lines;
  }

  /** The first character of a join. */
  lemma JoinFirst(lines: seq<string>)
    requires |lines| >= 1
    ensures lines[0] != [] ==> Join(lines) != [] && Join(lines)[0] == lines[0][0]
    ensures lines[0] == [] && |lines| >= 2 ==> Join(lines) != [] && Join(lines)[0] == '\n'
  {
  }

  /** The last character of a join. */
  lemma JoinLast(lines: seq<string>)
    requires |lines| >= 1
    ensures var l := lines[|lines| - 1]; var j := Join(lines);
      (l != [] ==> j != [] && j[|j| - 1] == l[|l| - 1]) &&
      (l == [] && |lines| >= 2 ==> j != [] && j[|j| - 1] == '\n')
  {
    if |lines| >= 2 {
      JoinSnoc(lines);
    }
  }

  /** Splitting a string that starts with `x`. */
  lemma SplitCons(x: char, t: string)
    ensures Split([x] + t) == if x == '\n' then [[]] + Split(t) else [[x] + Split(t)[0]] + Split(t)[1..]
  {
    assert ([x] + t)[1..] == t;
  }

  lemma SplitOne(c: char)
    ensures Split([c]) == if c == '\n' then [[], []] else [[c]]
  {
    SplitCons(c, []);
    assert [c] + [] == [c];
  }

  /** The lines of `s + [c]` from the lines of `s`. */
  function SnocLines(ls: seq<string>, c: char): seq<string>
    requires |ls| >= 1
  {
    if c == '\n' then ls + [[]] else ls[..|ls| - 1] + [ls[|ls| - 1] + [c]]
  }

  /** The lines of `[x] + t` from the lines of `t`. */
  function ConsLines(x: char, lt: seq<string>): (r: seq<string>)
    requires |lt| >= 1
    ensures |r| >= 1
  {
    if x == '\n' then [[]] + lt else [[x] + lt[0]] + lt[1..]
  }

  /** Adding a first and a last character to the lines commute. */
  lemma ConsSnocLines(x: char, c: char, lt: seq<string>)
    requires |lt| >= 1
    ensures ConsLines(x, SnocLines(lt, c)) == SnocLines(ConsLines(x, lt), c)
  {
    var n := |lt|;
    if x != '\n' && c != '\n' && n == 1 {
      assert [x] + (lt[0] + [c]) == ([x] + lt[0]) + [c];
    }
  }

  /** Splitting a string extended by one character. */
  lemma {:induction false} SplitSnoc(s: string, c: char)
    ensures Split(s + [c]) == SnocLines(Split(s), c)
    decreases |s|
  {
    if s == [] {
      SplitOne(c);
      assert s + [c] == [c];
    } else {
      var x := s[0];
      var t := s[1..];
      assert s == [x] + t;
      assert s + [c] == [x] + (t + [c]);
      SplitCons(x, t);
      SplitCons(x, t + [c]);
      SplitSnoc(t, c);
      ConsSnocLines(x, c, Split(t));
    }
  }

  /** Every line is either empty or holds a non-space character. */
  predicate CleanLines(lines: seq<string>) {
    forall i :: 0 <= i < |lines| ==> lines[i] == [] || !Blank(lines[i])
  }

  /** Dropping a leading whitespace character keeps the lines clean. */
  lemma DropFirstClean(s: string)
    requires s != [] && IsSpace(s[0]) && CleanLines(Split(s))
    ensures CleanLines(Split(s[1..]))
  {
    var rest := Split(s[1..]);
    if s[0] != '\n' {
      assert Split(s)[0] == [s[0]] + rest[0];
      BlankAppend([s[0]], rest[0]);
      forall i | 0 <= i < |rest| ensures rest[i] == [] || !Blank(rest[i]) {
        if i > 0 { assert rest[i] == Split(s)[i]; }
      }
    } else {
      forall i | 0 <= i < |rest| ensures rest[i] == [] || !Blank(rest[i]) {
        assert rest[i] == Split(s)[i + 1];
      }
    }
  }

  /** Lines that stay clean once a whitespace character is added to the last one (or after it) were clean. */
  lemma CleanSnoc(ls: seq<string>, c: char, extended: seq<string>)
    requires |ls| >= 1 && IsSpace(c) && CleanLines(extended)
    requires extended == SnocLines(ls, c)
    ensures CleanLines(ls)
  {
    var n := |ls|;
    forall i | 0 <= i < n ensures ls[i] == [] || !Blank(ls[i]) {
      if c == '\n' || i < n - 1 {
        assert ls[i] == extended[i];
      } else {
        assert extended[i] == ls[i] + [c];
        BlankAppend(ls[i], [c]);
      }
    }
  }

  /** Dropping a trailing whitespace character keeps the lines clean. */
  lemma DropLastClean(s: string)
    requires s != [] && IsSpace(s[|s| - 1]) && CleanLines(Split(s))
    ensures CleanLines(Split(s[..|s| - 1]))
  {
    SnocLast(s);
    DropSpaceClean(s[..|s| - 1], s[|s| - 1]);
  }

  lemma SnocLast(s: string)
    requires s != []
    ensures s[..|s| - 1] + [s[|s| - 1]] == s
  {
  }

  lemma DropSpaceClean(p: string, c: char)
    requires IsSpace(c) && CleanLines(Split(p + [c]))
    ensures CleanLines(Split(p))
  {
    SplitSnoc(p, c);
    CleanSnoc(Split(p), c, Split(p + [c]));
  }

  /** `trim` keeps the lines of a text clean. */
  lemma {:induction false} TrimEndClean(s: string)
    requires CleanLines(Split(s))
    ensures CleanLines(Split(TrimEnd(s)))
    decreases |s|
  {
    if s != [] && IsSpace(s[|s| - 1]) {
      DropLastClean(s);
      TrimEndClean(s[..|s| - 1]);
    }
  }

  lemma {:induction false} TrimStartClean(s: string)
    requires CleanLines(Split(s))
    ensures CleanLines(Split(TrimStart(s)))
    decreases |s|
  {
    if s != [] && IsSpace(s[0]) {
      DropFirstClean(s);
      TrimStartClean(s[1..]);
    }
  }

  lemma TrimClean(s: string)
    requires CleanLines(Split(s))
    ensures CleanLines(Split(Trim(s)))
  {
    TrimEndClean(s);
    TrimStartClean(TrimEnd(s));
  }

  /** A join is blank only if every line is. */
  lemma {:induction false} JoinNotBlank(lines: seq<string>, k: nat)
    requires k < |lines| && !Blank(lines[k])
    ensures !Blank(Join(lines))
    decreases |lines|
  {
    if |lines| > 1 {
      if k == 0 {
        assert Join(lines) == lines[0] + ("\n" + Join(lines[1..]));
        BlankAppend(lines[0], "\n" + Join(lines[1..]));
      } else {
        JoinNotBlank(lines[1..], k - 1);
        BlankAppend(lines[0] + "\n", Join(lines[1..]));
      }
    }
  }

  /** A text that is not blank has a line that is not blank. */
  lemma {:induction false} SplitNotBlank(s: string)
    requires !Blank(s)
    ensures exists k :: 0 <= k < |Split(s)| && !Blank(Split(s)[k])
    decreases |s|
  {
    var rest := Split(s[1..]);
    if !IsSpace(s[0]) {
      assert Split(s)[0][0] == s[0];
    } else {
      assert !Blank(s[1..]) by { BlankAppend([s[0]], s[1..]); assert s == [s[0]] + s[1..]; }
      SplitNotBlank(s[1..]);
      var k :| 0 <= k < |rest| && !Blank(rest[k]);
      if s[0] == '\n' {
        assert Split(s)[k + 1] == rest[k];
      } else if k == 0 {
        BlankAppend([s[0]], rest[0]);
        assert !Blank(Split(s)[0]);
      } else {
        assert Split(s)[k] == rest[k];
      }
    }
  }
}

=== FILE: validators.dfy ===
/**
 * The structural checks of src/lib/validators.js. Each check walks the model once, never stops
 * early and collects every problem in order. The methods follow the source's loops (an error
 * list that grows, a set of the enum indices seen so far); the functions beside them state
 * what the finished list is, and the lemmas count and characterise its entries.
 */
module Validators {
  import opened Wrappers
  import opened Numbers
  import opened Protocol
  import opened Seqs

  /** One problem found; `Message` gives the text the source pushes for it. */
  datatype ValidationError =
    | EnumMissingName(enumPos: nat)
    | DuplicateIndex(idx: Num, enumName: string)
    | ValueMissingName(valuePos: nat, enumName: string)
    | ObjectMissingName(objectPos: nat)
    | InvalidVersion(objectName: string)
    | MethodMissingName(methodPos: nat, objectName: string)
    | InvalidDirection(methodName: string, direction: string)
    | ProtocolMissingName
    | ProtocolInvalidVersion

  function Message(e: ValidationError): string {
    match e
    case EnumMissingName(pos) => "Enum at index " + IntToString(pos) + " missing name"
    case DuplicateIndex(idx, name) => "Duplicate enum value index " + NumText(idx) + " in " + name
    case ValueMissingName(pos, name) => "Enum value at index " + IntToString(pos) + " in " + name + " missing name"
    case ObjectMissingName(pos) => "Object at index " + IntToString(pos) + " missing name"
    case InvalidVersion(name) => "Object " + name + " has invalid version"
    case MethodMissingName(pos, name) => "Method at index " + IntToString(pos) + " in " + name + " missing name"
    case InvalidDirection(name, dir) => "Method " + name + " has invalid direction: " + dir
    case ProtocolMissingName => "Protocol must have a name"
    case ProtocolInvalidVersion => "Protocol must have a valid version"
  }

  function Messages(es: seq<ValidationError>): (r: seq<string>)
    ensures |r| == |es|
  {
    seq(|es|, i requires 0 <= i < |es| => Message(es[i]))
  }

  /** `!v || v < 1`: a version that is `NaN`, zero or below one. */
  predicate VersionInvalid(v: Num) {
    v.None? || v.value == 0 || v.value < 1
  }

  predicate DirectionValid(d: string) {
    d == "c2s" || d == "s2c"
  }

  // ---------------------------------------------------------------- enums

  /** The `seenIndices` set after the first values. */
  function Indices(vs: seq<EnumValue>): set<Num>
    decreases |vs|
  {
    if vs == [] then {} else Indices(vs[..|vs| - 1]) + {vs[|vs| - 1].idx}
  }

  /** The errors for the value at position `i`: a repeated index, then a missing name. */
  function ValueErrors(vs: seq<EnumValue>, i: nat, enumName: string): seq<ValidationError>
    requires i < |vs|
  {
    (if vs[i].idx in Indices(vs[..i]) then [DuplicateIndex(vs[i].idx, enumName)] else [])
    + (if vs[i].name == "" then [ValueMissingName(i, enumName)] else [])
  }

  /** The errors for the first `n` values, in value order. */
  function ValuesErrors(vs: seq<EnumValue>, n: nat, enumName: string): seq<ValidationError>
    requires n <= |vs|
  {
    if n == 0 then [] else ValuesErrors(vs, n - 1, enumName) + ValueErrors(vs, n - 1, enumName)
  }

  /** `validateEnum(enumDef, pos)`. */
  function EnumErrors(e: Enum, pos: nat): seq<ValidationError> {
    (if e.name == "" then [EnumMissingName(pos)] else []) + ValuesErrors(e.values, |e.values|, e.name)
  }

  method ValidateEnum(e: Enum, pos: nat) returns (errors: seq<ValidationError>)
    ensures errors == EnumErrors(e, pos)
  {
    errors := [];
    if e.name == "" {
      errors := errors + [EnumMissingName(pos)];
    }
    var head := errors;
    var seen: set<Num> := {};
    var i := 0;
    while i < |e.values|
      invariant 0 <= i <= |e.values|
      invariant seen == Indices(e.values[..i])
      invariant errors == head + ValuesErrors(e.values, i, e.name)
    {
      var v := e.values[i];
      ghost var before := errors;
      if v.idx in seen {
        errors := errors + [DuplicateIndex(v.idx, e.name)];
      }
      ghost var dup := errors;
      assert dup == before + (if v.idx in seen then [DuplicateIndex(v.idx, e.name)] else []);
      seen := seen + {v.idx};
      if v.name == "" {
        errors := errors + [ValueMissingName(i, e.name)];
      }
      assert errors == dup + (if v.name == "" then [ValueMissingName(i, e.name)] else []);
      ValuesErrorsNext(e.values, i, e.name, head, before, errors);
      i := i + 1;
    }
  }

  /** One turn of `validateEnum`'s loop appends the errors of the current value. */
  lemma ValuesErrorsNext(vs: seq<EnumValue>, i: nat, enumName: string, head: seq<ValidationError>,
                         before: seq<ValidationError>, after: seq<ValidationError>)
    requires i < |vs|
    requires before == head + ValuesErrors(vs, i, enumName)
    requires after == before
      + (if vs[i].idx in Indices(vs[..i]) then [DuplicateIndex(vs[i].idx, enumName)] else [])
      + (if vs[i].name == "" then [ValueMissingName(i, enumName)] else [])
    ensures after == head + ValuesErrors(vs, i + 1, enumName)
    ensures Indices(vs[..i + 1]) == Indices(vs[..i]) + {vs[i].idx}
  {
    IndicesNext(vs, i);
    var d := if vs[i].idx in Indices(vs[..i]) then [DuplicateIndex(vs[i].idx, enumName)] else [];
    var m := if vs[i].name == "" then [ValueMissingName(i, enumName)] else [];
    AppendAssoc(before, d, m);
    AppendAssoc(head, ValuesErrors(vs, i, enumName), d + m);
  }

  lemma {:induction false} IndicesMember(vs: seq<EnumValue>, x: Num)
    ensures x in Indices(vs) <==> exists j :: 0 <= j < |vs| && vs[j].idx == x
    decreases |vs|
  {
    if vs != [] {
      var p := vs[..|vs| - 1];
      IndicesMember(p, x);
      if exists j :: 0 <= j < |vs| && vs[j].idx == x {
        var j :| 0 <= j < |vs| && vs[j].idx == x;
        if j < |vs| - 1 { assert p[j] == vs[j]; }
      }
    }
  }

  lemma {:induction false} IndicesSize(vs: seq<EnumValue>)
    ensures |Indices(vs)| <= |vs|
    decreases |vs|
  {
    if vs != [] {
      IndicesSize(vs[..|vs| - 1]);
    }
  }

  predicate IsDuplicate(e: ValidationError) { e.DuplicateIndex? }

  predicate IsValueMissingName(e: ValidationError) { e.ValueMissingName? }

  predicate Unnamed(v: EnumValue) { v.name == "" }

  lemma ValuesErrorsStep(vs: seq<EnumValue>, n: nat, enumName: string, p: ValidationError -> bool)
    requires 0 < n <= |vs|
    ensures Count(ValuesErrors(vs, n, enumName), p)
      == Count(ValuesErrors(vs, n - 1, enumName), p) + Count(ValueErrors(vs, n - 1, enumName), p)
  {
    CountAppend(ValuesErrors(vs, n - 1, enumName), ValueErrors(vs, n - 1, enumName), p);
  }

  /** The errors of one value, by kind. */
  lemma ValueErrorCounts(vs: seq<EnumValue>, i: nat, enumName: string)
    requires i < |vs|
    ensures Count(ValueErrors(vs, i, enumName), IsDuplicate) == if vs[i].idx in Indices(vs[..i]) then 1 else 0
    ensures Count(ValueErrors(vs, i, enumName), IsValueMissingName) == if vs[i].name == "" then 1 else 0
    ensures |ValueErrors(vs, i, enumName)|
      == Count(ValueErrors(vs, i, enumName), IsDuplicate) + Count(ValueErrors(vs, i, enumName), IsValueMissingName)
  {
    var v := vs[i];
    var d := if v.idx in Indices(vs[..i]) then [DuplicateIndex(v.idx, enumName)] else [];
    var m := if v.name == "" then [ValueMissingName(i, enumName)] else [];
    CountAppend(d, m, IsDuplicate);
    CountAppend(d, m, IsValueMissingName);
    if d != [] {
      CountOne(DuplicateIndex(v.idx, enumName), IsDuplicate);
      CountOne(DuplicateIndex(v.idx, enumName), IsValueMissingName);
    }
    if m != [] {
      CountOne(ValueMissingName(i, enumName), IsDuplicate);
      CountOne(ValueMissingName(i, enumName), IsValueMissingName);
    }
  }

  lemma IndicesNext(vs: seq<EnumValue>, i: nat)
    requires i < |vs|
    ensures Indices(vs[..i + 1]) == Indices(vs[..i]) + {vs[i].idx}
  {
    PrefixInit(vs, i + 1);
  }

  /** The seen set grows by one exactly when the value's index is new. */
  lemma IndicesStep(vs: seq<EnumValue>, n: nat)
    requires 0 < n <= |vs|
    ensures |Indices(vs[..n])| == |Indices(vs[..n - 1])| + if vs[n - 1].idx in Indices(vs[..n - 1]) then 0 else 1
  {
    var a := Indices(vs[..n - 1]);
    var x := vs[n - 1].idx;
    PrefixInit(vs, n);
    assert Indices(vs[..n]) == a + {x};
    if x in a {
      assert a + {x} == a;
    } else {
      assert |a + {x}| == |a| + 1;
    }
  }

  /**
   * One duplicate error per value whose index occurred before: `k` values sharing an index
   * give `k - 1` errors, so the duplicates number the values minus the distinct indices.
   */
  lemma {:induction false} DuplicateCount(vs: seq<EnumValue>, n: nat, enumName: string)
    requires n <= |vs|
    ensures Count(ValuesErrors(vs, n, enumName), IsDuplicate) == n - |Indices(vs[..n])|
    decreases n
  {
    if n == 0 {
      assert vs[..0] == [];
    } else {
      DuplicateCount(vs, n - 1, enumName);
      ValuesErrorsStep(vs, n, enumName, IsDuplicate);
      ValueErrorCounts(vs, n - 1, enumName);
      IndicesStep(vs, n);
    }
  }

  /** One missing-name error per unnamed value. */
  lemma {:induction false} MissingNameCount(vs: seq<EnumValue>, n: nat, enumName: string)
    requires n <= |vs|
    ensures Count(ValuesErrors(vs, n, enumName), IsValueMissingName) == Count(vs[..n], Unnamed)
    decreases n
  {
    if n == 0 {
      assert vs[..0] == [];
    } else {
      MissingNameCount(vs, n - 1, enumName);
      ValuesErrorsStep(vs, n, enumName, IsValueMissingName);
      ValueErrorCounts(vs, n - 1, enumName);
      CountPrefix(vs, n, Unnamed);
    }
  }

  /** Each value contributes at most a duplicate error and a missing-name error, and nothing else. */
  lemma {:induction false} ValuesErrorsLength(vs: seq<EnumValue>, n: nat, enumName: string)
    requires n <= |vs|
    ensures |ValuesErrors(vs, n, enumName)|
      == Count(ValuesErrors(vs, n, enumName), IsDuplicate) + Count(ValuesErrors(vs, n, enumName), IsValueMissingName)
    decreases n
  {
    if n > 0 {
      ValuesErrorsLength(vs, n - 1, enumName);
      ValueErrorCounts(vs, n - 1, enumName);
      TwoKindsAppend(ValuesErrors(vs, n - 1, enumName), ValueErrors(vs, n - 1, enumName), IsDuplicate, IsValueMissingName);
    }
  }

  /**
   * The number of errors of `validateEnum`: one for a missing enum name, one per repeated
   * index, one per unnamed value.
   */
  lemma EnumErrorCount(e: Enum, pos: nat)
    ensures |EnumErrors(e, pos)|
      == (if e.name == "" then 1 else 0) + (|e.values| - |Indices(e.values)|) + Count(e.values, Unnamed)
  {
    var vs := e.values;
    assert vs[..|vs|] == vs;
    DuplicateCount(vs, |vs|, e.name);
    MissingNameCount(vs, |vs|, e.name);
    ValuesErrorsLength(vs, |vs|, e.name);
  }

  lemma {:induction false} ValuesErrorsEmpty(vs: seq<EnumValue>, n: nat, enumName: string)
    requires n <= |vs|
    ensures ValuesErrors(vs, n, enumName) == [] <==> forall i :: 0 <= i < n ==> ValueErrors(vs, i, enumName) == []
    decreases n
  {
    if n > 0 {
      ValuesErrorsEmpty(vs, n - 1, enumName);
    }
  }

  /** An enum passes exactly when it is named, its values are named and no index repeats. */
  lemma EnumValid(e: Enum, pos: nat)
    ensures EnumErrors(e, pos) == [] <==>
      e.name != ""
      && (forall i :: 0 <= i < |e.values| ==> e.values[i].name != "")
      && (forall i, j :: 0 <= i < j < |e.values| ==> e.values[i].idx != e.values[j].idx)
  {
    var vs := e.values;
    ValuesErrorsEmpty(vs, |vs|, e.name);
    forall j | 0 <= j < |vs|
      ensures ValueErrors(vs, j, e.name) == [] <==>
        vs[j].name != "" && forall i :: 0 <= i < j ==> vs[i].idx != vs[j].idx
    {
      IndicesMember(vs[..j], vs[j].idx);
    }
  }

  /** Two values sharing index 0 give exactly one error, the duplicate, and no missing-name error. */
  lemma SharedIndexExample()
    ensures EnumErrors(Enum("E", [EnumValue(Some(0), "A", None), EnumValue(Some(0), "B", None)]), 0)
      == [DuplicateIndex(Some(0), "E")]
  {
    var vs := [EnumValue(Some(0), "A", None), EnumValue(Some(0), "B", None)];
    assert vs[..0] == [] && vs[..1] == [vs[0]] && [vs[0]][..0] == [];
    assert Indices(vs[..1]) == {Some(0)};
    assert ValueErrors(vs, 0, "E") == [];
    assert ValueErrors(vs, 1, "E") == [DuplicateIndex(Some(0), "E")];
    assert ValuesErrors(vs, 2, "E") == [] + [] + [DuplicateIndex(Some(0), "E")];
  }

  // ---------------------------------------------------------------- objects

  /** The errors for the method at position `i`: a missing name, then a bad direction. */
  function MethodErrors(ms: seq<Method>, i: nat, objName: string): seq<ValidationError>
    requires i < |ms|
  {
    (if ms[i].name == "" then [MethodMissingName(i, objName)] else [])
    + (if !DirectionValid(ms[i].direction) then [InvalidDirection(ms[i].name, ms[i].direction)] else [])
  }

  function MethodsErrors(ms: seq<Method>, n: nat, objName: string): seq<ValidationError>
    requires n <= |ms|
  {
    if n == 0 then [] else MethodsErrors(ms, n - 1, objName) + MethodErrors(ms, n - 1, objName)
  }

  /** One turn of `validateObject`'s loop appends the errors of the current method. */
  lemma MethodsErrorsNext(ms: seq<Method>, i: nat, objName: string, head: seq<ValidationError>,
                          before: seq<ValidationError>, after: seq<ValidationError>)
    requires i < |ms|
    requires before == head + MethodsErrors(ms, i, objName)
    requires after == before
      + (if ms[i].name == "" then [MethodMissingName(i, objName)] else [])
      + (if !DirectionValid(ms[i].direction) then [InvalidDirection(ms[i].name, ms[i].direction)] else [])
    ensures after == head + MethodsErrors(ms, i + 1, objName)
  {
    var a := if ms[i].name == "" then [MethodMissingName(i, objName)] else [];
    var b := if !DirectionValid(ms[i].direction) then [InvalidDirection(ms[i].name, ms[i].direction)] else [];
    AppendAssoc(before, a, b);
    AppendAssoc(head, MethodsErrors(ms, i, objName), a + b);
  }

  /** `validateObject(obj, pos)`. */
  function ObjectErrors(o: Object, pos: nat): seq<ValidationError> {
    (if o.name == "" then [ObjectMissingName(pos)] else [])
    + (if VersionInvalid(o.version) then [InvalidVersion(o.name)] else [])
    + MethodsErrors(o.methods, |o.methods|, o.name)
  }

  method ValidateObject(o: Object, pos: nat) returns (errors: seq<ValidationError>)
    ensures errors == ObjectErrors(o, pos)
  {
    errors := [];
    if o.name == "" {
      errors := errors + [ObjectMissingName(pos)];
    }
    assert errors == (if o.name == "" then [ObjectMissingName(pos)] else []);
    if o.version.None? || o.version.value == 0 || o.version.value < 1 {
      errors := errors + [InvalidVersion(o.name)];
    }
    var head := errors;
    assert head == (if o.name == "" then [ObjectMissingName(pos)] else [])
      + (if VersionInvalid(o.version) then [InvalidVersion(o.name)] else []);
    var i := 0;
    while i < |o.methods|
      invariant 0 <= i <= |o.methods|
      invariant errors == head + MethodsErrors(o.methods, i, o.name)
    {
      var m := o.methods[i];
      ghost var before := errors;
      if m.name == "" {
        errors := errors + [MethodMissingName(i, o.name)];
      }
      ghost var named := errors;
      assert named == before + (if m.name == "" then [MethodMissingName(i, o.name)] else []);
      if !(m.direction == "c2s" || m.direction == "s2c") {
        errors := errors + [InvalidDirection(m.name, m.direction)];
      }
      assert errors == named + (if !DirectionValid(m.direction) then [InvalidDirection(m.name, m.direction)] else []);
      MethodsErrorsNext(o.methods, i, o.name, head, before, errors);
      i := i + 1;
    }
  }

  /** The version error appears exactly when the version is `NaN` or below one. */
  lemma VersionErrorIff(o: Object, pos: nat)
    ensures InvalidVersion(o.name) in ObjectErrors(o, pos) <==> o.version.None? || o.version.value < 1
  {
    var a := if o.name == "" then [ObjectMissingName(pos)] else [];
    var b := if VersionInvalid(o.version) then [InvalidVersion(o.name)] else [];
    var c := MethodsErrors(o.methods, |o.methods|, o.name);
    NoVersionErrorAmongMethods(o.methods, |o.methods|, o.name);
    assert ObjectErrors(o, pos) == a + b + c;
    assert InvalidVersion(o.name) in a + b + c <==> InvalidVersion(o.name) in a || InvalidVersion(o.name) in b || InvalidVersion(o.name) in c;
  }

  lemma {:induction false} NoVersionErrorAmongMethods(ms: seq<Method>, n: nat, objName: string)
    requires n <= |ms|
    ensures forall x :: x in MethodsErrors(ms, n, objName) ==> !x.InvalidVersion?
    decreases n
  {
    if n > 0 {
      NoVersionErrorAmongMethods(ms, n - 1, objName);
    }
  }

  predicate IsDirectionError(e: ValidationError) { e.InvalidDirection? }

  predicate IsMethodMissingName(e: ValidationError) { e.MethodMissingName? }

  predicate BadDirection(m: Method) { !DirectionValid(m.direction) }

  predicate UnnamedMethod(m: Method) { m.name == "" }

  lemma MethodErrorCountsOne(ms: seq<Method>, i: nat, objName: string)
    requires i < |ms|
    ensures Count(MethodErrors(ms, i, objName), IsDirectionError) == if BadDirection(ms[i]) then 1 else 0
    ensures Count(MethodErrors(ms, i, objName), IsMethodMissingName) == if UnnamedMethod(ms[i]) then 1 else 0
    ensures |MethodErrors(ms, i, objName)|
      == Count(MethodErrors(ms, i, objName), IsDirectionError) + Count(MethodErrors(ms, i, objName), IsMethodMissingName)
  {
    var m := ms[i];
    var a := if m.name == "" then [MethodMissingName(i, objName)] else [];
    var b := if !DirectionValid(m.direction) then [InvalidDirection(m.name, m.direction)] else [];
    CountAppend(a, b, IsDirectionError);
    CountAppend(a, b, IsMethodMissingName);
    if a != [] {
      CountOne(MethodMissingName(i, objName), IsDirectionError);
      CountOne(MethodMissingName(i, objName), IsMethodMissingName);
    }
    if b != [] {
      CountOne(InvalidDirection(m.name, m.direction), IsDirectionError);
      CountOne(InvalidDirection(m.name, m.direction), IsMethodMissingName);
    }
  }

  lemma MethodsErrorsStep(ms: seq<Method>, n: nat, objName: string, p: ValidationError -> bool)
    requires 0 < n <= |ms|
    ensures Count(MethodsErrors(ms, n, objName), p)
      == Count(MethodsErrors(ms, n - 1, objName), p) + Count(MethodErrors(ms, n - 1, objName), p)
  {
    CountAppend(MethodsErrors(ms, n - 1, objName), MethodErrors(ms, n - 1, objName), p);
  }

  /** One direction error per method whose direction is not `c2s` or `s2c`, and one name error per unnamed method. */
  lemma MethodErrorCounts(ms: seq<Method>, n: nat, objName: string)
    requires n <= |ms|
    ensures Count(MethodsErrors(ms, n, objName), IsDirectionError) == Count(ms[..n], BadDirection)
    ensures Count(MethodsErrors(ms, n, objName), IsMethodMissingName) == Count(ms[..n], UnnamedMethod)
    ensures |MethodsErrors(ms, n, objName)| == Count(ms[..n], BadDirection) + Count(ms[..n], UnnamedMethod)
  {
    DirectionErrorCount(ms, n, objName);
    MethodNameErrorCount(ms, n, objName);
    MethodsErrorsLength(ms, n, objName);
  }

  lemma {:induction false} DirectionErrorCount(ms: seq<Method>, n: nat, objName: string)
    requires n <= |ms|
    ensures Count(MethodsErrors(ms, n, objName), IsDirectionError) == Count(ms[..n], BadDirection)
    decreases n
  {
    if n == 0 {
      assert ms[..0] == [];
    } else {
      DirectionErrorCount(ms, n - 1, objName);
      MethodsErrorsStep(ms, n, objName, IsDirectionError);
      MethodErrorCountsOne(ms, n - 1, objName);
      CountPrefix(ms, n, BadDirection);
    }
  }

  lemma {:induction false} MethodNameErrorCount(ms: seq<Method>, n: nat, objName: string)
    requires n <= |ms|
    ensures Count(MethodsErrors(ms, n, objName), IsMethodMissingName) == Count(ms[..n], UnnamedMethod)
    decreases n
  {
    if n == 0 {
      assert ms[..0] == [];
    } else {
      MethodNameErrorCount(ms, n - 1, objName);
      MethodsErrorsStep(ms, n, objName, IsMethodMissingName);
      MethodErrorCountsOne(ms, n - 1, objName);
      CountPrefix(ms, n, UnnamedMethod);
    }
  }

  lemma {:induction false} MethodsErrorsLength(ms: seq<Method>, n: nat, objName: string)
    requires n <= |ms|
    ensures |MethodsErrors(ms, n, objName)|
      == Count(MethodsErrors(ms, n, objName), IsDirectionError) + Count(MethodsErrors(ms, n, objName), IsMethodMissingName)
    decreases n
  {
    if n > 0 {
      MethodsErrorsLength(ms, n - 1, objName);
      MethodErrorCountsOne(ms, n - 1, objName);
      TwoKindsAppend(MethodsErrors(ms, n - 1, objName), MethodErrors(ms, n - 1, objName), IsDirectionError, IsMethodMissingName);
    }
  }

  /** Lists made only of two disjoint kinds of errors stay so when concatenated. */
  lemma TwoKindsAppend(a: seq<ValidationError>, b: seq<ValidationError>, p: ValidationError -> bool, q: ValidationError -> bool)
    requires |a| == Count(a, p) + Count(a, q) && |b| == Count(b, p) + Count(b, q)
    ensures |a + b| == Count(a + b, p) + Count(a + b, q)
  {
    CountAppend(a, b, p);
    CountAppend(a, b, q);
  }

  lemma {:induction false} MethodsErrorsEmpty(ms: seq<Method>, n: nat, objName: string)
    requires n <= |ms|
    ensures MethodsErrors(ms, n, objName) == [] <==>
      forall i :: 0 <= i < n ==> ms[i].name != "" && DirectionValid(ms[i].direction)
    decreases n
  {
    if n > 0 {
      MethodsErrorsEmpty(ms, n - 1, objName);
    }
  }

  /** An object passes exactly when it is named, has a version of at least one, and its methods are named and well directed. */
  lemma ObjectValid(o: Object, pos: nat)
    ensures ObjectErrors(o, pos) == [] <==>
      o.name != "" && o.version.Some? && o.version.value >= 1
      && forall i :: 0 <= i < |o.methods| ==> o.methods[i].name != "" && DirectionValid(o.methods[i].direction)
  {
    MethodsErrorsEmpty(o.methods, |o.methods|, o.name);
  }

  /** A method with direction `x2y` gives exactly one error, the direction error. */
  lemma BadDirectionExample()
    ensures ObjectErrors(Object("o", Some(1), None, [Method("m", "x2y", None, [], None, false)]), 0)
      == [InvalidDirection("m", "x2y")]
  {
  }

  // ---------------------------------------------------------------- protocols

  /** What one entry of `elements` contributes; entries of another type contribute nothing. */
  function ElementErrors(el: ProtocolElement, pos: nat): seq<ValidationError> {
    match el
    case EnumElement(e) => EnumErrors(e, pos)
    case ObjectElement(o) => ObjectErrors(o, pos)
    case OtherElement(_) => []
  }

  function ElementsErrors(els: seq<ProtocolElement>, n: nat): seq<ValidationError>
    requires n <= |els|
  {
    if n == 0 then [] else ElementsErrors(els, n - 1) + ElementErrors(els[n - 1], n - 1)
  }

  /** `validateProtocol(protocol).errors`: the protocol-level checks, then each element's errors in order. */
  function ProtocolErrors(p: ProtocolModel): seq<ValidationError> {
    (if p.name == "" then [ProtocolMissingName] else [])
    + (if VersionInvalid(p.version) then [ProtocolInvalidVersion] else [])
    + ElementsErrors(p.elements, |p.elements|)
  }

  /** The dispatch on `element.type` inside `validateProtocol`'s loop. */
  method ValidateElement(el: ProtocolElement, pos: nat) returns (errors: seq<ValidationError>)
    ensures errors == ElementErrors(el, pos)
  {
    match el
    case EnumElement(e) =>
      errors := ValidateEnum(e, pos);
    case ObjectElement(o) =>
      errors := ValidateObject(o, pos);
    case OtherElement(_) =>
      errors := [];
  }

  datatype ValidationResult = ValidationResult(valid: bool, errors: seq<string>)

  method ValidateProtocol(p: ProtocolModel) returns (r: ValidationResult)
    ensures r.errors == Messages(ProtocolErrors(p))
    ensures r.valid <==> r.errors == []
  {
    var errors: seq<ValidationError> := [];
    if p.name == "" {
      errors := errors + [ProtocolMissingName];
    }
    assert errors == (if p.name == "" then [ProtocolMissingName] else []);
    if p.version.None? || p.version.value == 0 || p.version.value < 1 {
      errors := errors + [ProtocolInvalidVersion];
    }
    assert errors == (if p.name == "" then [ProtocolMissingName] else [])
      + (if VersionInvalid(p.version) then [ProtocolInvalidVersion] else []);
    var elementErrors := ValidateElements(p.elements);
    errors := errors + elementErrors;
    r := ValidationResult(errors == [], Messages(errors));
  }

  lemma ElementsErrorsNext(els: seq<ProtocolElement>, i: nat, before: seq<ValidationError>, es: seq<ValidationError>)
    requires i < |els| && before == ElementsErrors(els, i) && es == ElementErrors(els[i], i)
    ensures before + es == ElementsErrors(els, i + 1)
  {
  }

  /** The `protocol.elements?.forEach` loop of `validateProtocol`. */
  method ValidateElements(els: seq<ProtocolElement>) returns (errors: seq<ValidationError>)
    ensures errors == ElementsErrors(els, |els|)
  {
    errors := [];
    var i := 0;
    while i < |els|
      invariant 0 <= i <= |els|
      invariant errors == ElementsErrors(els, i)
    {
      var es := ValidateElement(els[i], i);
      ElementsErrorsNext(els, i, errors, es);
      errors := errors + es;
      i := i + 1;
    }
  }

  /** The element errors are each element's own errors, concatenated in element order. */
  lemma {:induction false} ElementsErrorsInOrder(els: seq<ProtocolElement>, n: nat)
    requires n <= |els|
    ensures ElementsErrors(els, n) == Flatten(seq(n, i requires 0 <= i < n => ElementErrors(els[i], i)))
    decreases n
  {
    if n > 0 {
      ElementsErrorsInOrder(els, n - 1);
      var s := seq(n, i requires 0 <= i < n => ElementErrors(els[i], i));
      assert s[..n - 1] == seq(n - 1, i requires 0 <= i < n - 1 => ElementErrors(els[i], i));
    }
  }

  /** A protocol is valid exactly when it is named, its version is at least one, and every element passes its own check. */
  lemma ProtocolValid(p: ProtocolModel)
    ensures ProtocolErrors(p) == [] <==>
      p.name != "" && p.version.Some? && p.version.value >= 1
      && forall i :: 0 <= i < |p.elements| ==> ElementErrors(p.elements[i], i) == []
  {
    var n := |p.elements|;
    ElementsErrorsInOrder(p.elements, n);
    var s := seq(n, i requires 0 <= i < n => ElementErrors(p.elements[i], i));
    FlattenEmpty(s);
    assert forall i :: 0 <= i < n ==> s[i] == ElementErrors(p.elements[i], i);
  }
}

=== FILE: wrappers.dfy ===
/** Option and Result, the two failure-carrying datatypes the model uses. */
module Wrappers {

  /** A value that may be absent (JavaScript's `undefined` / `null`). */
  datatype Option<+T> = None | Some(value: T)

  /** The outcome of an operation that may throw. */
  datatype Result<+R, +E> = Success(value: R) | Failure(error: E)
}

=== FILE: xml_blocks.dfy ===
/**
 * Multi-line text blocks (copyright notices, descriptions) in src/lib/xml-utils.js: the
 * normalisation `getDirectTextContent` applies to an element's text, and its inverse
 * `serializeMultilineElement`, which re-indents a block inside a tag.
 */
module XmlBlocks {
  import opened Wrappers
  import opened Text

  /** `text.replace(/^\n/, '').replace(/\n$/, '')`: at most one boundary newline at each end. */
  function StripBoundaryNewlines(text: string): string {
    DropLastNewline(DropFirstNewline(text))
  }

  function DropFirstNewline(s: string): string {
    if |s| > 0 && s[0] == '\n' then s[1..] else s
  }

  function DropLastNewline(s: string): string {
    if |s| > 0 && s[|s| - 1] == '\n' then s[..|s| - 1] else s
  }

  /** `lines.filter(line => line.trim().length > 0)`. */
  function NonBlankLines(lines: seq<string>): seq<string>
    decreases |lines|
  {
    if lines == [] then []
    else (if Blank(lines[0]) then [] else [lines[0]]) + NonBlankLines(lines[1..])
  }

  /** `Math.min(...lines.map(indentation))`. */
  function MinIndent(lines: seq<string>): (m: nat)
    requires |lines| > 0
    ensures forall l :: l in lines ==> m <= LeadingSpaces(l)
    ensures exists l :: l in lines && m == LeadingSpaces(l)
    decreases |lines|
  {
    if |lines| == 1 then LeadingSpaces(lines[0])
    else
      var rest := MinIndent(lines[1..]);
      assert forall l :: l in lines ==> l == lines[0] || l in lines[1..];
      if LeadingSpaces(lines[0]) <= rest then LeadingSpaces(lines[0]) else rest
  }

  /** `lines.map(line => line.trim().length === 0 ? '' : line.slice(m))`. */
  function Dedent(lines: seq<string>, m: nat): (r: seq<string>)
    ensures |r| == |lines|
  {
    seq(|lines|, i requires 0 <= i < |lines| =>
      if Blank(lines[i]) then [] else if m <= |lines[i]| then lines[i][m..] else [])
  }

  /** The line-level part of the normalisation: strip the common indentation, join, trim. */
  function NormalizeLines(lines: seq<string>): Option<string> {
    var nonEmpty := NonBlankLines(lines);
    if |nonEmpty| == 0 then None
    else Some(Trim(Join(Dedent(lines, MinIndent(nonEmpty)))))
  }

  /**
   * The normalisation of `getDirectTextContent` (and of the text of `_parseDescription`):
   * `None` stands for the `undefined` the source returns for a blank block.
   */
  function NormalizeBlock(text: string): Option<string> {
    var t := StripBoundaryNewlines(text);
    if Blank(t) then None else NormalizeLines(Split(t))
  }

  /** A block as normalisation leaves it: non-empty, trimmed, and each line empty or not blank. */
  predicate Canonical(r: string) {
    r != [] && Trimmed(r) && CleanLines(Split(r))
  }

  // ---------------------------------------------------------------- filtering lines

  lemma {:induction false} NonBlankLinesMember(lines: seq<string>, x: string)
    ensures x in NonBlankLines(lines) <==> x in lines && !Blank(x)
    decreases |lines|
  {
    if lines != [] {
      NonBlankLinesMember(lines[1..], x);
      assert x in lines <==> x == lines[0] || x in lines[1..];
    }
  }

  lemma {:induction false} NonBlankLinesAppend(a: seq<string>, b: seq<string>)
    ensures NonBlankLines(a + b) == NonBlankLines(a) + NonBlankLines(b)
    decreases |a|
  {
    if a == [] {
      assert a + b == b;
    } else {
      assert (a + b)[0] == a[0] && (a + b)[1..] == a[1..] + b;
      NonBlankLinesAppend(a[1..], b);
    }
  }

  /** Some line is not blank exactly when the filter keeps something. */
  lemma NonBlankLinesEmpty(lines: seq<string>)
    ensures |NonBlankLines(lines)| == 0 <==> forall i :: 0 <= i < |lines| ==> Blank(lines[i])
  {
    if |NonBlankLines(lines)| == 0 {
      forall i | 0 <= i < |lines| ensures Blank(lines[i]) {
        NonBlankLinesMember(lines, lines[i]);
      }
    } else {
      var x := NonBlankLines(lines)[0];
      NonBlankLinesMember(lines, x);
    }
  }

  /** The indentation removed from a non-blank line is at most its own. */
  lemma MinIndentBelow(lines: seq<string>, i: nat)
    requires i < |lines| && !Blank(lines[i])
    ensures |NonBlankLines(lines)| > 0
    ensures MinIndent(NonBlankLines(lines)) <= LeadingSpaces(lines[i]) < |lines[i]|
  {
    NonBlankLinesMember(lines, lines[i]);
    LeadingSpacesNonBlank(lines[i]);
  }

  lemma MinIndentBelowAll(lines: seq<string>)
    requires |NonBlankLines(lines)| > 0
    ensures forall i :: 0 <= i < |lines| && !Blank(lines[i]) ==> MinIndent(NonBlankLines(lines)) <= LeadingSpaces(lines[i])
  {
    forall i | 0 <= i < |lines| && !Blank(lines[i])
      ensures MinIndent(NonBlankLines(lines)) <= LeadingSpaces(lines[i])
    {
      MinIndentBelow(lines, i);
    }
  }

  /** Dedenting keeps a non-blank line non-blank. */
  lemma DedentNonBlank(lines: seq<string>, m: nat, i: nat)
    requires i < |lines| && !Blank(lines[i]) && m <= LeadingSpaces(lines[i])
    ensures !Blank(Dedent(lines, m)[i])
  {
    var l := lines[i];
    var k := LeadingSpaces(l);
    LeadingSpacesNonBlank(l);
    assert Dedent(lines, m)[i] == l[m..];
    assert l[m..][k - m] == l[k];
  }

  // ---------------------------------------------------------------- absence

  /** The text of a block is blank exactly when its lines are. */
  lemma NormalizeViaLines(text: string)
    ensures NormalizeBlock(text) == NormalizeLines(Split(StripBoundaryNewlines(text)))
  {
    var t := StripBoundaryNewlines(text);
    var lines := Split(t);
    if Blank(t) {
      NonBlankLinesEmpty(lines);
      forall i | 0 <= i < |lines| ensures Blank(lines[i]) {
        if !Blank(lines[i]) {
          JoinSplit(t);
          JoinNotBlank(lines, i);
        }
      }
    }
  }

  /** Normalisation yields "absent" exactly when the block is blank once one boundary newline is gone. */
  lemma NormalizeAbsent(text: string)
    ensures NormalizeBlock(text) == None <==> Blank(StripBoundaryNewlines(text))
  {
    var t := StripBoundaryNewlines(text);
    if !Blank(t) {
      SplitNotBlank(t);
      var k :| 0 <= k < |Split(t)| && !Blank(Split(t)[k]);
      MinIndentBelow(Split(t), k);
    }
  }

  /** What normalisation returns is canonical: non-empty, trimmed, and no line holds only blanks. */
  lemma NormalizeIsCanonical(text: string)
    requires NormalizeBlock(text).Some?
    ensures Canonical(NormalizeBlock(text).value)
  {
    var t := StripBoundaryNewlines(text);
    var lines := Split(t);
    NonBlankLinesEmpty(lines);
    var k :| 0 <= k < |lines| && !Blank(lines[k]);
    var m := MinIndent(NonBlankLines(lines));
    MinIndentBelow(lines, k);
    MinIndentBelowAll(lines);
    DedentNonBlank(lines, m, k);
    DedentClean(lines, m);
    TrimJoinCanonical(Dedent(lines, m), k);
  }

  /** Dedenting lines free of newlines by at most any non-blank line's indentation keeps them clean. */
  lemma DedentClean(lines: seq<string>, m: nat)
    requires NoNewlines(lines)
    requires forall i :: 0 <= i < |lines| && !Blank(lines[i]) ==> m <= LeadingSpaces(lines[i])
    ensures NoNewlines(Dedent(lines, m)) && CleanLines(Dedent(lines, m))
  {
    var d := Dedent(lines, m);
    forall i | 0 <= i < |d| ensures '\n' !in d[i] && (d[i] == [] || !Blank(d[i])) {
      if !Blank(lines[i]) {
        DedentNonBlank(lines, m, i);
        assert forall c :: c in d[i] ==> c in lines[i];
      }
    }
  }

  /** Clean lines, one of them not blank, join and trim to a canonical block. */
  lemma TrimJoinCanonical(d: seq<string>, k: nat)
    requires NoNewlines(d) && CleanLines(d)
    requires k < |d| && !Blank(d[k])
    ensures Canonical(Trim(Join(d)))
  {
    JoinNotBlank(d, k);
    TrimProperties(Join(d));
    SplitJoin(d);
    TrimClean(Join(d));
  }

  /** A canonical block normalises to itself. */
  lemma CanonicalIsFixpoint(r: string)
    requires Canonical(r)
    ensures NormalizeBlock(r) == Some(r)
  {
    assert StripBoundaryNewlines(r) == r;
    var lines := Split(r);
    JoinSplit(r);
    JoinFirst(lines);
    assert lines[0] != [] && lines[0][0] == r[0];
    assert LeadingSpaces(lines[0]) == 0;
    assert !Blank(lines[0]);
    MinIndentBelow(lines, 0);
    assert !Blank(r);
    var d := Dedent(lines, 0);
    forall i | 0 <= i < |lines| ensures d[i] == lines[i] {
      if !Blank(lines[i]) {
        assert lines[i][0..] == lines[i];
      }
    }
    assert d == lines;
    TrimTrimmed(r);
  }

  /** Normalisation is idempotent. */
  lemma NormalizeIdempotent(text: string)
    requires NormalizeBlock(text).Some?
    ensures NormalizeBlock(NormalizeBlock(text).value) == NormalizeBlock(text)
  {
    NormalizeIsCanonical(text);
    CanonicalIsFixpoint(NormalizeBlock(text).value);
  }

  // ---------------------------------------------------------------- indentation independence

  /** Every non-blank line prefixed with the same extra whitespace `w`. */
  function Indent(lines: seq<string>, w: string): (r: seq<string>)
    ensures |r| == |lines|
  {
    seq(|lines|, i requires 0 <= i < |lines| => if Blank(lines[i]) then lines[i] else w + lines[i])
  }

  /** The boundary newlines of a joined text are an empty first and an empty last line. */
  function StripLines(lines: seq<string>): (r: seq<string>)
    requires |lines| >= 1
    ensures |r| >= 1
  {
    DropLastEmpty(DropFirstEmpty(lines))
  }

  function DropFirstEmpty(lines: seq<string>): seq<string> {
    if |lines| >= 2 && lines[0] == [] then lines[1..] else lines
  }

  function DropLastEmpty(lines: seq<string>): seq<string> {
    if |lines| >= 2 && lines[|lines| - 1] == [] then lines[..|lines| - 1] else lines
  }

  lemma JoinDropFirst(lines: seq<string>)
    requires |lines| >= 1 && NoNewlines(lines)
    ensures DropFirstNewline(Join(lines)) == Join(DropFirstEmpty(lines))
  {
    if |lines| >= 2 && lines[0] == [] {
      JoinDropEmptyFirst(lines);
    } else if lines[0] != [] {
      JoinKeepsFirst(lines, lines[0]);
    }
  }

  lemma JoinDropEmptyFirst(lines: seq<string>)
    requires |lines| >= 2 && lines[0] == []
    ensures DropFirstNewline(Join(lines)) == Join(lines[1..])
  {
    assert Join(lines) == "\n" + Join(lines[1..]);
  }

  lemma JoinKeepsFirst(lines: seq<string>, l: string)
    requires |lines| >= 1 && l == lines[0] && l != [] && '\n' !in l
    ensures DropFirstNewline(Join(lines)) == Join(lines)
  {
    JoinFirst(lines);
    assert l[0] in l;
  }

  lemma JoinDropLast(lines: seq<string>)
    requires |lines| >= 1 && NoNewlines(lines)
    ensures DropLastNewline(Join(lines)) == Join(DropLastEmpty(lines))
  {
    var l := lines[|lines| - 1];
    if |lines| >= 2 && l == [] {
      JoinDropEmptyLast(lines);
    } else if l != [] {
      JoinKeepsLast(lines, l);
    }
  }

  lemma JoinDropEmptyLast(lines: seq<string>)
    requires |lines| >= 2 && lines[|lines| - 1] == []
    ensures DropLastNewline(Join(lines)) == Join(lines[..|lines| - 1])
  {
    JoinSnoc(lines);
  }

  lemma JoinKeepsLast(lines: seq<string>, l: string)
    requires |lines| >= 1 && l == lines[|lines| - 1] && l != [] && '\n' !in l
    ensures DropLastNewline(Join(lines)) == Join(lines)
  {
    JoinLast(lines);
    assert l[|l| - 1] in l;
  }

  lemma StripJoin(lines: seq<string>)
    requires |lines| >= 1 && NoNewlines(lines)
    ensures StripBoundaryNewlines(Join(lines)) == Join(StripLines(lines))
  {
    JoinDropFirst(lines);
    JoinDropLast(DropFirstEmpty(lines));
  }

  /** Indenting keeps blank lines as they are and non-blank lines non-blank. */
  lemma IndentLine(lines: seq<string>, w: string, i: nat)
    requires Blank(w) && i < |lines|
    ensures Blank(Indent(lines, w)[i]) <==> Blank(lines[i])
    ensures Indent(lines, w)[i] == [] <==> lines[i] == []
  {
    BlankAppend(w, lines[i]);
  }

  lemma IndentSlice(lines: seq<string>, w: string, lo: nat, hi: nat)
    requires lo <= hi <= |lines|
    ensures Indent(lines, w)[lo..hi] == Indent(lines[lo..hi], w)
  {
  }

  lemma IndentTail(lines: seq<string>, w: string)
    requires |lines| >= 1
    ensures Indent(lines, w)[1..] == Indent(lines[1..], w)
  {
    IndentSlice(lines, w, 1, |lines|);
    assert lines[1..|lines|] == lines[1..];
  }

  lemma DropFirstIndent(lines: seq<string>, w: string)
    requires |lines| >= 1 && Blank(w)
    ensures DropFirstEmpty(Indent(lines, w)) == Indent(DropFirstEmpty(lines), w)
  {
    IndentLine(lines, w, 0);
    if |lines| >= 2 && lines[0] == [] {
      IndentSlice(lines, w, 1, |lines|);
    }
  }

  lemma DropLastIndent(lines: seq<string>, w: string)
    requires |lines| >= 1 && Blank(w)
    ensures DropLastEmpty(Indent(lines, w)) == Indent(DropLastEmpty(lines), w)
  {
    IndentLine(lines, w, |lines| - 1);
    if |lines| >= 2 && lines[|lines| - 1] == [] {
      IndentSlice(lines, w, 0, |lines| - 1);
    }
  }

  /** Indentation commutes with dropping the boundary lines. */
  lemma StripIndent(lines: seq<string>, w: string)
    requires |lines| >= 1 && Blank(w)
    ensures StripLines(Indent(lines, w)) == Indent(StripLines(lines), w)
  {
    DropFirstIndent(lines, w);
    DropLastIndent(DropFirstEmpty(lines), w);
  }

  /** Every line prefixed with `w`. */
  function PadAll(ls: seq<string>, w: string): (r: seq<string>)
    ensures |r| == |ls|
  {
    seq(|ls|, i requires 0 <= i < |ls| => w + ls[i])
  }

  lemma PadCons(l: string, rest: seq<string>, w: string, keep: bool)
    ensures (if keep then [w + l] else []) + PadAll(rest, w) == PadAll((if keep then [l] else []) + rest, w)
  {
  }

  /** The non-blank lines of the indented lines are the non-blank lines, indented. */
  lemma {:induction false} NonBlankIndent(lines: seq<string>, w: string)
    requires Blank(w)
    ensures NonBlankLines(Indent(lines, w)) == PadAll(NonBlankLines(lines), w)
    decreases |lines|
  {
    if lines != [] {
      var x := Indent(lines, w);
      IndentLine(lines, w, 0);
      IndentTail(lines, w);
      NonBlankIndent(lines[1..], w);
      var rest := NonBlankLines(lines[1..]);
      assert NonBlankLines(x) == (if Blank(x[0]) then [] else [x[0]]) + NonBlankLines(x[1..]);
      PadCons(lines[0], rest, w, !Blank(lines[0]));
    }
  }

  /** Prefixing every line with `w` raises the least indentation by `|w|`. */
  lemma {:induction false} MinIndentPad(ls: seq<string>, w: string)
    requires |ls| > 0 && Blank(w)
    ensures MinIndent(PadAll(ls, w)) == |w| + MinIndent(ls)
    decreases |ls|
  {
    var p := PadAll(ls, w);
    LeadingSpacesPrefix(w, ls[0]);
    if |ls| > 1 {
      PadAllTail(ls, w);
      MinIndentPad(ls[1..], w);
    }
  }

  lemma PadAllTail(ls: seq<string>, w: string)
    requires |ls| > 0
    ensures PadAll(ls, w)[1..] == PadAll(ls[1..], w)
  {
  }

  /** The common indentation of the indented lines is `|w|` more. */
  lemma MinIndentShift(lines: seq<string>, w: string)
    requires Blank(w) && |NonBlankLines(lines)| > 0
    ensures |NonBlankLines(Indent(lines, w))| > 0
    ensures MinIndent(NonBlankLines(Indent(lines, w))) == |w| + MinIndent(NonBlankLines(lines))
  {
    NonBlankIndent(lines, w);
    MinIndentPad(NonBlankLines(lines), w);
  }

  /** Removing `|w|` more indentation from the indented lines gives the same dedented lines. */
  lemma DedentIndent(lines: seq<string>, w: string, m: nat)
    requires Blank(w)
    requires forall i :: 0 <= i < |lines| && !Blank(lines[i]) ==> m <= LeadingSpaces(lines[i])
    ensures Dedent(Indent(lines, w), |w| + m) == Dedent(lines, m)
  {
    var x := Indent(lines, w);
    forall i | 0 <= i < |lines| ensures Dedent(x, |w| + m)[i] == Dedent(lines, m)[i] {
      BlankAppend(w, lines[i]);
      if !Blank(lines[i]) {
        assert m <= |lines[i]|;
        assert x[i] == w + lines[i];
        assert (w + lines[i])[|w| + m..] == lines[i][m..];
      }
    }
  }

  lemma NormalizeLinesIndentBlank(lines: seq<string>, w: string)
    requires Blank(w) && |NonBlankLines(lines)| == 0
    ensures NormalizeLines(Indent(lines, w)) == None
  {
    var x := Indent(lines, w);
    NonBlankLinesEmpty(lines);
    forall i | 0 <= i < |x| ensures Blank(x[i]) {
      IndentLine(lines, w, i);
    }
    NonBlankLinesEmpty(x);
  }

  /** Two line lists with a non-blank line normalise alike when they dedent alike. */
  lemma NormalizeLinesSame(a: seq<string>, b: seq<string>)
    requires |NonBlankLines(a)| > 0 && |NonBlankLines(b)| > 0
    requires Dedent(a, MinIndent(NonBlankLines(a))) == Dedent(b, MinIndent(NonBlankLines(b)))
    ensures NormalizeLines(a) == NormalizeLines(b)
  {
  }

  lemma NormalizeLinesIndentSome(lines: seq<string>, w: string)
    requires Blank(w) && |NonBlankLines(lines)| > 0
    ensures NormalizeLines(Indent(lines, w)) == NormalizeLines(lines)
  {
    var x := Indent(lines, w);
    MinIndentShift(lines, w);
    MinIndentBelowAll(lines);
    DedentIndent(lines, w, MinIndent(NonBlankLines(lines)));
    NormalizeLinesSame(x, lines);
  }

  /** Prefixing every non-blank line with the same whitespace does not change the line-level result. */
  lemma NormalizeLinesIndent(lines: seq<string>, w: string)
    requires Blank(w)
    ensures NormalizeLines(Indent(lines, w)) == NormalizeLines(lines)
  {
    if |NonBlankLines(lines)| == 0 {
      NormalizeLinesIndentBlank(lines, w);
    } else {
      NormalizeLinesIndentSome(lines, w);
    }
  }

  lemma IndentNoNewlines(lines: seq<string>, w: string)
    requires NoNewlines(lines) && '\n' !in w
    ensures NoNewlines(Indent(lines, w))
  {
    var x := Indent(lines, w);
    forall i | 0 <= i < |x| ensures '\n' !in x[i] {
      if !Blank(lines[i]) { assert x[i] == w + lines[i]; }
    }
  }

  lemma StripNoNewlines(lines: seq<string>)
    requires |lines| >= 1 && NoNewlines(lines)
    ensures NoNewlines(StripLines(lines))
  {
    var a := DropFirstEmpty(lines);
    assert NoNewlines(a);
  }

  /** Indentation independence: re-indenting the non-blank lines of a block does not change its normal form. */
  lemma NormalizeIndent(lines: seq<string>, w: string)
    requires |lines| >= 1 && NoNewlines(lines) && Blank(w) && '\n' !in w
    ensures NormalizeBlock(Join(Indent(lines, w))) == NormalizeBlock(Join(lines))
  {
    var x := Indent(lines, w);
    IndentNoNewlines(lines, w);
    var sl := StripLines(lines);
    var sx := StripLines(x);
    StripNoNewlines(lines);
    StripNoNewlines(x);
    calc {
      NormalizeBlock(Join(x));
      == { NormalizeViaLines(Join(x)); }
      NormalizeLines(Split(StripBoundaryNewlines(Join(x))));
      == { StripJoin(x); SplitJoin(sx); }
      NormalizeLines(sx);
      == { StripIndent(lines, w); }
      NormalizeLines(Indent(sl, w));
      == { NormalizeLinesIndent(sl, w); }
      NormalizeLines(sl);
      == { StripJoin(lines); SplitJoin(sl); }
      NormalizeLines(Split(StripBoundaryNewlines(Join(lines))));
      == { NormalizeViaLines(Join(lines)); }
      NormalizeBlock(Join(lines));
    }
  }

  /** Whitespace-only lines come out of normalisation as empty lines. */
  lemma NormalizeBlankLinesEmpty(text: string, i: nat)
    requires NormalizeBlock(text).Some?
    requires i < |Split(NormalizeBlock(text).value)| && Blank(Split(NormalizeBlock(text).value)[i])
    ensures Split(NormalizeBlock(text).value)[i] == []
  {
    NormalizeIsCanonical(text);
  }

  // ---------------------------------------------------------------- rendering

  /** `lines.map(line => line.trim() ? pad + line.trim() : '')`. */
  function FormatLines(lines: seq<string>, pad: string): (r: seq<string>)
    ensures |r| == |lines|
  {
    seq(|lines|, i requires 0 <= i < |lines| => if Blank(lines[i]) then [] else pad + Trim(lines[i]))
  }

  /**
   * What `serializeMultilineElement` puts between the opening and the closing tag: the text
   * content the parser later reads back. `None` and a blank string give the empty pair.
   */
  function BlockBody(content: Option<string>, indent: nat): string {
    var spaces := Spaces(indent);
    if content.None? || Blank(content.value) then "\n" + spaces
    else "\n" + spaces + "  " + FormattedText(content.value, indent) + "\n" + spaces
  }

  /** `formattedText`: the formatted lines joined and trimmed as a whole. */
  function FormattedText(content: string, indent: nat): string {
    Trim(Join(FormatLines(Split(content), Spaces(indent) + "  ")))
  }

  /** `serializeMultilineElement(tagName, content, indent)`. */
  function SerializeMultilineElement(tag: string, content: Option<string>, indent: nat): string {
    Spaces(indent) + "<" + tag + ">" + BlockBody(content, indent) + "</" + tag + ">\n"
  }

  /** Absent or blank content renders as exactly the empty element pair on two lines. */
  lemma RenderBlank(tag: string, content: Option<string>, indent: nat)
    requires content.None? || Blank(content.value)
    ensures SerializeMultilineElement(tag, content, indent)
      == Spaces(indent) + "<" + tag + ">\n" + Spaces(indent) + "</" + tag + ">\n"
  {
  }

  /** Each line trimmed, a blank line emptied. */
  function TrimLines(lines: seq<string>): (r: seq<string>)
    ensures |r| == |lines|
  {
    seq(|lines|, i requires 0 <= i < |lines| => Trim(lines[i]))
  }

  /** The rendering sees each content line only through its trim: relative indentation is not kept. */
  lemma RenderSeesTrimmedLines(c: string, d: string, indent: nat)
    requires TrimLines(Split(c)) == TrimLines(Split(d))
    ensures BlockBody(Some(c), indent) == BlockBody(Some(d), indent)
  {
    var lc := Split(c);
    var ld := Split(d);
    SameTrimSameBlank(lc, ld);
    FormatSeesTrim(lc, ld, Spaces(indent) + "  ");
    BlankViaLines(c, d);
  }

  /** Lines with the same trims are blank at the same places. */
  lemma SameTrimSameBlank(lc: seq<string>, ld: seq<string>)
    requires TrimLines(lc) == TrimLines(ld)
    ensures |lc| == |ld|
    ensures forall i :: 0 <= i < |lc| ==> (Blank(lc[i]) <==> Blank(ld[i]))
  {
    forall i | 0 <= i < |lc| ensures Blank(lc[i]) <==> Blank(ld[i]) {
      assert TrimLines(lc)[i] == TrimLines(ld)[i];
      TrimProperties(lc[i]);
      TrimProperties(ld[i]);
    }
  }

  /** Lines with the same trims format alike. */
  lemma FormatSeesTrim(lc: seq<string>, ld: seq<string>, pad: string)
    requires TrimLines(lc) == TrimLines(ld)
    requires |lc| == |ld| && forall i :: 0 <= i < |lc| ==> (Blank(lc[i]) <==> Blank(ld[i]))
    ensures FormatLines(lc, pad) == FormatLines(ld, pad)
  {
    forall i | 0 <= i < |lc| ensures FormatLines(lc, pad)[i] == FormatLines(ld, pad)[i] {
      assert TrimLines(lc)[i] == TrimLines(ld)[i];
    }
  }

  /** Two texts whose lines are blank at the same places are both blank or both not. */
  lemma BlankViaLines(c: string, d: string)
    requires |Split(c)| == |Split(d)|
    requires forall i :: 0 <= i < |Split(c)| ==> (Blank(Split(c)[i]) <==> Blank(Split(d)[i]))
    ensures Blank(c) <==> Blank(d)
  {
    var lc := Split(c);
    var ld := Split(d);
    JoinSplit(c);
    JoinSplit(d);
    if !Blank(c) {
      SplitNotBlank(c);
      var k :| 0 <= k < |lc| && !Blank(lc[k]);
      JoinNotBlank(ld, k);
    }
    if !Blank(d) {
      SplitNotBlank(d);
      var k :| 0 <= k < |ld| && !Blank(ld[k]);
      JoinNotBlank(lc, k);
    }
  }

  /** A block whose lines are trimmed is not changed by trimming them. */
  predicate LinesTrimmed(lines: seq<string>) {
    forall i :: 0 <= i < |lines| ==> Trim(lines[i]) == lines[i]
  }

  /** For trimmed lines the per-line formatting is just indentation. */
  lemma FormatIsIndent(lines: seq<string>, pad: string)
    requires LinesTrimmed(lines)
    ensures FormatLines(lines, pad) == Indent(lines, pad)
  {
    forall i | 0 <= i < |lines| ensures FormatLines(lines, pad)[i] == Indent(lines, pad)[i] {
      TrimProperties(lines[i]);
    }
  }

  lemma JoinPrefixFirst(p: string, lines: seq<string>)
    requires |lines| >= 1
    ensures Join([p + lines[0]] + lines[1..]) == p + Join(lines)
  {
    var x := [p + lines[0]] + lines[1..];
    if |lines| == 1 {
      assert x == [p + lines[0]];
    } else {
      assert x[0] == p + lines[0] && x[1..] == lines[1..];
      LineAssoc(p, lines[0], Join(lines[1..]));
    }
  }

  lemma LineAssoc(p: string, a: string, j: string)
    ensures (p + a) + "\n" + j == p + (a + "\n" + j)
  {
  }

  /** The first and last line of a trimmed, non-empty text carry its first and last character. */
  lemma TrimmedEnds(c: string)
    requires c != [] && Trimmed(c)
    ensures var l := Split(c); l[0] != [] && l[0][0] == c[0]
    ensures var l := Split(c); l[|l| - 1] != [] && l[|l| - 1][|l[|l| - 1]| - 1] == c[|c| - 1]
  {
    var l := Split(c);
    JoinSplit(c);
    JoinFirst(l);
    JoinLast(l);
  }

  lemma LastOfAppend(a: string, b: string)
    requires b != []
    ensures (a + b)[|a + b| - 1] == b[|b| - 1]
  {
  }

  /** A blank pad in front of a trimmed text is all that `trim` removes. */
  lemma TrimPad(pad: string, y: string)
    requires Blank(pad) && y != [] && Trimmed(y)
    ensures Trim(pad + y) == y
  {
    LastOfAppend(pad, y);
    assert TrimEnd(pad + y) == pad + y;
    TrimStartBlankPrefix(pad, y);
  }

  /** Indenting lines whose first is not blank pads the joined text in front. */
  lemma IndentJoinFirst(l: seq<string>, pad: string)
    requires |l| >= 1 && !Blank(l[0])
    ensures Join(Indent(l, pad)) == pad + Join([l[0]] + Indent(l, pad)[1..])
  {
    var x := Indent(l, pad);
    var y := [l[0]] + x[1..];
    assert x == [pad + y[0]] + y[1..];
    JoinPrefixFirst(pad, y);
  }

  /** The last line of `[l[0]] + Indent(l, pad)[1..]` ends with the last character of `l`'s last line. */
  lemma IndentTailLast(l: seq<string>, pad: string)
    requires |l| >= 1 && !Blank(l[|l| - 1]) && l[|l| - 1] != []
    ensures var y := [l[0]] + Indent(l, pad)[1..]; var yl := y[|y| - 1]; var lk := l[|l| - 1];
      yl != [] && yl[|yl| - 1] == lk[|lk| - 1]
  {
    var x := Indent(l, pad);
    var y := [l[0]] + x[1..];
    var k := |l| - 1;
    if k > 0 {
      assert y[k] == x[k];
      IndentAt(l, pad, k);
      LastOfAppend(pad, l[k]);
    }
  }

  /** With its first line unpadded, the indented join of lines that start and end with non-spaces is trimmed. */
  lemma IndentTailTrimmedLines(l: seq<string>, pad: string)
    requires |l| >= 1 && l[0] != [] && !IsSpace(l[0][0])
    requires l[|l| - 1] != [] && !IsSpace(l[|l| - 1][|l[|l| - 1]| - 1])
    ensures var j := Join([l[0]] + Indent(l, pad)[1..]); j != [] && Trimmed(j)
  {
    var y := [l[0]] + Indent(l, pad)[1..];
    var lk := l[|l| - 1];
    assert !Blank(lk) by {
      assert !IsSpace(lk[|lk| - 1]);
    }
    IndentTailLast(l, pad);
    JoinLast(y);
    JoinFirst(y);
  }

  /** With its first line unpadded, the indented join of a trimmed text is trimmed. */
  lemma IndentTailTrimmed(c: string, pad: string)
    requires c != [] && Trimmed(c)
    ensures var l := Split(c); var j := Join([l[0]] + Indent(l, pad)[1..]);
      j != [] && Trimmed(j)
  {
    TrimmedEnds(c);
    IndentTailTrimmedLines(Split(c), pad);
  }

  /** For trimmed lines, trimming the indented join strips the padding of the first line only. */
  lemma TrimIndented(c: string, pad: string)
    requires c != [] && Trimmed(c) && LinesTrimmed(Split(c)) && Blank(pad)
    ensures pad + Trim(Join(Indent(Split(c), pad))) == Join(Indent(Split(c), pad))
  {
    var l := Split(c);
    TrimmedEnds(c);
    assert !Blank(l[0]) by {
      assert !IsSpace(l[0][0]);
    }
    IndentJoinFirst(l, pad);
    IndentTailTrimmed(c, pad);
    TrimPad(pad, Join([l[0]] + Indent(l, pad)[1..]));
  }

  lemma IndentAt(lines: seq<string>, w: string, i: nat)
    requires i < |lines|
    ensures Indent(lines, w)[i] == if Blank(lines[i]) then lines[i] else w + lines[i]
  {
  }

  lemma DedentSnoc(lines: seq<string>, b: string, m: nat)
    requires Blank(b)
    ensures Dedent(lines + [b], m) == Dedent(lines, m) + [[]]
  {
    var x := lines + [b];
    forall i | 0 <= i < |x| ensures Dedent(x, m)[i] == (Dedent(lines, m) + [[]])[i] {
      if i < |lines| { assert x[i] == lines[i]; }
    }
  }

  /** A whitespace-only last line does not change the line-level result. */
  lemma NormalizeLinesBlankLast(lines: seq<string>, b: string)
    requires Blank(b) && |NonBlankLines(lines)| > 0
    ensures NormalizeLines(lines + [b]) == NormalizeLines(lines)
  {
    NonBlankLinesAppend(lines, [b]);
    assert NonBlankLines([b]) == [];
    assert NonBlankLines(lines + [b]) == NonBlankLines(lines);
    var m := MinIndent(NonBlankLines(lines));
    var d := Dedent(lines, m);
    DedentSnoc(lines, b, m);
    assert |d| >= 1;
    JoinAppendLine(d, []);
    assert Join(d) + "\n" + [] == Join(d) + ['\n'];
    TrimDropLastSpace(Join(d), '\n');
    calc {
      NormalizeLines(lines + [b]);
      Some(Trim(Join(Dedent(lines + [b], m))));
      Some(Trim(Join(d + [[]])));
      Some(Trim(Join(d) + ['\n']));
      Some(Trim(Join(d)));
      NormalizeLines(lines);
    }
  }

  lemma IndentFrame(l: seq<string>, pad: string, s: string)
    requires Blank(s)
    ensures Indent([[]] + l + [s], pad) == [[]] + Indent(l, pad) + [s]
  {
    var m := [[]] + l + [s];
    var f := [[]] + Indent(l, pad) + [s];
    forall i | 0 <= i < |m| ensures Indent(m, pad)[i] == f[i] {
      if i == 0 {
        assert m[i] == [] && f[i] == [];
      } else if i <= |l| {
        assert m[i] == l[i - 1] && f[i] == Indent(l, pad)[i - 1];
      } else {
        assert m[i] == s && f[i] == s;
      }
    }
  }

  lemma JoinEmptyFirst(x: seq<string>)
    requires |x| >= 1
    ensures Join([[]] + x) == "\n" + Join(x)
  {
    var y := [[]] + x;
    assert y[0] == [] && y[1..] == x;
    assert [] + "\n" + Join(x) == "\n" + Join(x);
  }

  lemma JoinFrame(x: seq<string>, s: string)
    requires |x| >= 1
    ensures Join([[]] + x + [s]) == "\n" + Join(x) + "\n" + s
  {
    JoinEmptyFirst(x);
    JoinAppendLine([[]] + x, s);
  }

  lemma BodyAssoc(spaces: string, f: string)
    ensures "\n" + spaces + "  " + f + "\n" + spaces == "\n" + (spaces + "  " + f) + "\n" + spaces
    ensures "\n" + spaces + "  " + f + "\n" + spaces == "\n" + (spaces + "  " + f + "\n" + spaces)
  {
  }

  /** The lines of the rendered body, before re-indentation. */
  lemma BodyLines(c: string, indent: nat)
    requires !Blank(c) && Trimmed(c) && LinesTrimmed(Split(c))
    ensures var pad := Spaces(indent) + "  ";
      BlockBody(Some(c), indent) == Join(Indent([[]] + Split(c) + [Spaces(indent)], pad))
  {
    var spaces := Spaces(indent);
    var pad := spaces + "  ";
    var l := Split(c);
    BlankAppend(spaces, "  ");
    FormatIsIndent(l, pad);
    TrimIndented(c, pad);
    var f := FormattedText(c, indent);
    assert pad + f == Join(Indent(l, pad));
    IndentFrame(l, pad, spaces);
    JoinFrame(Indent(l, pad), spaces);
    BodyAssoc(spaces, f);
  }

  lemma StripTrimmed(c: string)
    requires Trimmed(c)
    ensures StripBoundaryNewlines(c) == c
  {
  }

  lemma FrameTail(l: seq<string>, s: string)
    ensures ([[]] + l + [s])[0] == [] && ([[]] + l + [s])[1..] == l + [s]
  {
  }

  /** Dropping the boundary lines of `[[], l..., spaces]` leaves `l` and a non-empty `spaces`. */
  lemma FramedStrip(l: seq<string>, spaces: string)
    requires |l| >= 1
    ensures StripLines([[]] + l + [spaces]) == if spaces == [] then l else l + [spaces]
  {
    FrameTail(l, spaces);
    if spaces == [] {
      assert (l + [spaces])[..|l|] == l;
    }
  }

  lemma FramedNoNewlines(l: seq<string>, spaces: string)
    requires NoNewlines(l) && '\n' !in spaces
    ensures NoNewlines([[]] + l + [spaces])
  {
    var m := [[]] + l + [spaces];
    forall i | 0 <= i < |m| ensures '\n' !in m[i] {
      if 0 < i < |m| - 1 { assert m[i] == l[i - 1]; }
    }
  }

  /** The lines `[[], l..., spaces]` between two tags normalise as `l` does. */
  lemma FramedNormal(l: seq<string>, spaces: string)
    requires |l| >= 1 && NoNewlines(l) && !Blank(l[0])
    requires Blank(spaces) && '\n' !in spaces
    ensures NormalizeBlock(Join([[]] + l + [spaces])) == NormalizeLines(l)
  {
    var m := [[]] + l + [spaces];
    FramedNoNewlines(l, spaces);
    StripJoin(m);
    var sm := StripLines(m);
    StripNoNewlines(m);
    SplitJoin(sm);
    NormalizeViaLines(Join(m));
    MinIndentBelow(l, 0);
    FramedStrip(l, spaces);
    if spaces != [] {
      NormalizeLinesBlankLast(l, spaces);
    }
  }

  /** The rendered body of a trimmed block normalises as the block's own lines do. */
  lemma RenderedLines(c: string, indent: nat)
    requires !Blank(c) && Trimmed(c) && LinesTrimmed(Split(c))
    ensures NormalizeBlock(BlockBody(Some(c), indent)) == NormalizeLines(Split(c))
  {
    BodyLines(c, indent);
    FramedRendered(c, Spaces(indent));
  }

  /** The lines of a trimmed block, framed by an empty line and `spaces` and indented, normalise as the lines do. */
  lemma FramedRendered(c: string, spaces: string)
    requires !Blank(c) && Trimmed(c) && Blank(spaces) && '\n' !in spaces
    ensures NormalizeBlock(Join(Indent([[]] + Split(c) + [spaces], spaces + "  "))) == NormalizeLines(Split(c))
  {
    var pad := spaces + "  ";
    PadBlank(spaces);
    var l := Split(c);
    FramedNoNewlines(l, spaces);
    NormalizeIndent([[]] + l + [spaces], pad);
    FirstLineNotBlank(c);
    FramedNormal(l, spaces);
  }

  lemma PadBlank(spaces: string)
    requires Blank(spaces) && '\n' !in spaces
    ensures Blank(spaces + "  ") && '\n' !in spaces + "  "
  {
    BlankAppend(spaces, "  ");
  }

  lemma FirstLineNotBlank(c: string)
    requires c != [] && Trimmed(c)
    ensures !Blank(Split(c)[0])
  {
    TrimmedEnds(c);
    var l0 := Split(c)[0];
    assert !IsSpace(l0[0]);
  }

  /** A trimmed block with trimmed lines is its own normal form, line by line. */
  lemma TrimmedLinesNormal(c: string)
    requires !Blank(c) && Trimmed(c) && LinesTrimmed(Split(c))
    ensures NormalizeLines(Split(c)) == Some(c)
  {
    var l := Split(c);
    StripTrimmed(c);
    NormalizeViaLines(c);
    assert CleanLines(l) by {
      forall i | 0 <= i < |l| ensures l[i] == [] || !Blank(l[i]) {
        TrimProperties(l[i]);
      }
    }
    CanonicalIsFixpoint(c);
  }

  /**
   * Render-then-normalise round trip for one block: a trimmed text whose lines are trimmed comes
   * back unchanged from the text content of its rendering, at any indentation.
   */
  lemma RenderRoundTrip(c: string, indent: nat)
    requires !Blank(c) && Trimmed(c) && LinesTrimmed(Split(c))
    ensures NormalizeBlock(BlockBody(Some(c), indent)) == Some(c)
  {
    RenderedLines(c, indent);
    TrimmedLinesNormal(c);
  }

  /** A non-space character with something after it survives dropping one trailing newline. */
  lemma NotBlankMiddle(a: string, f: string, b: string)
    requires f != [] && !IsSpace(f[0])
    ensures !Blank(DropLastNewline(a + f + "\n" + b))
  {
    var s := a + f + "\n" + b;
    assert s[|a|] == f[0];
    var t := DropLastNewline(s);
    assert |t| > |a| && t[|a|] == s[|a|];
  }

  /** The formatted text of non-blank content starts with a non-space character. */
  lemma FormattedPresent(c: string, indent: nat)
    requires !Blank(c)
    ensures FormattedText(c, indent) != [] && !IsSpace(FormattedText(c, indent)[0])
  {
    var pad := Spaces(indent) + "  ";
    var l := Split(c);
    var f := FormatLines(l, pad);
    SplitNotBlank(c);
    var k :| 0 <= k < |l| && !Blank(l[k]);
    TrimProperties(l[k]);
    assert f[k] == pad + Trim(l[k]);
    BlankAppend(pad, Trim(l[k]));
    JoinNotBlank(f, k);
    TrimProperties(Join(f));
  }

  /** Non-blank content renders to a body that does not read back as absent. */
  lemma RenderPresent(c: string, indent: nat)
    requires !Blank(c)
    ensures NormalizeBlock(BlockBody(Some(c), indent)).Some?
  {
    var body := BlockBody(Some(c), indent);
    var spaces := Spaces(indent);
    var formatted := FormattedText(c, indent);
    FormattedPresent(c, indent);
    BodyAssoc(spaces, formatted);
    var u := spaces + "  " + formatted + "\n" + spaces;
    assert body == "\n" + u;
    assert DropFirstNewline(body) == u;
    NotBlankMiddle(spaces + "  ", formatted, spaces);
    NormalizeAbsent(body);
  }

  /** The rendered block reads back as absent exactly when the content was absent or blank. */
  lemma RenderAbsent(content: Option<string>, indent: nat)
    ensures NormalizeBlock(BlockBody(content, indent)) == None <==> content.None? || Blank(content.value)
  {
    if content.None? || Blank(content.value) {
      var body := BlockBody(content, indent);
      NormalizeAbsent(body);
      assert StripBoundaryNewlines(body) == DropLastNewline(Spaces(indent));
    } else {
      RenderPresent(content.value, indent);
    }
  }
}

=== FILE: xml_escape.dfy ===
/**
 * `escapeXml` and `unescapeXml` (src/lib/xml-utils.js), written as the chains of global
 * replacements the source performs, together with a character-by-character reading of the
 * same text (`Encode`) through which the two chains are shown to be inverse.
 */
module XmlEscape {
  import opened Seqs

  /** `s.replace(/pat/g, rep)` for a literal pattern: leftmost, non-overlapping occurrences. */
  function ReplaceAll(s: string, pat: string, rep: string): string
    requires pat != []
    decreases |s|
  {
    if |s| < |pat| then s
    else if s[..|pat|] == pat then rep + ReplaceAll(s[|pat|..], pat, rep)
    else [s[0]] + ReplaceAll(s[1..], pat, rep)
  }

  /** `escapeXml`: ampersand first, so that later entities are not escaped again. */
  function EscapeXml(s: string): string {
    ReplaceAll(ReplaceAll(ReplaceAll(ReplaceAll(s, "&", "&amp;"), "<", "&lt;"), ">", "&gt;"), "\"", "&quot;")
  }

  /** `unescapeXml`: ampersand last, so that `&amp;lt;` does not collapse to `<`. */
  function UnescapeXml(s: string): string {
    ReplaceAll(ReplaceAll(ReplaceAll(ReplaceAll(ReplaceAll(
      s, "&apos;", "'"), "&quot;", "\""), "&gt;", ">"), "&lt;", "<"), "&amp;", "&")
  }

  /** The characters `escapeXml` rewrites. */
  predicate IsReserved(c: char) {
    c == '&' || c == '<' || c == '>' || c == '"'
  }

  const Reserved: set<char> := {'&', '<', '>', '"'}

  /** The entity `escapeXml` writes for a reserved character. */
  function Entity(c: char): (e: string)
    requires IsReserved(c)
    ensures |e| >= 4 && e[0] == '&' && '&' !in e[1..]
  {
    if c == '&' then "&amp;" else if c == '<' then "&lt;" else if c == '>' then "&gt;" else "&quot;"
  }

  /** `s` with exactly the reserved characters that lie in `enc` written as entities. */
  function Encode(s: string, enc: set<char>): string
    decreases |s|
  {
    if s == [] then [] else Piece(s[0], enc) + Encode(s[1..], enc)
  }

  function Piece(c: char, enc: set<char>): string {
    if c in enc && IsReserved(c) then Entity(c) else [c]
  }

  /** Neither string is a prefix of the other: no match can start at the first one. */
  predicate Diverge(u: string, pat: string) {
    !(pat <= u) && !(u <= pat)
  }

  /** A mismatch within both strings makes them diverge. */
  lemma DivergeAt(u: string, pat: string, k: nat)
    requires k < |u| && k < |pat| && u[k] != pat[k]
    ensures Diverge(u, pat)
  {
    if |pat| <= |u| {
      assert u[..|pat|][k] != pat[k];
    }
    if |u| <= |pat| {
      assert pat[..|u|][k] != u[k];
    }
  }

  /** Two distinct entities diverge: they differ in their second character. */
  lemma EntitiesDiverge(x: char, y: char)
    requires IsReserved(x) && IsReserved(y) && x != y
    ensures Diverge(Entity(x), Entity(y))
  {
    DivergeAt(Entity(x), Entity(y), 1);
  }

  /** No entity `escapeXml` writes is a prefix of `&apos;`, nor the converse. */
  lemma EntityDivergesApos(x: char)
    requires IsReserved(x)
    ensures Diverge(Entity(x), "&apos;")
  {
    DivergeAt(Entity(x), "&apos;", if x == '&' then 2 else 1);
  }

  /** A replacement pass leaves alone a prefix that cannot start a match. */
  lemma {:induction false} ReplaceSkip(u: string, t: string, pat: string, rep: string)
    requires pat != [] && pat[0] !in u
    ensures ReplaceAll(u + t, pat, rep) == u + ReplaceAll(t, pat, rep)
    decreases |u|
  {
    if u == [] {
      assert u + t == t;
    } else {
      TailAppend(u, t);
      FirstDiffers(u + t, pat);
      ReplaceSkip(u[1..], t, pat, rep);
      calc {
        ReplaceAll(u + t, pat, rep);
        == { ReplaceNoMatch(u + t, pat, rep); }
        [u[0]] + ReplaceAll(u[1..] + t, pat, rep);
        == { AppendAssoc([u[0]], u[1..], ReplaceAll(t, pat, rep)); HeadTail(u); }
        u + ReplaceAll(t, pat, rep);
      }
    }
  }

  /** A text whose first character differs from the pattern's does not start with it. */
  lemma FirstDiffers(s: string, pat: string)
    requires s != [] && pat != [] && s[0] != pat[0]
    ensures !(pat <= s)
  {
  }

  /** A replacement pass rewrites a leading occurrence of the pattern. */
  lemma ReplaceMatch(t: string, pat: string, rep: string)
    requires pat != []
    ensures ReplaceAll(pat + t, pat, rep) == rep + ReplaceAll(t, pat, rep)
  {
    assert (pat + t)[..|pat|] == pat && (pat + t)[|pat|..] == t;
  }

  /** Where no match starts, a replacement pass keeps the first character. */
  lemma ReplaceNoMatch(s: string, pat: string, rep: string)
    requires pat != [] && s != [] && !(pat <= s)
    ensures ReplaceAll(s, pat, rep) == [s[0]] + ReplaceAll(s[1..], pat, rep)
  {
    if |s| < |pat| {
      assert ReplaceAll(s[1..], pat, rep) == s[1..];
      assert [s[0]] + s[1..] == s;
    }
  }

  /** A text that starts with a string diverging from the pattern does not start with the pattern. */
  lemma DivergeNoMatch(u: string, t: string, pat: string)
    requires Diverge(u, pat)
    ensures !(pat <= u + t)
  {
    var s := u + t;
    if |pat| <= |s| {
      if |u| >= |pat| {
        assert s[..|pat|] == u[..|pat|];
      } else {
        assert s[..|pat|][..|u|] == u;
        assert pat[..|u|] != u;
      }
    }
  }

  /** A prefix that diverges from the pattern and holds its first character only once is kept. */
  lemma ReplaceDiverging(u: string, t: string, pat: string, rep: string)
    requires pat != [] && u != [] && pat[0] !in u[1..] && Diverge(u, pat)
    ensures ReplaceAll(u + t, pat, rep) == u + ReplaceAll(t, pat, rep)
  {
    var s := u + t;
    DivergeNoMatch(u, t, pat);
    TailAppend(u, t);
    calc {
      ReplaceAll(s, pat, rep);
      == { ReplaceNoMatch(s, pat, rep); }
      [u[0]] + ReplaceAll(u[1..] + t, pat, rep);
      == { ReplaceSkip(u[1..], t, pat, rep); }
      [u[0]] + (u[1..] + ReplaceAll(t, pat, rep));
      == { AppendAssoc([u[0]], u[1..], ReplaceAll(t, pat, rep)); HeadTail(u); }
      u + ReplaceAll(t, pat, rep);
    }
  }

  /** Encoding distributes over concatenation. */
  lemma {:induction false} EncodeAppend(a: string, b: string, enc: set<char>)
    ensures Encode(a + b, enc) == Encode(a, enc) + Encode(b, enc)
    decreases |a|
  {
    if a == [] {
      assert a + b == b;
    } else {
      assert (a + b)[0] == a[0] && (a + b)[1..] == a[1..] + b;
      EncodeAppend(a[1..], b, enc);
    }
  }

  /** Encoding nothing is the identity. */
  lemma {:induction false} EncodeNothing(s: string, enc: set<char>)
    requires forall c :: c in enc ==> !IsReserved(c)
    ensures Encode(s, enc) == s
    decreases |s|
  {
    if s != [] {
      EncodeNothing(s[1..], enc);
      assert [s[0]] + s[1..] == s;
    }
  }

  /** One pass of `escapeXml`: replacing `c` by its entity encodes `c` as well. */
  lemma {:induction false} EscapeStep(s: string, enc: set<char>, c: char)
    requires IsReserved(c) && c !in enc
    requires forall e :: e in enc && IsReserved(e) ==> c !in Entity(e)
    ensures ReplaceAll(Encode(s, enc), [c], Entity(c)) == Encode(s, enc + {c})
    decreases |s|
  {
    if s != [] {
      EscapeStep(s[1..], enc, c);
      var p := Piece(s[0], enc);
      if s[0] == c {
        assert p == [c];
        ReplaceMatch(Encode(s[1..], enc), [c], Entity(c));
      } else {
        assert c !in p;
        ReplaceSkip(p, Encode(s[1..], enc), [c], Entity(c));
      }
    }
  }

  /** One pass of `unescapeXml`: replacing the entity of `c` by `c` decodes `c`. */
  lemma {:induction false} UnescapeStep(s: string, enc: set<char>, c: char)
    requires IsReserved(c) && c in enc && '&' in enc
    ensures ReplaceAll(Encode(s, enc), Entity(c), [c]) == Encode(s, enc - {c})
    decreases |s|
  {
    if s != [] {
      UnescapeStep(s[1..], enc, c);
      var x := s[0];
      var p := Piece(x, enc);
      var t := Encode(s[1..], enc);
      if x == c {
        ReplaceMatch(t, Entity(c), [c]);
      } else if x in enc && IsReserved(x) {
        EntitiesDiverge(x, c);
        ReplaceDiverging(p, t, Entity(c), [c]);
      } else {
        ReplaceSkip(p, t, Entity(c), [c]);
      }
    }
  }

  /** The `&apos;` pass of `unescapeXml` finds nothing in encoded text. */
  lemma {:induction false} UnescapeAposStep(s: string, enc: set<char>)
    requires '&' in enc
    ensures ReplaceAll(Encode(s, enc), "&apos;", "'") == Encode(s, enc)
    decreases |s|
  {
    if s != [] {
      UnescapeAposStep(s[1..], enc);
      var x := s[0];
      var p := Piece(x, enc);
      var t := Encode(s[1..], enc);
      if x in enc && IsReserved(x) {
        EntityDivergesApos(x);
        ReplaceDiverging(p, t, "&apos;", "'");
      } else {
        ReplaceSkip(p, t, "&apos;", "'");
      }
    }
  }

  /** The chain of replacements in `escapeXml` is the character-by-character encoding. */
  lemma EscapeIsEncode(s: string)
    ensures EscapeXml(s) == Encode(s, Reserved)
  {
    var e0 := ReplaceAll(s, "&", "&amp;");
    var e1 := ReplaceAll(e0, "<", "&lt;");
    var e2 := ReplaceAll(e1, ">", "&gt;");
    EncodeNothing(s, {});
    EscapeStep(s, {}, '&');
    assert ['&'] == "&" && Entity('&') == "&amp;" && {} + {'&'} == {'&'};
    assert e0 == Encode(s, {'&'});
    EscapeStep(s, {'&'}, '<');
    EscapeStep(s, {'&', '<'}, '>');
    EscapeStep(s, {'&', '<', '>'}, '"');
    assert {'&'} + {'<'} == {'&', '<'};
    assert {'&', '<'} + {'>'} == {'&', '<', '>'};
    assert {'&', '<', '>'} + {'"'} == Reserved;
    assert e1 == Encode(s, {'&', '<'});
    assert e2 == Encode(s, {'&', '<', '>'});
  }

  /** `unescapeXml` undoes `escapeXml`, for every string. */
  lemma UnescapeEscape(s: string)
    ensures UnescapeXml(EscapeXml(s)) == s
  {
    EscapeIsEncode(s);
    UnescapeAposStep(s, Reserved);
    UnescapeStep(s, Reserved, '"');
    assert Reserved - {'"'} == {'&', '<', '>'};
    UnescapeStep(s, {'&', '<', '>'}, '>');
    assert {'&', '<', '>'} - {'>'} == {'&', '<'};
    UnescapeStep(s, {'&', '<'}, '<');
    assert {'&', '<'} - {'<'} == {'&'};
    UnescapeStep(s, {'&'}, '&');
    assert {'&'} - {'&'} == {};
    EncodeNothing(s, {});
  }

  /** `t` starts with one of the four entities `escapeXml` writes. */
  predicate StartsWithEntity(t: string) {
    "&amp;" <= t || "&lt;" <= t || "&gt;" <= t || "&quot;" <= t
  }

  /** No raw `<`, `>` or `"`, and every `&` opens an entity. */
  predicate EscapedText(r: string) {
    forall i :: 0 <= i < |r| ==> r[i] != '<' && r[i] != '>' && r[i] != '"' && (r[i] == '&' ==> StartsWithEntity(r[i..]))
  }

  lemma EscapedAppend(a: string, b: string)
    requires EscapedText(a) && EscapedText(b)
    ensures EscapedText(a + b)
  {
    forall i | 0 <= i < |a + b|
      ensures (a + b)[i] != '<' && (a + b)[i] != '>' && (a + b)[i] != '"'
      ensures (a + b)[i] == '&' ==> StartsWithEntity((a + b)[i..])
    {
      if i < |a| {
        assert (a + b)[i..] == a[i..] + b;
        assert (a + b)[i] == a[i];
      } else {
        assert (a + b)[i..] == b[i - |a|..];
        assert (a + b)[i] == b[i - |a|];
      }
    }
  }

  lemma EscapedPiece(c: char)
    ensures EscapedText(Piece(c, Reserved))
  {
    var p := Piece(c, Reserved);
    if IsReserved(c) {
      assert p[0] == '&' && p[0..] == p;
      forall i | 1 <= i < |p| ensures p[i] != '&' && p[i] != '<' && p[i] != '>' && p[i] != '"' {
      }
    }
  }

  /** `escapeXml` output is safe inside a double-quoted attribute and inside text. */
  lemma {:induction false} EscapeIsEscaped(s: string)
    ensures EscapedText(EscapeXml(s))
  {
    EscapeIsEncode(s);
    EncodedIsEscaped(s);
  }

  lemma {:induction false} EncodedIsEscaped(s: string)
    ensures EscapedText(Encode(s, Reserved))
    decreases |s|
  {
    if s != [] {
      EscapedPiece(s[0]);
      EncodedIsEscaped(s[1..]);
      EscapedAppend(Piece(s[0], Reserved), Encode(s[1..], Reserved));
    }
  }

  /** Escaping the empty string gives the empty string, and nothing else does. */
  lemma EscapeEmpty(s: string)
    ensures EscapeXml(s) == [] <==> s == []
  {
    EscapeIsEncode(s);
    if s != [] {
      assert Encode(s, Reserved) == Piece(s[0], Reserved) + Encode(s[1..], Reserved);
    }
  }
}
